=== FILE: README.md ===
# adsb2 contour extraction, modelled in Dafny

adsb2 segments the left ventricle in cardiac MRI slices and turns the
segmented areas into volume predictions. This project models:

- **The CA1 contour extractor (adsb2-ca1.cpp).**
  - A polar image is searched row by row (one row per angle) for the column where the ventricle wall lies.
  - The search is `WorkSpace::run`, a longest-path dynamic program over a rows x cols grid of entries (`PolarDP`, `PolarDPFacts`, `RowGain`).
  - Around it sit:
    - the row thresholds of the two passes (`Thresholds`);
    - the circular-window contour average `contour_avg` (`ContourWindow`);
    - the band finder `find_shift` (`BandShift`);
    - the controller `helper` and the slice-level `study_CA1` (`CA1`).
  - `helper` runs the DP twice on one workspace. Pass 1 reads the probability channel over full rows; pass 2 reads the intensity channel over a band around the pass-1 contour.
- **The pure helpers of adsb2.cpp:**
  - the `key=value` configuration overrides (`Overrides`);
  - the circular row padding (`RowPadding`);
  - the annotation-kind codec and annotation-line dispatch (`Annotations`);
  - the CRPS score (`Crps`);
  - top-down detection and de-duplication of a study's series (`StudyRepair`);
  - the slice-report bucketing and `path_to_study_id` (`Reports`);
  - `accumulate` and `getColorBounds` (`ImageStats`).
- **The volume aggregation of predict.cpp (`Volume`).**
- **The importers (import.cpp, import_many.cpp):**
  - box rounding and list loading (`ImportList`);
  - k-fold partitioning (`Folds`);
  - the train/val split and the replica loop (`ImportMany`);
  - the commit batching both importers share (`Batching`).

Shared pieces live in `numeric.dfy`:

- `Checks`: `Checked<T>`, either `Ok(value)` or `Abort(reason)`. It stands for every `CHECK`, thrown exception or undefined read of the source, and for `BOOST_VERIFY` in a build with assertions enabled (without `NDEBUG`).
- `Numeric`: sums, means, running minima and truncation.
- `Raster`: images as `seq<seq<real>>`.
- `Sorting` (`sorting.dfy`): an insertion sort standing for `std::sort`. For a total order on the sorted values, `std::sort`'s result is unique, so the model is exact.

Floats are modelled as `real`. The source's sentinel `std::numeric_limits<float>::max()` is the exact real `FloatMax`.

Three kinds of value are parameters:

- Points on the polar grid.
- `distance`, `std::sqrt` and `sqrtf`, as functions.
- OpenCV results the code only consumes: the eroded image, colour sums, the warped masks.

## Model

| member | source | states |
|---|---|---|
| PolarDP.NewWorkSpace | adsb2-ca1.cpp:31-51 | aborts iff image and prob differ in rows or columns; otherwise every cell carries its two pixels and its point, score -FLT_MAX and predecessor -1 |
| PolarDP.ScanPrev | adsb2-ca1.cpp:107-119 | the predecessor chosen is the initial one or a column of the scanned window |
| PolarDP.Sweep | adsb2-ca1.cpp:66-133 | visiting rows in order keeps the grid's shape and leaves rows not yet visited untouched |
| PolarDP.SweepRow | adsb2-ca1.cpp:66-133 | each visited row is computed from its own original cells and the already updated row above it |
| PolarDP.Backtrack | adsb2-ca1.cpp:134-140 | the backtracked path has one column per row, ends at the start column, and follows `prev` links: `seg[k-1] == prev[k][seg[k]]`; a column outside the row aborts |
| PolarDP.Run | adsb2-ca1.cpp:53-161 | aborts when `th.size() != rows`, and when rows >= 2 and the last row's range is empty; otherwise `seg` has `rows` in-grid entries linked by `prev`; a single row gives `[0]` (best_cc keeps its initial 0); for rows >= 2 the last entry is the first best column of the last range |
| PolarDP.ScanBestIsFirstBest | adsb2-ca1.cpp:128-131 | the last-row scan returns the first column of the range with the greatest score, or -1 for an empty range |
| PolarDP.ScanBestInvariant | adsb2-ca1.cpp:128-131 | the last-row scan keeps "first best so far" as its loop invariant |
| PolarDPFacts.FirstRowScores | adsb2-ca1.cpp:68-86 | in row 0 each in-range cell has `prev == -1` and `opt` equal to the sum, over the range's columns up to it, of the gain used minus `scost` |
| PolarDPFacts.RowGainsMonotone | adsb2-ca1.cpp:72-81 | with `mono` the gains a row uses never increase left to right and never exceed the raw gain; without it they are the raw gains |
| PolarDPFacts.ScanPrevChoice | adsb2-ca1.cpp:107-119 | the predecessor loop returns the first candidate with the greatest score when one beats -FLT_MAX, and otherwise score -FLT_MAX with predecessor 0 |
| PolarDPFacts.ScanPrevInvariant | adsb2-ca1.cpp:109-119 | the predecessor loop's invariant carries through to its result |
| PolarDPFacts.LinkChoice | adsb2-ca1.cpp:105-127 | a later row's in-range cell keeps its pixels and point; its predecessor is the first best of the window `[max(x-gap, first), min(x+gap+1, second))`, and the closure penalty is paid only on the last row; `prev0` is the predecessor's point (row 1) or the predecessor's `prev0` |
| PolarDPFacts.OutsideRangeUnchanged | adsb2-ca1.cpp:93-132 | cells outside a row's range are unchanged by a run, and no cell's pixels or point ever change |
| PolarDPFacts.NewRowKeeps | adsb2-ca1.cpp:93-127 | visiting one row rewrites only the score fields of its in-range cells |
| PolarDPFacts.AnchorCarried | adsb2-ca1.cpp:122-127 | `prev0[y][x]` is the row-0 point of the column reached by following `prev` links from (y, x), as long as the chain stays inside the ranges |
| PolarDPFacts.GapRespected | adsb2-ca1.cpp:105-121 | when a predecessor beats the sentinel, consecutive contour columns differ by at most `gap` and the earlier one is in its row's range |
| RowGain.ScanIsPrefixSum | adsb2-ca1.cpp:69-85 | the source's `acc` after column i equals the running sum of (used gain - scost) over columns 0..i, where the used gain is the raw gain, or with `mono` the running minimum of `last_delta` and the raw gains |
| RowGain.UsedGainsShape | adsb2-ca1.cpp:94-103 | with `mono` the used gains are non-increasing and bounded by the raw gains and the starting `last_delta`; without it they are the raw gains |
| RowGain.UsedGainsTail | adsb2-ca1.cpp:96-103 | the first used gain is the raw gain clamped by `last_delta`, and the rest continue from the updated `last_delta` |
| ContourWindow.Samples | adsb2-ca1.cpp:214-222 | one sample per contour row, each a pixel of that row (the column is clamped into the row) |
| ContourWindow.WindowLength | adsb2-ca1.cpp:225-226 | `N` is `n*pct` truncated and capped at n; a negative product compares above n as an unsigned and becomes n |
| ContourWindow.Doubled | adsb2-ca1.cpp:231-236 | the replicated samples have 2n+1 entries and entry k is sample k mod n |
| ContourWindow.PartialSumsDiff | adsb2-ca1.cpp:237-241 | `intv[i+N] - intv[i]` is the sum of the N samples after i |
| ContourWindow.WindowStart | adsb2-ca1.cpp:229-247 | `best_begin + N <= 2n`, so the averaged run stays inside the doubled samples |
| ContourWindow.Window | adsb2-ca1.cpp:252-254 | the averaged run is N consecutive samples, read circularly from `best_begin` |
| ContourWindow.WindowStartDarkest | adsb2-ca1.cpp:239-246 | with sign +1 and N < n, `best_begin` is the first position with the least scored sum when some window sums below FLT_MAX, else 0 |
| ContourWindow.ScanMinInvariant | adsb2-ca1.cpp:240-246 | the window loop keeps "first least window so far" as its invariant |
| ContourWindow.WindowStartNegativeSign | adsb2-ca1.cpp:239-246 | with sign -1 the sentinel is -FLT_MAX, so `best_begin` stays 0 whenever no window sums above FLT_MAX |
| ContourWindow.ScoredRunIsShifted | adsb2-ca1.cpp:238-254 | the scored sum is the averaged run minus its first sample plus the sample after it: the run averaged starts one place before the run scored |
| ContourWindow.VarianceNonNegative | adsb2-ca1.cpp:249-256 | the population variance behind `sigma` is never negative |
| ContourWindow.ContourAvg | adsb2-ca1.cpp:212-259 | aborts exactly when the contour and image lengths differ, a row has no column, or N <= n/2 |
| ContourWindow.ContourAvgBounds | adsb2-ca1.cpp:252-258 | the returned mean lies within any bounds on the image's pixels |
| ContourWindow.WholeContourMean | adsb2-ca1.cpp:229-258 | when N == n the result is the plain mean of all samples |
| Thresholds.ColMean | adsb2-ca1.cpp:196-197 | `cv::mean(colRange(lo, hi))` is defined exactly for `0 <= lo <= hi <= cols` |
| Thresholds.ColMeanBounds | adsb2-ca1.cpp:196-197 | a non-empty column band's mean lies within any bounds on its pixels |
| Thresholds.Dp1Thresholds | adsb2-ca1.cpp:193-210 | defined iff the margin fits the image; gives one threshold per row, all equal |
| Thresholds.Dp1Between | adsb2-ca1.cpp:199-204 | the threshold is the right-margin mean when it is not darker than the left one; otherwise it is small + (big - small) * thr1 and, for a weight in [0, 1], lies between the two means |
| Thresholds.Dp1Value | adsb2-ca1.cpp:199-204 | for any weight, every row's threshold is the right-margin mean (at least the left one) when the right margin is not darker, and small + (big - small) * thr1 otherwise |
| Thresholds.Dp1WithinPixelRange | adsb2-ca1.cpp:193-210 | with a margin of at least one column, the pass-1 threshold lies within any bounds on the probabilities |
| Thresholds.Dp2RowThreshold | adsb2-ca1.cpp:280-298 | without gth2, row y's threshold is `small + (big - small) * thr2`, where `small` is the least of `big` and that row's clamped eroded samples |
| Thresholds.Dp2GlobalThreshold | adsb2-ca1.cpp:264-276 | with gth2 every row gets `small + (big - small) * thr2`, where `small` is the least of `big` and the `contour_avg` means of offsets [-lbb, bound) |
| Thresholds.MinFromIsDarkLevel | adsb2-ca1.cpp:289-295 | the running minimum from `big_mean` is at most `big_mean` and every sample, and equals one of them |
| Thresholds.DarkBlendBetween | adsb2-ca1.cpp:296 | for a weight in [0, 1] the pass-2 threshold lies between the dark level and `big_mean` |
| Thresholds.Dp2Defined | adsb2-ca1.cpp:261-299 | get_dp2_th completes iff the margin fits, and the offset loop's reads are defined (`contour_avg` with gth2, a contour entry per row and a column per row without) |
| BandShift.PeakIsFirstMax | adsb2-ca1.cpp:319-325 | P1 is the first index of the greatest reverse gradient over the whole array (entries the loop skips are 0) |
| BandShift.Extend | adsb2-ca1.cpp:335-337 | the extension stops at the end, or before the first spread above the limit, and everything it passed is within the limit |
| BandShift.Band2Shape | adsb2-ca1.cpp:328-337 | P2 is the first least spread at or after max(P1, L1), then extended while within `sigma[P2] + extra_th` |
| BandShift.FindShift | adsb2-ca1.cpp:302-372 | aborts exactly when one of the two `contour_avg` calls does or the margins leave `sigma[P2]` outside the band (L2 < 0 or L1 + L2 < 0); otherwise `bound` lies in [1 + extra_delta, L2 + 1 + extra_delta] |
| CA1.FullRanges | adsb2-ca1.cpp:382-387 | pass 1 scans `[0, cols)` on every row |
| CA1.PassTwoRanges | adsb2-ca1.cpp:412-416 | one range per row, each inside the row |
| CA1.PassTwoRangeContains | adsb2-ca1.cpp:412-416 | a pass-2 range holds exactly the columns in `[c - minus, c + bound)` clipped to the row, and so holds c itself when bound >= 1 and minus >= 0 |
| CA1.BandMaskCells | adsb2-ca1.cpp:395-403 | the SL_XA band mask is 1 exactly on columns `[c, c + bound)` of each row |
| CA1.Helper | adsb2-ca1.cpp:374-422 | a result needs an image with rows; both contours have one column per row, inside the image; `bound` is within find_shift's bounds; without do_extend the result is the pass-1 contour |
| CA1.PassTwoCoversPassOne | adsb2-ca1.cpp:393-419 | with non-negative extra_delta and minus, every pass-1 column lies in its row's pass-2 range |
| CA1.ColorContrast | adsb2-ca1.cpp:503-527 | aborts exactly when the inside or the ring colour sum is negative |
| CA1.ColorContrastMeans | adsb2-ca1.cpp:505-527 | the contrast is inside mean minus ring mean; an empty inside or ring counts as one pixel, and the ring count uses the replaced inside count |
| CA1.PolarMask | adsb2-ca1.cpp:476-483 | the ones of row y fill cells [y cols, y cols + cc[y]) of the contiguous mask buffer, so a column past the row spills into the next rows; only a write past the end of the buffer aborts |
| CA1.PolarMaskNoSpill | adsb2-ca1.cpp:476-483 | when no contour column passes its row, a mask cell is 1 exactly when its column is left of its row's contour column |
| CA1.PolarMaskSpill | adsb2-ca1.cpp:477-482 | a contour column past the end of row y sets the first cells of row y + 1 |
| CA1.PolarMaskRowArea | adsb2-ca1.cpp:477-483 | when no contour column passes its row, each mask row sums to max(cc[y], 0) |
| CA1.Label | adsb2-ca1.cpp:476-527 | for a contour inside its rows, the labelled outcome's mask is set exactly left of the contour, and it exists iff the colour contrast does |
| CA1.StudyCA1 | adsb2-ca1.cpp:460-527 | a slice without a probability image only has its polar box reset; otherwise the slice is labelled iff helper and the colour contrast succeed, never with an empty contour, and its mask is set exactly left of helper's contour |
| Overrides.FindFirst | adsb2.cpp:55 | the position of the first '=' or the length when there is none |
| Overrides.SplitOverride | adsb2.cpp:55-59 | an override is accepted iff its first '=' is neither at 0 nor the last character |
| Overrides.SplitJoin | adsb2.cpp:55-60 | an accepted override has a non-empty key without '=' and a non-empty value, and key + "=" + value gives the override back |
| Overrides.JoinSplit | adsb2.cpp:55-60 | any non-empty key without '=' and non-empty value round-trip through `key=value` |
| Overrides.OverrideConfig | adsb2.cpp:53-62 | in a build with assertions enabled, aborts iff some override is rejected |
| Overrides.OverrideLastWins | adsb2.cpp:54-61 | a key ends up holding the value of the last override naming it; a key no override names keeps its old presence and value |
| RowPadding.Extend | adsb2.cpp:1405-1413 | defined iff r <= rows; gives rows + 2r rows |
| RowPadding.Unextend | adsb2.cpp:1415-1418 | defined iff r == 0 or r rows can be dropped from both ends; gives rows - 2r rows |
| RowPadding.ExtendIsCircular | adsb2.cpp:1405-1413 | row k of the padded image is row k - r of the original, read circularly |
| RowPadding.UnextendExtend | adsb2.cpp:1405-1418 | unextend(extend(in, r), r) gives `in` back for every 0 <= r <= rows |
| Annotations.KindId | adsb2.cpp:425-431 | none/box/poly/pred are saved as ids 0 to 3 |
| Annotations.KindOfId | adsb2.cpp:464-470 | loading accepts exactly the ids 0 to 3 and gives the kind saved under that id; any other id aborts |
| Annotations.KindRoundTrip | adsb2.cpp:425-470 | loading the id a kind is saved under gives the kind back |
| Annotations.IdRoundTrip | adsb2.cpp:425-470 | saving a loaded kind gives the id back |
| Annotations.SplitTabs | adsb2.cpp:380-381 | splitting on tabs without compression gives at least one field, none holding a tab |
| Annotations.JoinSplit | adsb2.cpp:380-381 | re-joining the fields with tabs gives the line back |
| Annotations.SplitJoin | adsb2.cpp:380-381 | splitting tab-free fields joined by tabs gives the fields back |
| Annotations.ParseSlice | adsb2.cpp:373-409 | a line is dispatched to a kind's loader iff it has 4 or at least 7 extra fields, and aborts otherwise; the path is its first field |
| Annotations.ParseSliceKind | adsb2.cpp:385-409 | 4 extra fields give a box; at least 7 give pred when the first extra field is "pred" (whose fields then start after it) and poly otherwise; any other count aborts |
| Crps.Split | adsb2.cpp:1324-1325 | the first loop runs to ceil(v) for v > 0 and not at all otherwise |
| Crps.Score | adsb2.cpp:1321-1343 | defined iff `x` has VALUES entries, ceil(v) <= VALUES and `x` is non-decreasing within [0, 1]; the score is the mean squared error against the step at ceil(v) and lies in [0, 1] |
| Crps.SquaredErrors | adsb2.cpp:1323-1332 | the two loops read inside `x` iff ceil(v) <= |x|, and sum x[i]^2 below the step and (1 - x[i])^2 from it |
| Crps.CheckCumulative | adsb2.cpp:1333-1337 | the check loop passes iff every x[i] is in [0, 1] and x is non-decreasing |
| Crps.TermsBounded | adsb2.cpp:1326-1333 | for a cumulative `x` every squared error is in [0, 1] |
| Crps.MeanBounded | adsb2.cpp:1342 | for a cumulative `x` the mean squared error is in [0, 1] |
| Crps.PerfectPrediction | adsb2.cpp:1321-1343 | a prediction equal to the step at ceil(v) scores 0 |
| Crps.SumZeroIffAllZero | adsb2.cpp:1326-1333 | a sum of non-negative squared errors is 0 iff every error is 0 |
| StudyRepair.RankLeIsPreorder | adsb2.cpp:872 | the pair order `std::sort` uses is total and transitive |
| StudyRepair.Ranks | adsb2.cpp:867-871 | one rank per series: its first slice's series number (truncated to int) and location |
| StudyRepair.CountsBounded | adsb2.cpp:873-877 | good + bad is at most n - 1 |
| StudyRepair.DetectTopdown | adsb2.cpp:864-889 | topdown iff the sorted ranks fall more often than they rise; with fix and topdown every location is negated and nothing else changes |
| StudyRepair.NegateSwapsCounts | adsb2.cpp:873-877 | negating every location swaps the rise and fall counts |
| StudyRepair.FixedIsNotTopdown | adsb2.cpp:864-889 | with distinct series numbers, a fixed study is no longer detected as top-down |
| StudyRepair.Kept | adsb2.cpp:968-984 | the kept series number between 1 and the original count, and the last series always survives |
| StudyRepair.KeptStep | adsb2.cpp:970-983 | a series within LOCATION_GAP_EPSILON of the last kept one replaces it; any other is appended |
| StudyRepair.StepReplace | adsb2.cpp:972-978 | the swap with the last kept series keeps the loop's invariant |
| StudyRepair.StepAppend | adsb2.cpp:979-983 | the swap into slot `off` keeps the loop's invariant |
| StudyRepair.Compact | adsb2.cpp:966-989 | the in-place loop with its swaps and final resize leaves exactly the kept series |
| StudyRepair.KeptIndices | adsb2.cpp:968-984 | the surviving input positions are strictly increasing, in range, and end at the last series |
| StudyRepair.KeptIsSubsequence | adsb2.cpp:968-984 | the kept series are the input series at those positions, in order |
| StudyRepair.KeptSpread | adsb2.cpp:968-984 | on sorted locations, consecutive kept series lie more than LOCATION_GAP_EPSILON apart |
| Reports.IndexOf | adsb2.cpp:1518-1523 | the position of the first "study" component, or the length |
| Reports.ParseShowInt | adsb2.cpp:1524 | `lexical_cast<int>` reads back every int written in decimal |
| Reports.ParsePositive | adsb2.cpp:1524 | a digit string within int range parses to its value |
| Reports.ParseNegative | adsb2.cpp:1524 | a minus sign followed by digits within int range parses to the negated value |
| Reports.ParseInt | adsb2.cpp:1524 | a parsed value is within int range |
| Reports.StudyIdOf | adsb2.cpp:1516-1524 | the id is the component just before the first "study" (the last component when there is none); an empty component list or a leading "study" aborts |
| Reports.StudyIdOfPath | adsb2.cpp:1516-1524 | a path `.../<id>/study/...` with no earlier "study" yields `id` |
| Reports.WithSax | adsb2.cpp:1590-1591 | a bucket holds only reports of that sax id, drawn from the file |
| Reports.MaxSax | adsb2.cpp:1576-1588 | `max_sax` starts at 0 and ends at the greatest sax id |
| Reports.Bucket | adsb2.cpp:1570-1592 | an unopenable file gives no buckets; otherwise the parse succeeds iff all reports share a study id and no sax id is negative, and then there are max_sax + 1 buckets, bucket b holding the reports of sax id b in file order |
| Reports.BucketsCoverAll | adsb2.cpp:1589-1592 | the bucket sizes add up to the number of reports |
| ImageStats.Accumulate | adsb2.cpp:1286-1303 | X holds the column sums, Y the row sums, and the total is the sum of either |
| ImageStats.RowsAndColumnsAgree | adsb2.cpp:1291-1299 | the row sums and the column sums add up to the same total |
| ImageStats.Unique | adsb2.cpp:1092 | `std::unique` keeps every value, adds none and keeps the last |
| ImageStats.UniqueIncreasing | adsb2.cpp:1089-1092 | on sorted input the distinct values are strictly increasing |
| ImageStats.ColorBounds | adsb2.cpp:1081-1101 | defined iff there is a pixel; `ub >= lb + GRAYS`; lb is a pixel value, and ub is one or is lb + GRAYS; lb is the larger of the sorted pixel at 20% and the distinct value at 0.5%, and ub is the smaller of the sorted pixel at 95% and the distinct value at 80% less one, raised to lb + GRAYS when short, each position cast to an index by truncation |
| ImageStats.PicksQuantileWindow | adsb2.cpp:1089-1100 | on a sorted series, a window built from the two picks has lb at or above every element up to the 20% position and, unless raised to lb + GRAYS, ub at or below every element from the 95% position on |
| ImageStats.ColorBoundsQuantiles | adsb2.cpp:1081-1101 | every pixel at or below the 20% position of the sorted pixels is at most lb; unless ub was raised to lb + GRAYS, every pixel from the 95% position on is at least ub |
| ImageStats.InSorted | adsb2.cpp:1089 | every value of the sorted array is a pixel of the series |
| Volume.Gap | predict.cpp:43-45 | a slice gap is the distance between locations, counted as 10 when above 25, so within [0, 25] |
| Volume.Compute1 | predict.cpp:32-60 | gives nothing iff the series disagree on slice count (an empty report or empty series aborts); sys is the least slice volume; dia is the first slice's volume when every slice volume is below 1.2 times it, and the greatest slice volume otherwise; sys <= all[0] <= dia |
| Volume.StackVolumeNonNegative | predict.cpp:39-47 | with non-negative areas and square root, a slice volume is non-negative |
| Volume.SeriesRange | predict.cpp:68-73 | a series' least area is at most each of its areas, which are at most its greatest |
| Volume.Compute2 | predict.cpp:62-87 | defined iff no series is empty; with at most one series both volumes are 0 |
| Volume.FrustumMonotone | predict.cpp:79-80 | a frustum grows with both areas for a monotone square root |
| Volume.Compute2FromOrdered | predict.cpp:66-83 | the loop keeps the systole sum at most the diastole sum |
| Volume.Compute2Ordered | predict.cpp:62-87 | with non-negative areas and a monotone square root, sys <= dia |
| ImportList.Round | import.cpp:38-41 | `std::round` is within half of its argument, and a tie is rounded away from zero |
| ImportList.RoundMonotone | import.cpp:38-41 | rounding is monotone |
| ImportList.RoundOdd | import.cpp:38-41 | rounding is symmetric about zero |
| ImportList.RoundBox | import.cpp:37-42 | the rounded corner and the rounded far edge are the rounded float corner and far edge |
| ImportList.RoundBoxBounds | import.cpp:37-42 | a box of non-negative size rounds to one of non-negative size, each edge within half a pixel of the original edge |
| ImportList.RoundBoxIntegral | import.cpp:37-42 | a box already on the integer grid is unchanged |
| ImportList.KeptLines | import.cpp:164-180 | the kept lines are lines of the file that parse and name a regular file, and every such line is kept |
| ImportList.LoadList | import.cpp:158-183 | sample k is the k-th kept line with id k, its path and its box; skipped lines consume no id |
| Batching.Import | import.cpp:58-99 | the trace is the items cut into blocks of 1000, each put and then committed (the last block possibly shorter) |
| Batching.ImportStep | import.cpp:88-94 | one put extends the open block, and the commit after the 1000th put closes it |
| Batching.ImportEnd | import.cpp:95-98 | after the loop with a partial block open, the count is off the block grid and the final commit closes that block |
| Batching.ChunkedPuts | import.cpp:58-99 | the trace puts every item once, in order, and commits ceil(n / 1000) times |
| Batching.ChunkedEndsCommitted | import.cpp:95-98 | a non-empty trace ends with a commit, so every put is committed |
| Batching.ChunkedCommitPoints | import.cpp:88-98 | the c-th commit follows exactly min(1000 (c + 1), n) puts |
| Batching.ChunkedNoEmptyCommit | import.cpp:88-98 | no commit opens the trace or follows another commit |
| Folds.Partition | import.cpp:191-195 | fold f holds samples f, f + F, f + 2F, ... in order, and the folds together hold every sample once |
| Folds.PartitionStep | import.cpp:193-194 | appending sample i to fold i % F keeps every fold a stride and the folds a partition |
| Folds.FoldOfIndex | import.cpp:193-194 | sample i sits at position i / F of fold i % F |
| Folds.StrideAt | import.cpp:193-194 | position k of fold f is sample f + kF, which exists iff f + kF < n |
| Folds.StrideSizesClose | import.cpp:191-195 | fold sizes differ by at most one |
| Folds.TrainOf | import.cpp:198-204 | train is every fold but f, concatenated in index order |
| Folds.TrainValPartition | import.cpp:197-204 | train and val together hold every sample once |
| Folds.RunFolds | import.cpp:197-215 | one run per fold under --full and only fold 0 without it; run f validates on fold f and trains on the rest |
| Folds.PlanRuns | import.cpp:144-215 | aborts iff F < 1; F == 1 imports everything unfolded; otherwise each run writes fold f's directory only under --full, validates on a stride of the shuffled samples and trains on all the others |
| ImportMany.Select | import_many.cpp:207-221 | a list holds only slices of the input whose pick matches |
| ImportMany.SplitByStudy | import_many.cpp:198-223 | the split succeeds iff every path's study id parses; train is the slices whose id is in `pids` and val the others, both in input order |
| ImportMany.SplitStep | import_many.cpp:207-221 | one more slice joins train iff its id is in `pids`, and val otherwise |
| ImportMany.SelectPartition | import_many.cpp:207-221 | train and val together hold every slice once |
| ImportMany.SelectSizes | import_many.cpp:207-221 | the train and val sizes add up to the number of slices |
| ImportMany.Replicate | import_many.cpp:52-72 | the puts are the replica passes in order: the list itself first, then the shuffled orders |
| ImportMany.PassesKeys | import_many.cpp:52-72 | the keys are 0, 1, 2, ... across passes, and exactly the first pass is unperturbed |
| ImportMany.FirstPass | import_many.cpp:54-58 | the first pass carries the list in its own order |
| ImportMany.ImportReplicas | import_many.cpp:33-115 | replica times n puts with keys 0.. and only the first pass unperturbed, committed in ceil(count / 1000) transactions, the last put covered by a final commit |
| Numeric.Clamp | adsb2-ca1.cpp:218-220 | a column is raised to 0 when negative and lowered to cols - 1 when past the end |
| Numeric.Trunc | adsb2-ca1.cpp:225 | float-to-int conversion truncates toward zero |
| Numeric.MinFromBounds | adsb2-ca1.cpp:289-295 | a running minimum is at most its start and every element, and equals one of them |
| Numeric.MeanBounds | adsb2-ca1.cpp:196-197 | a mean lies within any bounds on its elements |
| Sorting.SortSorted | adsb2.cpp:872 | the sort orders its input for a total, transitive order |
| Sorting.SortMap | adsb2.cpp:872 | sorting commutes with a map that preserves the order |

## Left out

- The polar resampling trigonometry of the WorkSpace constructor (adsb2-ca1.cpp:40-43): the points are a parameter `pts`.
- `distance` and `std::sqrt`: they are function parameters (`dist`, `root`). Nothing is assumed of `dist`; `Volume` assumes a non-negative, monotone `root` only where it says so.
- OpenCV calls:
  - `cv::mean` becomes sum over count, 0 for an empty region;
  - `erode` (the eroded image is an input);
  - `linearPolar`, `dilate`, `color_sum`, `bound_box` and `box_score` (`study_CA1` takes the colour and pixel sums as inputs);
  - `cv::sum` of the warped band mask behind SL_XA.
- `FloatMax` sentinels are kept exactly; IEEE rounding, overflow and NaN are not modelled (floats are `real`). The CHECK at adsb2-ca1.cpp:114 only rejects NaN, so it cannot fail here.
- `CHECK(best_cc = -1)` (adsb2-ca1.cpp:159) is an assignment that always passes; it is not modelled as a check.
- find_shift's `xx` output is computed but not returned: helper passes `extra_minus`, not `lbb`, to the pass-2 range and thresholds.
- find_shift does not clamp `bound` to be non-negative; the model follows the code. Its two averages are taken at every offset from -L1 to L2 and abort exactly when `contour_avg` does, which does not depend on the offset.
- BandShift.FindShift: `bound` is bounded through P2, but the individual `wavg`/`bavg` values are not related to the image beyond their definition.
- CA1.StudyCA1: the `EmptyContour` outcome (SL_AREA = 0) is kept to mirror the source, but the branch is dead: `helper` returns one column per row, and on an image without rows it aborts first, in `contour_avg`'s `CHECK(N > ctr.size() / 2)`.
- CA1.StudyCA1: the label mask takes the size of the polar image, since IM_POLAR is the same-sized `linearPolar` warp of IM_IMAGE (adsb2.cpp:544); that wrapper is not part of this model.
- CA1.Helper: the contour that `run` returns is proved to be inside the image, not to be the optimum of any objective; the DP's choices are stated cell by cell in `PolarDPFacts`.
- OpenMP parallel loops, the visualisation branch of `study_CA1`, and logging.
- Overrides.OverrideConfig: assumes a build with assertions enabled. Under `NDEBUG`, `BOOST_VERIFY(0)` (adsb2.cpp:58) is a no-op and line 60 stores the bad override anyway. With no '=', `npos + 1` wraps to 0, so key and value are both the whole override.
- Annotations.ParseSlice: the kind loaders (adsb2.cpp:169-188, 246-261, 312-326) are not modelled. Their `lexical_cast` calls, the `BOX_IS_RATIO` CHECKs and the field counts read from the line can still abort a line that `ParseSlice` dispatches, so `Ok` means only that a loader was chosen.
- OverrideConfig works on a `boost::property_tree` with dotted paths; it is modelled as a flat map from key to value. An override like "a=b=" is accepted with value "b=", because only the first '=' matters.
- RowPadding.Extend: `r` is unsigned in the source, so a request beyond the row count wraps and `rowRange` asserts; the model takes `r: nat` and aborts. Unextend with a negative `r` aborts as `rowRange` does.
- Crps.Score: `Eval::VALUES` comes from a header that is not part of this model, so it is a parameter. Reading `x[i]` for i >= VALUES in the first loop is undefined behaviour and is modelled as an abort.
- Crps.PerfectPrediction: only one direction is proved (a perfect step scores 0). The converse follows from SumZeroIffAllZero but is not stated.
- The epsilon-tolerant sort before the compaction loop (adsb2.cpp:913-924, 967) is left out: its comparator is not a strict weak order, so `std::sort`'s result is not determined. Compaction runs on the given order, and KeptSpread assumes non-decreasing locations.
- Series are modelled as non-empty, as `front()` requires.
- The metadata-field repair of `Study::sanity_check` uses `FreqCount::most_frequent`, which has no return statement, and `check_regroup` reads an uninitialised index; both are left out.
- Reports: the text parsing of `SliceReport::parse` is left out; a report line is given as its parsed fields. Paths are given already split into components. An unopenable file is an input (`None`).
- `getColorBounds` reads `IM_RAW` pixels from every image of the series; they are given as one sequence, and only their sorted order matters. `GRAYS` comes from a header that is not part of this model, so it is a parameter.
- ImageStats.ColorBounds: the pixels are `int`. `*lb + GRAYS` is float arithmetic on 16-bit values, which is exact, so `int` models it without rounding.
- ImportList: the stream extraction `ss >> path >> x >> y >> w >> h` and `fs::is_regular_file` are parameters (`parse`, `isFile`).
- Database writes, image loading, `Cook`, `Sampler` and the sample-image dump are reduced to the trace of puts and commits (`Batching.Event`). The same trace stands for both databases, which see the same puts and commits.
- `random_shuffle`: the shuffled orders are inputs, only constrained to be permutations.
- ImportMany.Replicate: a negative `replica` is not modelled (the unsigned comparison would loop some four billion times).
- import_many.cpp's `main` refers to `samples` where it declares `slices`, so it does not compile as shown. The split and the folds are modelled over the loaded list. The `pids` file is given as a set.
- The volume predictors' Gaussian accumulators (`exp`) and the CSV output of predict.cpp.

=== FILE: annotations.dfy ===
/** Annotation kinds of a slice and how they are chosen (adsb2.cpp:373-470):
    a slice line is split on tabs; the number of fields after the path picks
    box, polygon or prediction annotations; the chosen kind is written to the
    cache as a small integer id and read back from it. */
module Annotations {
  import opened Checks

  /** The annotation a slice carries: none, box_anno_ops, poly_anno_ops or
      pred_anno_ops. */
  datatype Kind = NoAnnotation | Box | Poly | Pred

  /** Slice::save: the id written for each kind. */
  function KindId(k: Kind): (id: int)
    ensures 0 <= id <= 3
  {
    match k
    case NoAnnotation => 0
    case Box => 1
    case Poly => 2
    case Pred => 3
  }

  /** Slice::load: the kind for an id; any other id aborts. */
  function KindOfId(id: int): (r: Checked<Kind>)
    ensures r.Ok? <==> 0 <= id <= 3
    ensures r.Ok? ==> KindId(r.value) == id
  {
    if id == 0 then Ok(NoAnnotation)
    else if id == 1 then Ok(Box)
    else if id == 2 then Ok(Poly)
    else if id == 3 then Ok(Pred)
    else Abort("unknown annotation type.")
  }

  /** Loading what was saved gives back the kind. */
  lemma KindRoundTrip(k: Kind)
    ensures KindOfId(KindId(k)) == Ok(k)
  {
  }

  /** Saving what was loaded gives back the id: the codec is a bijection
      between the four kinds and 0..3. */
  lemma IdRoundTrip(id: int)
    requires KindOfId(id).Ok?
    ensures KindId(KindOfId(id).value) == id
  {
  }

  /** boost::split on '\t' with token_compress_off: every tab separates two
      fields, so there is always at least one field and empty fields stay. */
  function SplitTabs(s: string): (fs: seq<string>)
    ensures |fs| >= 1
    ensures forall i | 0 <= i < |fs| :: '\t' !in fs[i]
    decreases |s|
  {
    if |s| == 0 then [""]
    else
      var tail := SplitTabs(s[1..]);
      if s[0] == '\t' then [""] + tail
      else [[s[0]] + tail[0]] + tail[1..]
  }

  /** The fields written back with a tab between each two. */
  function JoinTabs(fs: seq<string>): (s: string)
    requires |fs| >= 1
    decreases |fs|
  {
    if |fs| == 1 then fs[0] else fs[0] + "\t" + JoinTabs(fs[1..])
  }

  /** Splitting loses nothing: the fields spell the line. */
  lemma {:induction false} JoinSplit(s: string)
    ensures JoinTabs(SplitTabs(s)) == s
    decreases |s|
  {
    if |s| > 0 {
      var tail := SplitTabs(s[1..]);
      JoinSplit(s[1..]);
      if s[0] == '\t' {
        assert SplitTabs(s)[1..] == tail;
      } else {
        var fs := SplitTabs(s);
        assert fs[1..] == tail[1..];
        if |tail| > 1 {
          assert JoinTabs(tail) == tail[0] + "\t" + JoinTabs(tail[1..]);
        }
      }
    }
  }

  /** Fields free of tabs are recovered by splitting their join. */
  lemma {:induction false} SplitJoin(fs: seq<string>)
    requires |fs| >= 1 && forall i | 0 <= i < |fs| :: '\t' !in fs[i]
    ensures SplitTabs(JoinTabs(fs)) == fs
    decreases |fs|, |fs[0]|
  {
    if |fs[0]| > 0 {
      var rest := [fs[0][1..]] + fs[1..];
      assert JoinTabs(fs)[1..] == JoinTabs(rest) by {
        if |fs| > 1 {
          assert JoinTabs(rest) == fs[0][1..] + "\t" + JoinTabs(fs[1..]);
        }
      }
      assert fs[0][0] != '\t' by { assert fs[0][0] in fs[0]; }
      SplitJoin(rest);
      var line := JoinTabs(fs);
      assert line[0] == fs[0][0];
      assert SplitTabs(line) == [[fs[0][0]] + rest[0]] + rest[1..];
      assert [fs[0][0]] + fs[0][1..] == fs[0];
      assert rest[1..] == fs[1..];
    } else if |fs| > 1 {
      var line := JoinTabs(fs);
      assert line == "\t" + JoinTabs(fs[1..]);
      assert line[1..] == JoinTabs(fs[1..]);
      SplitJoin(fs[1..]);
      assert [""] + fs[1..] == fs;
    }
  }

  /** What Slice::Slice makes of a line: its path, the kind of annotation and
      the fields handed to that kind's loader. */
  datatype Parsed = Parsed(path: string, kind: Kind, fields: seq<string>)

  /** Slice::Slice dispatch on nf, the number of fields after the path. Ok
      means the line is handed to a loader; the loaders' own parsing and
      checks are not modelled. */
  function ParseSlice(line: string): (r: Checked<Parsed>)
    ensures var fs := SplitTabs(line);
            r.Ok? <==> |fs| - 1 == 4 || |fs| - 1 >= 7
    ensures r.Ok? ==> r.value.path == SplitTabs(line)[0] && r.value.kind != NoAnnotation
  {
    var ss := SplitTabs(line);
    var rest := ss[1..];
    var nf := |ss| - 1;
    if nf == 4 then Ok(Parsed(ss[0], Box, rest))
    else if nf >= 7 then
      if rest[0] == "pred" then Ok(Parsed(ss[0], Pred, rest[1..]))
      else Ok(Parsed(ss[0], Poly, rest))
    else Abort("annotation format not supported.")
  }

  /** The kind is chosen by the field count and the first field alone, and
      the loader sees every field after the path, minus the "pred" marker. */
  lemma ParseSliceKind(fs: seq<string>)
    requires |fs| >= 1 && forall i | 0 <= i < |fs| :: '\t' !in fs[i]
    ensures var r := ParseSlice(JoinTabs(fs));
            && (|fs| == 5 ==> r == Ok(Parsed(fs[0], Box, fs[1..])))
            && (|fs| >= 8 && fs[1] == "pred" ==> r == Ok(Parsed(fs[0], Pred, fs[2..])))
            && (|fs| >= 8 && fs[1] != "pred" ==> r == Ok(Parsed(fs[0], Poly, fs[1..])))
            && (|fs| != 5 && |fs| < 8 ==> r.Abort?)
  {
    SplitJoin(fs);
    var r := ParseSlice(JoinTabs(fs));
    if |fs| == 5 {
      assert r == Ok(Parsed(fs[0], Box, fs[1..]));
    } else if |fs| >= 8 {
      assert fs[1..][0] == fs[1];
      assert fs[1..][1..] == fs[2..];
    }
  }
}

=== FILE: batching.dfy ===
/** The write loop shared by both importers (import.cpp:58-99,
    import_many.cpp:52-114): every item is put into the open transaction,
    the transaction is committed after every 1000th put, and once more at
    the end unless the last put already closed a batch. The database is
    reduced to the trace of puts and commits it sees. */
module Batching {
  import opened Numeric

  /** Puts per transaction. */
  const BatchSize: nat := 1000

  datatype Event<T> = Put(item: T) | Commit

  /** The items of the puts of a trace, in order. */
  function Puts<T>(t: seq<Event<T>>): seq<T> {
    if |t| == 0 then []
    else Puts(t[..|t| - 1]) + (if t[|t| - 1].Put? then [t[|t| - 1].item] else [])
  }

  /** The number of commits in a trace. */
  function Commits<T>(t: seq<Event<T>>): nat {
    if |t| == 0 then 0
    else Commits(t[..|t| - 1]) + (if t[|t| - 1].Commit? then 1 else 0)
  }

  /** One put per item. */
  function PutAll<T>(items: seq<T>): (t: seq<Event<T>>)
    ensures |t| == |items| && forall k | 0 <= k < |items| :: t[k] == Put(items[k])
  {
    seq(|items|, k requires 0 <= k < |items| => Put(items[k]))
  }

  /** The reference trace: the items cut into blocks of BatchSize, the last
      one possibly shorter, each block put and then committed. */
  function Chunked<T>(items: seq<T>): seq<Event<T>>
    decreases |items|
  {
    if |items| == 0 then []
    else if |items| <= BatchSize then PutAll(items) + [Commit]
    else PutAll(items[..BatchSize]) + [Commit] + Chunked(items[BatchSize..])
  }

  /** import's loop: `if (++count % 1000 == 0)` commits after the put, and
      `if (count % 1000 != 0)` commits what is left. */
  method Import<T>(items: seq<T>) returns (trace: seq<Event<T>>)
    ensures trace == Chunked(items)
  {
    var count := 0;
    ghost var open := 0;
    trace := [];
    while count < |items|
      invariant 0 <= open <= count <= |items| && count - open < BatchSize
      invariant open % BatchSize == 0
      invariant trace == Chunked(items[..open]) + PutAll(items[open..count])
    {
      ImportStep(items, open, count);
      trace := trace + [Put(items[count])];
      count := count + 1;
      if count % BatchSize == 0 {
        trace := trace + [Commit];
        open := count;
      }
    }
    if open < count {
      ImportEnd(items, open);
      assert items[open..count] == items[open..];
    } else {
      assert items[..open] == items && items[open..count] == [];
    }
    if count % BatchSize != 0 {
      trace := trace + [Commit];
    }
  }

  /** One put of the loop, and the commit after every 1000th. */
  lemma ImportStep<T>(items: seq<T>, open: nat, count: nat)
    requires open <= count < |items| && count - open < BatchSize && open % BatchSize == 0
    ensures var t := Chunked(items[..open]) + PutAll(items[open..count]) + [Put(items[count])];
            && t == Chunked(items[..open]) + PutAll(items[open..count + 1])
            && ((count + 1) % BatchSize == 0 <==> count + 1 - open == BatchSize)
            && ((count + 1) % BatchSize == 0 ==> t + [Commit] == Chunked(items[..count + 1]) + PutAll(items[count + 1..count + 1]))
  {
    BlockStep(open, count + 1 - open);
    assert PutAll(items[open..count]) + [Put(items[count])] == PutAll(items[open..count + 1]);
    if (count + 1) % BatchSize == 0 {
      ChunkedAppend(items[..open], items[open..count + 1]);
      assert items[..open] + items[open..count + 1] == items[..count + 1];
      assert PutAll(items[count + 1..count + 1]) == [];
    }
  }

  /** After the loop, with a partial block open: the count is off the
      block grid and the final commit closes that block. */
  lemma ImportEnd<T>(items: seq<T>, open: nat)
    requires open < |items| && |items| - open < BatchSize && open % BatchSize == 0
    ensures |items| % BatchSize != 0
    ensures Chunked(items[..open]) + PutAll(items[open..]) + [Commit] == Chunked(items)
  {
    var a := items[..open];
    var c := items[open..];
    assert a + c == items;
    BlockStep(open, |items| - open);
    assert Chunked(c) == PutAll(c) + [Commit];
    ChunkedAppend(a, c);
  }

  lemma BlockStep(open: nat, d: nat)
    requires open % BatchSize == 0 && 0 < d <= BatchSize
    ensures (open + d) % BatchSize == (if d == BatchSize then 0 else d)
  {
  }

  /** Cutting at a block boundary commutes with chunking. */
  lemma {:induction false} ChunkedAppend<T>(a: seq<T>, c: seq<T>)
    requires |a| % BatchSize == 0
    ensures Chunked(a + c) == Chunked(a) + Chunked(c)
    decreases |a|
  {
    if |a| > 0 {
      BlockDrop(|a|);
      assert (a + c)[..BatchSize] == a[..BatchSize];
      assert (a + c)[BatchSize..] == a[BatchSize..] + c;
      ChunkedAppend(a[BatchSize..], c);
      if |a| == BatchSize {
        assert a[..BatchSize] == a;
        if |c| == 0 {
          assert a + c == a;
        } else {
          assert Chunked(a + c) == PutAll(a) + [Commit] + Chunked(c);
        }
      } else {
        assert Chunked(a) == PutAll(a[..BatchSize]) + [Commit] + Chunked(a[BatchSize..]);
        assert Chunked(a + c) == PutAll(a[..BatchSize]) + [Commit] + Chunked(a[BatchSize..] + c);
      }
    } else {
      assert a + c == c;
    }
  }

  lemma BlockDrop(x: nat)
    requires x % BatchSize == 0 && x > 0
    ensures x >= BatchSize && (x - BatchSize) % BatchSize == 0
  {
  }

  lemma {:induction false} PutsAppend<T>(s: seq<Event<T>>, t: seq<Event<T>>)
    ensures Puts(s + t) == Puts(s) + Puts(t)
    ensures Commits(s + t) == Commits(s) + Commits(t)
    decreases |t|
  {
    if |t| > 0 {
      assert (s + t)[..|s + t| - 1] == s + t[..|t| - 1];
      PutsAppend(s, t[..|t| - 1]);
    } else {
      assert s + t == s;
    }
  }

  lemma {:induction false} PutAllCounts<T>(items: seq<T>)
    ensures Puts(PutAll(items)) == items && Commits(PutAll(items)) == 0
    decreases |items|
  {
    if |items| > 0 {
      var n := |items| - 1;
      assert PutAll(items)[..n] == PutAll(items[..n]);
      PutAllCounts(items[..n]);
      assert items[..n] + [items[n]] == items;
    }
  }

  /** Chunking loses, adds and reorders nothing. */
  lemma {:induction false} ChunkedPuts<T>(items: seq<T>)
    ensures Puts(Chunked(items)) == items
    ensures Commits(Chunked(items)) == (|items| + BatchSize - 1) / BatchSize
    decreases |items|
  {
    if |items| > BatchSize {
      var head := PutAll(items[..BatchSize]);
      ChunkedPuts(items[BatchSize..]);
      PutAllCounts(items[..BatchSize]);
      PutsAppend(head, [Commit]);
      PutsAppend(head + [Commit], Chunked(items[BatchSize..]));
      assert Puts([Commit]) == Puts<T>([]) + [];
      assert items[..BatchSize] + items[BatchSize..] == items;
    } else if |items| > 0 {
      PutAllCounts(items);
      PutsAppend(PutAll(items), [Commit]);
      assert Puts([Commit]) == Puts<T>([]) + [];
    }
  }

  /** Every put is covered: a non-empty trace ends with a commit. */
  lemma ChunkedEndsCommitted<T>(items: seq<T>)
    requires |items| > 0
    ensures var t := Chunked(items); |t| > 0 && t[|t| - 1] == Commit
    decreases |items|
  {
    if |items| > BatchSize {
      ChunkedEndsCommitted(items[BatchSize..]);
    }
  }

  /** The c-th commit (counting from 0) follows exactly
      min(1000 (c + 1), n) puts: one after every 1000th put and a last one
      after the n-th. */
  lemma {:induction false} ChunkedCommitPoints<T>(items: seq<T>, i: nat)
    requires i < |Chunked(items)| && Chunked(items)[i] == Commit
    ensures var t := Chunked(items);
            |Puts(t[..i])| == Min(BatchSize * (Commits(t[..i]) + 1), |items|)
    decreases |items|
  {
    var t := Chunked(items);
    if |items| <= BatchSize {
      assert t == PutAll(items) + [Commit];
      assert i == |items| && t[..i] == PutAll(items);
      PutAllCounts(items);
    } else {
      var head := PutAll(items[..BatchSize]);
      var rest := Chunked(items[BatchSize..]);
      assert t == head + [Commit] + rest;
      if i <= BatchSize {
        assert i == BatchSize && t[..i] == head;
        PutAllCounts(items[..BatchSize]);
      } else {
        var j := i - BatchSize - 1;
        assert t[..i] == (head + [Commit]) + rest[..j];
        assert rest[j] == Commit;
        var pre := rest[..j];
        assert |Puts(pre)| == Min(BatchSize * (Commits(pre) + 1), |items| - BatchSize) by {
          ChunkedCommitPoints(items[BatchSize..], j);
        }
        assert |Puts(head + [Commit])| == BatchSize && Commits(head + [Commit]) == 1 by {
          PutAllCounts(items[..BatchSize]);
          PutsAppend(head, [Commit]);
          assert Puts([Commit]) == Puts<T>([]) + [];
        }
        var c := Commits(pre);
        assert |Puts(t[..i])| == BatchSize + |Puts(pre)| && Commits(t[..i]) == 1 + c by {
          PutsAppend(head + [Commit], pre);
        }
        assert Min(BatchSize * (c + 2), |items|) == BatchSize + Min(BatchSize * (c + 1), |items| - BatchSize);
      }
    }
  }

  /** No transaction is committed empty: a commit never opens the trace and
      never follows another commit. */
  lemma {:induction false} ChunkedNoEmptyCommit<T>(items: seq<T>, i: nat)
    requires i < |Chunked(items)| && Chunked(items)[i] == Commit
    ensures i > 0 && Chunked(items)[i - 1].Put?
    decreases |items|
  {
    var t := Chunked(items);
    if |items| > BatchSize {
      var head := PutAll(items[..BatchSize]);
      var rest := Chunked(items[BatchSize..]);
      assert t == head + [Commit] + rest;
      if i > BatchSize {
        var j := i - BatchSize - 1;
        assert rest[j] == t[i];
        ChunkedNoEmptyCommit(items[BatchSize..], j);
        assert t[i - 1] == rest[j - 1];
      }
    }
  }
}

=== FILE: config.dfy ===
/** Command-line configuration overrides, OverrideConfig (adsb2.cpp:53-62):
    every "-D key=value" string is split at its first '=' and stored in the
    configuration tree, later overrides replacing earlier ones. The tree is
    modelled as a map from the dotted key path to its string value. */
module Overrides {
  import opened Checks

  type Config = map<string, string>

  /** Index of the first occurrence of c in s, or |s| (npos) if none. */
  function FindFirst(s: string, c: char): (o: nat)
    ensures o <= |s|
    ensures o < |s| ==> s[o] == c
    ensures forall i | 0 <= i < o :: s[i] != c
  {
    if |s| == 0 then 0
    else if s[0] == c then 0
    else 1 + FindFirst(s[1..], c)
  }

  /** A "key=value" pair. */
  datatype Setting = Setting(key: string, value: string)

  /** The split of one override: rejected when there is no '=', when the
      first '=' opens the string, or when it is the last character. */
  function SplitOverride(d: string): (r: Checked<Setting>)
    ensures r.Ok? <==> exists i | 0 < i < |d| - 1 :: d[i] == '=' && forall j | 0 <= j < i :: d[j] != '='
  {
    var o := FindFirst(d, '=');
    assert (exists i | 0 < i < |d| - 1 :: d[i] == '=' && forall j | 0 <= j < i :: d[j] != '=') <==> 0 < o < |d| - 1 by {
      if 0 < o < |d| - 1 {
        assert d[o] == '=' && forall j | 0 <= j < o :: d[j] != '=';
      }
    }
    if o == |d| || o == 0 || o + 1 >= |d| then Abort("Bad parameter")
    else Ok(Setting(d[..o], d[o + 1..]))
  }

  /** The text an accepted override came from. */
  function Join(s: Setting): string {
    s.key + "=" + s.value
  }

  /** A setting an override can express: a non-empty key free of '=' and a
      non-empty value. */
  predicate Expressible(s: Setting) {
    |s.key| > 0 && '=' !in s.key && |s.value| > 0
  }

  /** An accepted override is a non-empty key without '=' and a non-empty
      value that together spell the original string. */
  lemma SplitJoin(d: string)
    requires SplitOverride(d).Ok?
    ensures Expressible(SplitOverride(d).value)
    ensures Join(SplitOverride(d).value) == d
  {
    var o := FindFirst(d, '=');
    assert d == d[..o] + "=" + d[o + 1..];
  }

  /** Every expressible setting survives writing it out and splitting it. */
  lemma JoinSplit(s: Setting)
    requires Expressible(s)
    ensures SplitOverride(Join(s)) == Ok(s)
  {
    var d := Join(s);
    assert d[..|s.key|] == s.key;
    assert d[|s.key|] == '=';
    assert d[|s.key| + 1..] == s.value;
    FindFirstPrefix(s.key, d);
  }

  lemma FindFirstPrefix(key: string, d: string)
    requires |key| < |d| && d[..|key|] == key && '=' !in key && d[|key|] == '='
    ensures FindFirst(d, '=') == |key|
  {
    assert forall i | 0 <= i < |key| :: d[i] == key[i];
  }

  /** OverrideConfig: apply the overrides in order; the first bad one aborts
      (BOOST_VERIFY in a build with assertions enabled). */
  function OverrideConfig(overrides: seq<string>, config: Config): (r: Checked<Config>)
    ensures r.Ok? <==> forall i | 0 <= i < |overrides| :: SplitOverride(overrides[i]).Ok?
    decreases |overrides|
  {
    if |overrides| == 0 then Ok(config)
    else
      var s :- SplitOverride(overrides[0]);
      var r := OverrideConfig(overrides[1..], config[s.key := s.value]);
      assert r.Ok? <==> forall i | 1 <= i < |overrides| :: SplitOverride(overrides[i]).Ok? by {
        forall i | 1 <= i < |overrides| ensures overrides[i] == overrides[1..][i - 1] { }
      }
      r
  }

  /** Override i is accepted and sets `key`. */
  predicate Names(overrides: seq<string>, i: nat, key: string)
    requires i < |overrides|
  {
    SplitOverride(overrides[i]).Ok? && SplitOverride(overrides[i]).value.key == key
  }

  /** Override i is the last one that sets `key`. */
  predicate LastNaming(overrides: seq<string>, i: nat, key: string)
    requires i < |overrides|
  {
    Names(overrides, i, key) && forall j | i < j < |overrides| :: !Names(overrides, j, key)
  }

  predicate Unnamed(overrides: seq<string>, key: string) {
    forall i | 0 <= i < |overrides| :: !Names(overrides, i, key)
  }

  /** After the overrides, a key holds the value of the last override naming
      it, and a key no override names keeps its old value. */
  lemma {:induction false} OverrideLastWins(overrides: seq<string>, config: Config, key: string)
    requires OverrideConfig(overrides, config).Ok?
    ensures var r := OverrideConfig(overrides, config).value;
            Unnamed(overrides, key) ==> (key in r <==> key in config) && (key in config ==> r[key] == config[key])
    ensures var r := OverrideConfig(overrides, config).value;
            forall i | 0 <= i < |overrides| && LastNaming(overrides, i, key) ::
              key in r && r[key] == SplitOverride(overrides[i]).value.value
    decreases |overrides|
  {
    if |overrides| > 0 {
      var s := SplitOverride(overrides[0]).value;
      var rest := overrides[1..];
      var next := config[s.key := s.value];
      var r := OverrideConfig(overrides, config).value;
      assert r == OverrideConfig(rest, next).value;
      assert forall i | 0 <= i < |rest| :: Names(rest, i, key) == Names(overrides, i + 1, key) by {
        assert forall i | 0 <= i < |rest| :: rest[i] == overrides[i + 1];
      }
      OverrideLastWins(rest, next, key);
      if Unnamed(overrides, key) {
        assert !Names(overrides, 0, key);
        assert Unnamed(rest, key) by {
          forall i | 0 <= i < |rest| ensures !Names(rest, i, key) {
            assert !Names(overrides, i + 1, key);
          }
        }
      }
      forall i | 0 <= i < |overrides| && LastNaming(overrides, i, key)
        ensures key in r && r[key] == SplitOverride(overrides[i]).value.value
      {
        if i == 0 {
          assert Unnamed(rest, key);
        } else {
          assert LastNaming(rest, i - 1, key);
          assert rest[i - 1] == overrides[i];
        }
      }
    }
  }
}

=== FILE: controller.dfy ===
/** The CA1 controller (adsb2-ca1.cpp:374-563): two DP passes over one
    workspace, the band finder between them, and the slice-level wrapper
    study_CA1 that turns the contour into a polar label mask and a colour
    contrast. */
module CA1 {
  import opened Checks
  import opened Numeric
  import opened Raster
  import opened PolarDP
  import opened ContourWindow
  import opened Thresholds
  import opened BandShift

  /** The CA1 configuration (the "adsb2.ca1.*" keys). */
  datatype CA1Config = CA1Config(
    margin1: int, margin2: int, thr1: real, thr2: real, smooth1: real, smooth2: real,
    extraDelta: int, extraMinus: int, extraTh: real, gap: int, doExtend: bool, ndisc: real,
    wctrpct: real, bctrpct: real, mink: int, w: int, scost2: real, gth2: bool)

  /** The defaults of the CA1 constructor (adsb2-ca1.cpp:424-443). */
  const Defaults := CA1Config(
    margin1 := 5, margin2 := 30, thr1 := 0.7, thr2 := 0.04, smooth1 := 10.0, smooth2 := 30.0,
    extraDelta := 0, extraMinus := 0, extraTh := 0.0, gap := 7, doExtend := true, ndisc := 0.4,
    wctrpct := 0.9, bctrpct := 0.8, mink := 3, w := 2, scost2 := 0.0, gth2 := false)

  /** What helper leaves behind: the final contour, the pass-1 contour and
      band width (what `plb` and `pbound` receive), the pass-1 band mask
      whose warped sum becomes SL_XA, and the workspace. */
  datatype HelperResult = HelperResult(contour: seq<int>, pass1: seq<int>, bound: int,
                                       band: seq<seq<real>>, grid: Grid)

  /** Pass 1 scans every column of every row. */
  function FullRanges(rows: nat, cols: nat): (r: seq<Span>)
    ensures |r| == rows && forall y | 0 <= y < rows :: r[y] == Span(0, cols)
  {
    seq(rows, _ => Span(0, cols))
  }

  /** Pass 2 scans [max(0, c-minus), min(c+bound, cols)) around the pass-1
      column c of each row (adsb2-ca1.cpp:412-416). */
  function PassTwoRanges(contour: seq<int>, bound: int, minus: int, cols: nat): (r: seq<Span>)
    ensures |r| == |contour| && forall y | 0 <= y < |r| :: Fits(r[y], cols)
  {
    seq(|contour|, y requires 0 <= y < |contour| => Span(Max(0, contour[y] - minus), Min(contour[y] + bound, cols)))
  }

  /** Each pass-2 range holds its pass-1 column and every column within
      `minus` to its left and `bound` to its right, clipped to the row. */
  lemma PassTwoRangeContains(contour: seq<int>, bound: int, minus: int, cols: nat, y: nat)
    requires y < |contour| && bound >= 1 && minus >= 0 && 0 <= contour[y] < cols
    ensures InSpan(contour[y], PassTwoRanges(contour, bound, minus, cols)[y])
    ensures forall x | 0 <= x < cols ::
      InSpan(x, PassTwoRanges(contour, bound, minus, cols)[y]) <==> contour[y] - minus <= x < contour[y] + bound
  {
  }

  /** The band mask behind SL_XA: 1 in columns [max(0, c), min(c+bound, cols))
      of each row, 0 elsewhere (adsb2-ca1.cpp:394-403). */
  function BandMask(contour: seq<int>, bound: int, cols: nat): (m: seq<seq<real>>)
    ensures |m| == |contour| && forall y | 0 <= y < |m| :: |m[y]| == cols
  {
    seq(|contour|, y requires 0 <= y < |contour| =>
      seq(cols, x requires 0 <= x < cols => if Max(0, contour[y]) <= x < Min(contour[y] + bound, cols) then 1.0 else 0.0))
  }

  /** A mask cell is set exactly when its column is in [c, c+bound). */
  lemma BandMaskCells(contour: seq<int>, bound: int, cols: nat, y: nat, x: nat)
    requires y < |contour| && x < cols
    ensures BandMask(contour, bound, cols)[y][x] == (if contour[y] <= x < contour[y] + bound then 1.0 else 0.0)
  {
    var c := contour[y];
    assert BandMask(contour, bound, cols)[y][x] == if Max(0, c) <= x < Min(c + bound, cols) then 1.0 else 0.0;
    assert Max(0, c) <= x <==> c <= x;
    assert x < Min(c + bound, cols) <==> x < c + bound;
  }

  /** CA1::helper (adsb2-ca1.cpp:374-422). `pts` are the polar points of the
      workspace, `eroded` is the eroded polar image get_dp2_th works on,
      `dist` and `root` are distance and std::sqrt. */
  function Helper(image: Image, prob: Image, eroded: Image, pts: seq<seq<Point>>, c: CA1Config,
                  dist: (Point, Point) -> real, root: real -> real): (r: Checked<HelperResult>)
    requires Rectangular(image) && Rectangular(prob) && SameShape(image, pts) && SameShape(image, eroded)
    ensures r.Ok? ==> |image| > 0 && |r.value.contour| == |image| && |r.value.pass1| == |image|
    ensures r.Ok? ==> forall y | 0 <= y < |image| :: 0 <= r.value.pass1[y] < Cols(image)
    ensures r.Ok? ==> 1 + c.extraDelta <= r.value.bound <= c.margin2 + 1 + c.extraDelta
    ensures r.Ok? && !c.doExtend ==> r.value.contour == r.value.pass1
    ensures r.Ok? && c.doExtend ==> forall y | 0 <= y < |image| :: 0 <= r.value.contour[y] < Cols(image)
  {
    var ws :- NewWorkSpace(image, prob, pts);
    var rows := |image|;
    var cols := Cols(image);
    var range1 := FullRanges(rows, cols);
    var th1 :- Dp1Thresholds(prob, c.margin1, c.thr1);
    var r1 :- Run(ws, range1, Params(Probability, false, th1, 1.0, c.smooth1, c.gap, 0.0), dist);
    var contour := r1.seg;
    var shift :- FindShift(image, contour, ShiftConfig(c.margin1, c.margin2, c.w, c.extraTh, c.extraDelta,
                                                        c.wctrpct, c.bctrpct), root);
    var band := BandMask(contour, shift.bound, cols);
    if !c.doExtend then Ok(HelperResult(contour, contour, shift.bound, band, r1.grid))
    else
      var range2 := PassTwoRanges(contour, shift.bound, c.extraMinus, cols);
      var th2 :- Dp2Thresholds(image, eroded, contour, c.extraMinus, shift.bound,
                               Dp2Config(c.margin1, c.thr2, c.bctrpct, c.gth2), root);
      var r2 :- Run(r1.grid, range2, Params(Intensity, true, th2, c.ndisc, c.smooth2, c.gap, c.scost2), dist);
      Ok(HelperResult(r2.seg, contour, shift.bound, band, r2.grid))
  }

  /** With non-negative extra_delta and minus, every pass-1 column lies in
      its row's pass-2 range: find_shift's bound is at least 1 and the pass-1
      contour stays inside the image. */
  lemma PassTwoCoversPassOne(image: Image, prob: Image, eroded: Image, pts: seq<seq<Point>>, c: CA1Config,
                             dist: (Point, Point) -> real, root: real -> real, y: nat)
    requires Rectangular(image) && Rectangular(prob) && SameShape(image, pts) && SameShape(image, eroded)
    requires Helper(image, prob, eroded, pts, c, dist, root).Ok? && y < |image|
    requires c.extraDelta >= 0 && c.extraMinus >= 0
    ensures var h := Helper(image, prob, eroded, pts, c, dist, root).value;
            InSpan(h.pass1[y], PassTwoRanges(h.pass1, h.bound, c.extraMinus, Cols(image))[y])
  {
    var h := Helper(image, prob, eroded, pts, c, dist, root).value;
    PassTwoRangeContains(h.pass1, h.bound, c.extraMinus, Cols(image), y);
  }

  /** The colour contrast of study_CA1 (adsb2-ca1.cpp:499-527): inside mean
      minus ring mean. `cs1`/`ps1` are the colour and pixel sums inside the
      mask, `csd`/`psd` those inside the dilated mask. A non-positive pixel
      count is replaced by 1; a negative colour sum aborts. The ring's count
      is taken after the inside count has been replaced. */
  function ColorContrast(cs1: real, ps1: real, csd: real, psd: real): (r: Checked<real>)
    ensures r.Ok? <==> cs1 >= 0.0 && csd - cs1 >= 0.0
  {
    if !(cs1 >= 0.0) then Abort("cs1 < 0")
    else
      var p1 := if ps1 <= 0.0 then 1.0 else ps1;
      var cs2 := csd - cs1;
      var p2 := if psd - p1 <= 0.0 then 1.0 else psd - p1;
      if !(cs2 >= 0.0) then Abort("cs2 < 0")
      else Ok(cs1 / p1 - cs2 / p2)
  }

  /** With positive pixel counts inside and in the ring the contrast is the
      difference of the two mean colours; an empty inside counts as one
      pixel, and so does an empty ring. */
  lemma ColorContrastMeans(cs1: real, ps1: real, csd: real, psd: real)
    requires cs1 >= 0.0 && csd - cs1 >= 0.0
    ensures ps1 > 0.0 && psd - ps1 > 0.0 ==>
      ColorContrast(cs1, ps1, csd, psd).value == cs1 / ps1 - (csd - cs1) / (psd - ps1)
    ensures ps1 <= 0.0 && psd - 1.0 > 0.0 ==>
      ColorContrast(cs1, ps1, csd, psd).value == cs1 - (csd - cs1) / (psd - 1.0)
    ensures ps1 > 0.0 && psd - ps1 <= 0.0 ==>
      ColorContrast(cs1, ps1, csd, psd).value == cs1 / ps1 - (csd - cs1)
  {
  }

  /** Whether flat cell i of the polar mask is set. study_CA1 writes row y's
      ones through `polar.ptr<float>(y)`, so they fill cells
      [y*cols, y*cols + cc[y]) of the one contiguous rows*cols buffer: a
      column past the row spills into the rows below it. */
  predicate Covered(cc: seq<int>, cols: nat, i: int) {
    exists y | 0 <= y < |cc| :: y * cols <= i < y * cols + cc[y]
  }

  /** The polar label mask of study_CA1 (adsb2-ca1.cpp:476-483). Only a write
      past the end of the whole buffer aborts. */
  function PolarMask(cc: seq<int>, cols: nat): (r: Checked<seq<seq<real>>>)
    ensures r.Ok? <==> forall y | 0 <= y < |cc| :: y * cols + cc[y] <= |cc| * cols
    ensures r.Ok? ==> |r.value| == |cc| && forall y | 0 <= y < |cc| :: |r.value[y]| == cols
    ensures r.Ok? ==> forall y, x | 0 <= y < |cc| && 0 <= x < cols ::
                        && (r.value[y][x] == 0.0 || r.value[y][x] == 1.0)
                        && (r.value[y][x] == 1.0 <==> Covered(cc, cols, y * cols + x))
  {
    if exists y | 0 <= y < |cc| :: y * cols + cc[y] > |cc| * cols then Abort("write past the end of the mask")
    else Ok(seq(|cc|, y requires 0 <= y < |cc| =>
              seq(cols, x requires 0 <= x < cols => if Covered(cc, cols, y * cols + x) then 1.0 else 0.0)))
  }

  lemma MulMonotone(a: nat, b: nat, c: nat)
    requires a <= b
    ensures a * c <= b * c
  {
  }

  /** When no contour column passes the end of its row, nothing spills: the
      mask holds 1 in columns [0, cc[y]) of row y and 0 elsewhere. */
  lemma PolarMaskNoSpill(cc: seq<int>, cols: nat)
    requires forall y | 0 <= y < |cc| :: cc[y] <= cols
    ensures PolarMask(cc, cols).Ok?
    ensures forall y, x | 0 <= y < |cc| && 0 <= x < cols :: PolarMask(cc, cols).value[y][x] == 1.0 <==> x < cc[y]
  {
    forall y | 0 <= y < |cc| ensures y * cols + cc[y] <= |cc| * cols {
      MulMonotone(y + 1, |cc|, cols);
    }
    var m := PolarMask(cc, cols).value;
    forall y, x | 0 <= y < |cc| && 0 <= x < cols ensures m[y][x] == 1.0 <==> x < cc[y] {
      CoveredInRow(cc, cols, y, x);
    }
  }

  /** Without spill, cell x of row y is covered by row y alone. */
  lemma CoveredInRow(cc: seq<int>, cols: nat, y: nat, x: nat)
    requires forall y | 0 <= y < |cc| :: cc[y] <= cols
    requires y < |cc| && x < cols
    ensures Covered(cc, cols, y * cols + x) <==> x < cc[y]
  {
    var i := y * cols + x;
    if x < cc[y] {
      assert y * cols <= i < y * cols + cc[y];
    }
    if Covered(cc, cols, i) {
      var y' :| 0 <= y' < |cc| && y' * cols <= i < y' * cols + cc[y'];
      if y' < y {
        RowBefore(y', y, cols);
      } else if y' > y {
        RowBefore(y, y', cols);
      }
    }
  }

  /** Row a of a cols-wide buffer ends where a later row b may start. */
  lemma RowBefore(a: nat, b: nat, cols: nat)
    requires a < b
    ensures a * cols + cols <= b * cols
  {
    MulMonotone(a + 1, b, cols);
  }

  /** A column past the end of row y sets the first cells of row y + 1. */
  lemma PolarMaskSpill(cc: seq<int>, cols: nat, y: nat, x: nat)
    requires PolarMask(cc, cols).Ok? && y + 1 < |cc| && x < cols && cols + x < cc[y]
    ensures PolarMask(cc, cols).value[y + 1][x] == 1.0
  {
    assert y * cols <= (y + 1) * cols + x < y * cols + cc[y];
  }

  /** Each row of the polar mask covers exactly cc[y] cells (none when cc[y]
      is negative) when no column passes its row: the polar area of the
      label. */
  lemma PolarMaskRowArea(cc: seq<int>, cols: nat, y: nat)
    requires forall y | 0 <= y < |cc| :: cc[y] <= cols
    requires y < |cc|
    ensures PolarMask(cc, cols).Ok? && Sum(PolarMask(cc, cols).value[y]) == Max(cc[y], 0) as real
  {
    PolarMaskNoSpill(cc, cols);
    var row := PolarMask(cc, cols).value[y];
    PrefixOnesSum(row, Max(cc[y], 0));
  }

  /** A row of k ones followed by zeros sums to k. */
  lemma {:induction false} PrefixOnesSum(row: seq<real>, k: nat)
    requires k <= |row|
    requires forall x | 0 <= x < |row| :: row[x] == (if x < k then 1.0 else 0.0)
    ensures Sum(row) == k as real
    decreases |row|
  {
    if |row| > 0 {
      var last := |row| - 1;
      assert row == row[..last] + [row[last]];
      SumSnoc(row[..last], row[last]);
      if k == |row| {
        PrefixOnesSum(row[..last], k - 1);
      } else {
        PrefixOnesSum(row[..last], k);
      }
    }
  }

  /** What study_CA1 records for a slice. */
  datatype StudyOutcome =
    | NoProbability                              // polar_box is reset
    | EmptyContour                               // SL_AREA = 0
    | Labelled(mask: seq<seq<real>>, contrast: real)

  /** study_CA1 on one slice (adsb2-ca1.cpp:460-527). `hasProb` says whether
      the polar probability image exists. The label mask takes the size of
      the Cartesian image, which is that of the polar image `image`
      (IM_POLAR is the linearPolar warp of IM_IMAGE, adsb2.cpp:544); the
      colour and pixel sums come from color_sum over the warped mask and its
      dilation. helper never returns an empty contour (it aborts on an image
      without rows), so the SL_AREA = 0 outcome is never reached. */
  function StudyCA1(hasProb: bool, image: Image, prob: Image, eroded: Image, pts: seq<seq<Point>>,
                    c: CA1Config, dist: (Point, Point) -> real, root: real -> real,
                    cs1: real, ps1: real, csd: real, psd: real): (r: Checked<StudyOutcome>)
    requires Rectangular(image) && Rectangular(prob) && SameShape(image, pts) && SameShape(image, eroded)
    ensures !hasProb ==> r == Ok(NoProbability)
    ensures hasProb ==> (r.Ok? <==> Helper(image, prob, eroded, pts, c, dist, root).Ok? && ColorContrast(cs1, ps1, csd, psd).Ok?)
    ensures r.Ok? ==> !r.value.EmptyContour?
    ensures r.Ok? && r.value.Labelled? ==>
              && Helper(image, prob, eroded, pts, c, dist, root).Ok?
              && LabelsContour(r.value.mask, Helper(image, prob, eroded, pts, c, dist, root).value.contour, Cols(image))
  {
    if !hasProb then Ok(NoProbability)
    else
      var h :- Helper(image, prob, eroded, pts, c, dist, root);
      var cc := h.contour;
      if |cc| == 0 then Ok(EmptyContour)
      else if |cc| != |image| then Abort("cc.size() != image.rows")
      else Label(cc, Cols(image), cs1, ps1, csd, psd)
  }

  /** A mask of |cc| rows of `cols` cells set exactly left of the contour. */
  predicate LabelsContour(mask: seq<seq<real>>, cc: seq<int>, cols: nat) {
    && |mask| == |cc|
    && (forall y | 0 <= y < |cc| :: |mask[y]| == cols)
    && forall y, x | 0 <= y < |cc| && 0 <= x < cols && x < |mask[y]| :: mask[y][x] == 1.0 <==> x < cc[y]
  }

  /** The labelled branch of study_CA1 for a contour that stays in its rows:
      the polar mask holds the columns left of the contour, and the contrast
      aborts as ColorContrast does. */
  function Label(cc: seq<int>, cols: nat, cs1: real, ps1: real, csd: real, psd: real): (r: Checked<StudyOutcome>)
    requires forall y | 0 <= y < |cc| :: cc[y] <= cols
    ensures r.Ok? <==> ColorContrast(cs1, ps1, csd, psd).Ok?
    ensures r.Ok? ==> r.value.Labelled? && LabelsContour(r.value.mask, cc, cols)
  {
    PolarMaskNoSpill(cc, cols);
    var mask := PolarMask(cc, cols).value;
    var contrast :- ColorContrast(cs1, ps1, csd, psd);
    Ok(Labelled(mask, contrast))
  }
}

=== FILE: crps.dfy ===
/** Eval::crps (adsb2.cpp:1321-1343): the continuous ranked probability
    score of a predicted cumulative distribution x over the volumes
    0..VALUES-1 against the true volume v. The prediction should be 0 below v
    and 1 from v on; the score is the mean squared distance to that step. */
module Crps {
  import opened Checks
  import opened Numeric

  /** The number of indices i = 0, 1, ... with i < v, i.e. where the first
      loop stops: 0 when v <= 0, the ceiling of v otherwise. */
  function Split(v: real): (k: nat)
    ensures v <= k as real
    ensures k == 0 || (k - 1) as real < v
  {
    if v <= 0.0 then 0 else -((-v).Floor)
  }

  /** The true cumulative distribution of a volume v: the step at Split(v). */
  function Step(k: nat, i: nat): real {
    if i < k then 0.0 else 1.0
  }

  /** The squared error of the prediction at index i. */
  function Term(x: seq<real>, k: nat, i: nat): real
    requires i < |x|
  {
    (x[i] - Step(k, i)) * (x[i] - Step(k, i))
  }

  function Terms(x: seq<real>, k: nat): (t: seq<real>)
    ensures |t| == |x|
  {
    seq(|x|, i requires 0 <= i < |x| => Term(x, k, i))
  }

  /** The CHECKs after the sums: every entry in [0, 1], never decreasing. */
  predicate Cumulative(x: seq<real>) {
    && (forall i | 0 <= i < |x| :: 0.0 <= x[i] <= 1.0)
    && (forall i | 0 < i < |x| :: x[i - 1] <= x[i])
  }

  /** crps. `values` is the constant Eval::VALUES, which is positive. Reading
      x[i] for i >= VALUES in the first loop is undefined behaviour and is
      modelled as an abort. */
  method Score(v: real, x: seq<real>, values: nat) returns (r: Checked<real>)
    requires values > 0
    ensures r.Ok? <==> |x| == values && Split(v) <= values && Cumulative(x)
    ensures r.Ok? ==> r.value == Sum(Terms(x, Split(v))) / (values as real)
    ensures r.Ok? ==> 0.0 <= r.value <= 1.0
  {
    if |x| != values {
      return Abort("x.size() != VALUES");
    }
    var sum := SquaredErrors(v, x);
    if sum.Abort? {
      return Abort(sum.reason);
    }
    var ok := CheckCumulative(x);
    if !ok {
      return Abort("x is not a cumulative distribution");
    }
    MeanBounded(x, Split(v));
    r := Ok(sum.value / (values as real));
  }

  /** crps's two summing loops: x[i]^2 while i < v, then (1 - x[i])^2. */
  method SquaredErrors(v: real, x: seq<real>) returns (r: Checked<real>)
    ensures r.Ok? <==> Split(v) <= |x|
    ensures r.Ok? ==> r.value == Sum(Terms(x, Split(v)))
  {
    ghost var t := Terms(x, Split(v));
    var sum := 0.0;
    var i: nat := 0;
    while (i as real) < v
      invariant i <= |x|
      invariant i == 0 || (i - 1) as real < v
      invariant sum == Sum(t[..i])
      decreases |x| - i
    {
      if i >= |x| {
        return Abort("x read past its end");
      }
      assert t[i] == x[i] * x[i];
      SumPrefixStep(t, i);
      sum := sum + x[i] * x[i];
      i := i + 1;
    }
    assert i == Split(v);
    while i < |x|
      invariant Split(v) <= i <= |x|
      invariant sum == Sum(t[..i])
    {
      assert t[i] == (1.0 - x[i]) * (1.0 - x[i]) by {
        assert x[i] - 1.0 == -(1.0 - x[i]);
      }
      SumPrefixStep(t, i);
      sum := sum + (1.0 - x[i]) * (1.0 - x[i]);
      i := i + 1;
    }
    assert t[..i] == t;
    return Ok(sum);
  }

  /** crps's CHECK loop: every entry in [0, 1] and none below its
      predecessor. */
  method CheckCumulative(x: seq<real>) returns (ok: bool)
    ensures ok <==> Cumulative(x)
  {
    var i := 0;
    while i < |x|
      invariant i <= |x|
      invariant forall j | 0 <= j < i :: 0.0 <= x[j] <= 1.0
      invariant forall j | 0 < j < i :: x[j - 1] <= x[j]
    {
      if !(x[i] >= 0.0) || !(x[i] <= 1.0) || (i > 0 && !(x[i] >= x[i - 1])) {
        return false;
      }
      i := i + 1;
    }
    return true;
  }

  /** The mean squared error of a cumulative prediction lies in [0, 1]. */
  lemma MeanBounded(x: seq<real>, k: nat)
    requires |x| > 0 && Cumulative(x)
    ensures 0.0 <= Sum(Terms(x, k)) / (|x| as real) <= 1.0
  {
    var t := Terms(x, k);
    TermsBounded(x, k);
    SumBounds(t, 0.0, 1.0);
    DivideBounded(Sum(t), |x| as real);
  }

  lemma DivideBounded(s: real, n: real)
    requires n > 0.0 && 0.0 <= s <= n * 1.0
    ensures 0.0 <= s / n <= 1.0
  {
  }

  /** Every squared error of a cumulative prediction lies in [0, 1]. */
  lemma TermsBounded(x: seq<real>, k: nat)
    requires Cumulative(x)
    ensures forall i | 0 <= i < |x| :: 0.0 <= Terms(x, k)[i] <= 1.0
  {
    forall i | 0 <= i < |x| ensures 0.0 <= Terms(x, k)[i] <= 1.0 {
      var d := if i < k then x[i] else 1.0 - x[i];
      assert Terms(x, k)[i] == d * d;
      MulNonNegative(d, d);
      MulNonNegative(d, 1.0 - d);
      assert d * (1.0 - d) == d - d * d;
    }
  }

  /** The true step itself scores zero: a prediction that is 0 below
      Split(v) and 1 from there on has no error. */
  lemma {:induction false} PerfectPrediction(x: seq<real>, k: nat)
    requires forall i | 0 <= i < |x| :: x[i] == Step(k, i)
    ensures Sum(Terms(x, k)) == 0.0
  {
    var t := Terms(x, k);
    forall i | 0 <= i < |x| ensures t[i] == 0.0 {
      assert x[i] - Step(k, i) == 0.0;
    }
    SumZeroIffAllZero(t);
  }

  /** A sum of non-negative terms is zero iff every term is. */
  lemma {:induction false} SumZeroIffAllZero(t: seq<real>)
    requires forall i | 0 <= i < |t| :: 0.0 <= t[i]
    ensures Sum(t) == 0.0 <==> forall i | 0 <= i < |t| :: t[i] == 0.0
  {
    if |t| > 0 {
      var tail := t[1..];
      assert forall i | 0 <= i < |tail| :: tail[i] == t[i + 1];
      SumZeroIffAllZero(tail);
      SumNonNegative(tail);
      if Sum(t) == 0.0 {
        forall i | 0 <= i < |t| ensures t[i] == 0.0 {
          if i > 0 { assert t[i] == tail[i - 1]; }
        }
      }
    }
  }
}

=== FILE: dp.dfy ===
/** The polar dynamic-programming contour solver, WorkSpace in
    adsb2-ca1.cpp:16-162.

    The workspace is a rows x cols grid of entries; `Run` is a longest-path DP
    over it. Row 0 scores each candidate column by the accumulated gain of the
    row; each later row picks, for each candidate column, the best predecessor
    within `maxGap` columns in the previous row's range, paying a distance
    penalty; the last row also pays the distance back to the row-0 point the
    path started from (the closure approximation). Backtracking from the last
    row yields one column per row.

    The grid is a value: `Run` returns the updated grid together with the
    contour, so a caller that runs twice on one workspace (as `helper` does)
    hands the first result to the second run, and cells outside the second
    run's ranges keep what the first run wrote. */
module PolarDP {
  import opened Checks
  import opened Numeric
  import opened Raster
  import opened RowGain

  /** A Cartesian point (cv::Point2f). */
  datatype Point = Point(x: real, y: real)

  /** Which pixel channel the scores read: pixel[0] is the intensity,
      pixel[1] the detector's probability. */
  datatype Channel = Intensity | Probability

  /** One workspace cell: its two pixel values, its Cartesian point, the best
      path score ending here, the predecessor column in the previous row (-1
      for none) and the row-0 point of the best path through it. */
  datatype Entry = Entry(color: real, prob: real, pt: Point, opt: real, prev: int, prev0: Point)

  type Grid = seq<seq<Entry>>

  /** A half-open column interval [first, second). */
  datatype Span = Span(first: int, second: int)

  /** The scalar arguments of WorkSpace::run. */
  datatype Params = Params(key: Channel, mono: bool, th: seq<real>, nd: real, smooth: real, maxGap: int, scost: real)

  datatype RunResult = RunResult(grid: Grid, seg: seq<int>)

  function Pixel(e: Entry, key: Channel): real {
    match key
    case Intensity => e.color
    case Probability => e.prob
  }

  predicate InSpan(x: int, sp: Span) {
    sp.first <= x < sp.second
  }

  function Width(sp: Span): nat {
    if sp.first < sp.second then sp.second - sp.first else 0
  }

  /** A range the source can scan without leaving the row. */
  predicate Fits(sp: Span, cols: nat) {
    0 <= sp.first && sp.second <= cols
  }

  /** The shape `run` is called with: a rectangular grid and one fitting
      range per row. */
  predicate Valid(ws: Grid, range: seq<Span>) {
    Rectangular(ws) && |range| == |ws| && forall y | 0 <= y < |range| :: Fits(range[y], Cols(ws))
  }

  /** WorkSpace(image, prob, polar_R), adsb2-ca1.cpp:31-51. `pts` holds the
      polar point of every cell (the trigonometry is not modelled). The two
      images must agree in size; every cell starts with score -FLT_MAX and no
      predecessor. */
  function NewWorkSpace(image: Image, prob: Image, pts: seq<seq<Point>>): (r: Checked<Grid>)
    requires Rectangular(image) && Rectangular(prob) && SameShape(image, pts)
    ensures r.Ok? <==> |image| == |prob| && Cols(image) == Cols(prob)
    ensures r.Ok? ==> |r.value| == |image| && Rectangular(r.value) && Cols(r.value) == Cols(image)
    ensures r.Ok? ==> forall y, x | 0 <= y < |image| && 0 <= x < Cols(image) ::
      && r.value[y][x].color == image[y][x] && r.value[y][x].prob == prob[y][x]
      && r.value[y][x].pt == pts[y][x] && r.value[y][x].opt == -FloatMax && r.value[y][x].prev == -1
  {
    if Cols(image) != Cols(prob) then Abort("image.cols != prob.cols")
    else if |image| != |prob| then Abort("image.rows != prob.rows")
    else
      Ok(seq(|image|, y requires 0 <= y < |image| =>
        seq(Cols(image), x requires 0 <= x < Cols(image) =>
          Entry(image[y][x], prob[y][x], pts[y][x], -FloatMax, -1, Point(0.0, 0.0)))))
  }

  /** The raw gains of the range's columns in row order. */
  function RawGains(row: seq<Entry>, sp: Span, key: Channel, th: real, nd: real): (r: seq<real>)
    requires Fits(sp, |row|)
    ensures |r| == Width(sp)
  {
    seq(Width(sp), i requires 0 <= i < Width(sp) => Delta(Pixel(row[sp.first + i], key), th, nd))
  }

  /** `acc` after each column of the range. */
  function RowAccs(row: seq<Entry>, sp: Span, p: Params, th: real): (r: seq<real>)
    requires Fits(sp, |row|)
    ensures |r| == Width(sp)
  {
    Scan(RawGains(row, sp, p.key, th, p.nd), p.mono, p.scost, FloatMax, 0.0)
  }

  /** First column of the predecessor window of column x. */
  function WindowLo(x: int, gap: int, prev: Span): int {
    Max(x - gap, prev.first)
  }

  /** One past the last column of the predecessor window of column x. */
  function WindowHi(x: int, gap: int, prev: Span): int {
    Min(x + gap + 1, prev.second)
  }

  /** The score of reaching `here` from column p of the previous row; on the
      closing (last) row the distance from p's row-0 point is paid too. */
  function Score(prevRow: seq<Entry>, p: int, here: Point, acc: real, smooth: real, closing: bool,
                 dist: (Point, Point) -> real): real
    requires 0 <= p < |prevRow|
  {
    var s := prevRow[p].opt + acc - smooth * dist(prevRow[p].pt, here);
    if closing then s - smooth * dist(prevRow[p].prev0, here) else s
  }

  /** Best score and predecessor found so far by the predecessor loop. */
  datatype Choice = Choice(score: real, prev: int)

  /** The predecessor loop (adsb2-ca1.cpp:107-119) from column p up to ub:
      a candidate replaces the current choice only if its score is strictly
      greater. */
  function ScanPrev(prevRow: seq<Entry>, here: Point, acc: real, smooth: real, closing: bool,
                    dist: (Point, Point) -> real, p: int, ub: int, best: Choice): (r: Choice)
    requires 0 <= p && ub <= |prevRow|
    ensures r.prev == best.prev || p <= r.prev < ub
    decreases ub - p
  {
    if p >= ub then best
    else
      var s := Score(prevRow, p, here, acc, smooth, closing, dist);
      ScanPrev(prevRow, here, acc, smooth, closing, dist, p + 1, ub, if s > best.score then Choice(s, p) else best)
  }

  /** Cell (y, x) of a later row, y > 0: best predecessor in the window,
      its score, and the row-0 point carried along (adsb2-ca1.cpp:105-127). */
  function Link(prevRow: seq<Entry>, prevSpan: Span, e: Entry, x: int, acc: real, y: nat, rows: nat,
                p: Params, dist: (Point, Point) -> real): Entry
    requires |prevRow| > 0 && Fits(prevSpan, |prevRow|)
  {
    var c := ScanPrev(prevRow, e.pt, acc, p.smooth, y + 1 == rows, dist,
                      WindowLo(x, p.maxGap, prevSpan), WindowHi(x, p.maxGap, prevSpan), Choice(-FloatMax, 0));
    e.(opt := c.score, prev := c.prev, prev0 := if y == 1 then prevRow[c.prev].pt else prevRow[c.prev].prev0)
  }

  /** Row y after the DP has visited it: in-range cells are rewritten, the
      others are left as they were. `prevRow` is row y-1 as already updated. */
  function NewRow(y: nat, rows: nat, row: seq<Entry>, prevRow: seq<Entry>, range: seq<Span>, p: Params,
                  dist: (Point, Point) -> real): (r: seq<Entry>)
    requires y < rows == |range| == |p.th|
    requires Fits(range[y], |row|)
    requires y > 0 ==> |prevRow| == |row| && Fits(range[y - 1], |row|)
    ensures |r| == |row|
  {
    var sp := range[y];
    var accs := RowAccs(row, sp, p, p.th[y]);
    seq(|row|, x requires 0 <= x < |row| =>
      if InSpan(x, sp) then
        if y == 0 then row[x].(opt := accs[x - sp.first], prev := -1)
        else Link(prevRow, range[y - 1], row[x], x, accs[x - sp.first], y, rows, p, dist)
      else row[x])
  }

  /** The grid after rows 0..k-1 have been visited, in order. */
  function Sweep(ws: Grid, range: seq<Span>, p: Params, dist: (Point, Point) -> real, k: nat): (r: Grid)
    requires Valid(ws, range) && |p.th| == |ws| && k <= |ws|
    ensures |r| == |ws| && Rectangular(r) && (|ws| > 0 ==> Cols(r) == Cols(ws))
    ensures forall y | k <= y < |ws| :: r[y] == ws[y]
    decreases k
  {
    if k == 0 then ws
    else
      var w := Sweep(ws, range, p, dist, k - 1);
      w[k - 1 := NewRow(k - 1, |ws|, w[k - 1], if k == 1 then [] else w[k - 2], range, p, dist)]
  }

  /** Every visited row is the new row computed from its original cells and
      the already visited row above it. */
  lemma {:induction false} SweepRow(ws: Grid, range: seq<Span>, p: Params, dist: (Point, Point) -> real, k: nat, y: nat)
    requires Valid(ws, range) && |p.th| == |ws| && y < k <= |ws|
    ensures Sweep(ws, range, p, dist, k)[y]
         == NewRow(y, |ws|, ws[y], if y == 0 then [] else Sweep(ws, range, p, dist, k)[y - 1], range, p, dist)
    decreases k
  {
    var w := Sweep(ws, range, p, dist, k - 1);
    var r := Sweep(ws, range, p, dist, k);
    assert r == w[k - 1 := NewRow(k - 1, |ws|, w[k - 1], if k == 1 then [] else w[k - 2], range, p, dist)];
    if y < k - 1 {
      SweepRow(ws, range, p, dist, k - 1, y);
      assert r[y] == w[y];
      if y > 0 {
        assert r[y - 1] == w[y - 1];
      }
    } else {
      assert w[k - 1] == ws[k - 1];
    }
  }

  /** The grid a run leaves behind: every row visited once, top to bottom. */
  function Visited(ws: Grid, range: seq<Span>, p: Params, dist: (Point, Point) -> real): (r: Grid)
    requires Valid(ws, range) && |p.th| == |ws|
    ensures |r| == |ws| && Rectangular(r) && (|ws| > 0 ==> Cols(r) == Cols(ws))
  {
    Sweep(ws, range, p, dist, |ws|)
  }

  /** The last-row loop's choice of starting column (adsb2-ca1.cpp:128-131):
      the first column seen, then any column with a strictly greater score. */
  function ScanBest(row: seq<Entry>, x: int, hi: int, bestCc: int, bestScore: real): (r: int)
    requires 0 <= x && hi <= |row|
    ensures r == bestCc || x <= r < hi
    decreases hi - x
  {
    if x >= hi then bestCc
    else if bestCc < 0 || row[x].opt > bestScore then ScanBest(row, x + 1, hi, x, row[x].opt)
    else ScanBest(row, x + 1, hi, bestCc, bestScore)
  }

  /** The backtracking loop (adsb2-ca1.cpp:134-140) from column c of row y
      down to row 0, returned in row order. Reading a column outside the
      grid (the -1 of an empty range or of a cell no run wrote) aborts. */
  function Backtrack(g: Grid, y: nat, c: int): (r: Checked<seq<int>>)
    requires y < |g| && Rectangular(g)
    ensures r.Ok? ==> |r.value| == y + 1 && r.value[y] == c
    ensures r.Ok? ==> forall k | 0 <= k <= y :: 0 <= r.value[k] < Cols(g)
    ensures r.Ok? ==> forall k | 0 < k <= y :: r.value[k - 1] == g[k][r.value[k]].prev
    ensures !(0 <= c < Cols(g)) ==> r.Abort?
    decreases y
  {
    if !(0 <= c < |g[y]|) then Abort("predecessor outside the row")
    else if y == 0 then Ok([c])
    else
      var s :- Backtrack(g, y - 1, g[y][c].prev);
      Ok(s + [c])
  }

  /** WorkSpace::run (adsb2-ca1.cpp:53-161). */
  function Run(ws: Grid, range: seq<Span>, p: Params, dist: (Point, Point) -> real): (r: Checked<RunResult>)
    requires Valid(ws, range)
    ensures |p.th| != |ws| ==> r.Abort?
    ensures r.Ok? ==> |r.value.seg| == |ws| && |r.value.grid| == |ws|
    ensures r.Ok? ==> r.value.grid == Visited(ws, range, p, dist)
    ensures r.Ok? ==> forall y | 0 <= y < |ws| :: 0 <= r.value.seg[y] < Cols(ws)
    ensures r.Ok? ==> forall y | 0 < y < |ws| :: r.value.seg[y - 1] == r.value.grid[y][r.value.seg[y]].prev
    ensures r.Ok? && |ws| == 1 ==> r.value.seg == [0]
    ensures r.Ok? && |ws| >= 2 ==> IsFirstBest(r.value.grid[|ws| - 1], range[|ws| - 1], r.value.seg[|ws| - 1])
    ensures |p.th| == |ws| >= 2 && Width(range[|ws| - 1]) == 0 ==> r.Abort?
  {
    if |p.th| != |ws| then Abort("th.size() != rows")
    else
      var g := Visited(ws, range, p, dist);
      if |ws| == 0 then Ok(RunResult(g, []))
      else
        var last := |ws| - 1;
        var start := if last == 0 then 0 else ScanBest(g[last], range[last].first, range[last].second, -1, -1.0);
        ScanBestIsFirstBest(g[last], range[last]);
        var seg :- Backtrack(g, last, start);
        Ok(RunResult(g, seg))
  }

  /** x is the first column of the span holding the span's greatest score. */
  predicate IsFirstBest(row: seq<Entry>, sp: Span, x: int) {
    && InSpan(x, sp) && 0 <= x < |row|
    && (forall z | sp.first <= z < sp.second && 0 <= z < |row| :: row[z].opt <= row[x].opt)
    && (forall z | 0 <= sp.first <= z < x :: row[z].opt < row[x].opt)
  }

  /** The last-row scan finds the first best column, or -1 on an empty span. */
  lemma ScanBestIsFirstBest(row: seq<Entry>, sp: Span)
    requires Fits(sp, |row|)
    ensures Width(sp) == 0 ==> ScanBest(row, sp.first, sp.second, -1, -1.0) == -1
    ensures Width(sp) > 0 ==> IsFirstBest(row, sp, ScanBest(row, sp.first, sp.second, -1, -1.0))
  {
    if Width(sp) > 0 {
      ScanBestInvariant(row, sp, sp.first + 1, sp.first, row[sp.first].opt);
    }
  }

  /** Loop invariant of the last-row scan: after columns [first, x) the choice
      is the first best among them. */
  lemma {:induction false} ScanBestInvariant(row: seq<Entry>, sp: Span, x: int, c: int, s: real)
    requires Fits(sp, |row|) && sp.first < x <= sp.second
    requires sp.first <= c < x && s == row[c].opt
    requires forall z | sp.first <= z < x :: row[z].opt <= s
    requires forall z | sp.first <= z < c :: row[z].opt < s
    ensures IsFirstBest(row, sp, ScanBest(row, x, sp.second, c, s))
    decreases sp.second - x
  {
    if x < sp.second {
      if row[x].opt > s {
        ScanBestInvariant(row, sp, x + 1, x, row[x].opt);
      } else {
        ScanBestInvariant(row, sp, x + 1, c, s);
      }
    }
  }
}

=== FILE: dpfacts.dfy ===
/** What a WorkSpace::run promises about the grid it leaves and the contour it
    returns (adsb2-ca1.cpp:53-161): the row-0 scores are prefix sums of the
    gains, every later in-range cell holds the first best predecessor of its
    window, the contour respects the gap wherever a predecessor was found,
    the row-0 point is carried along the best path, and nothing outside the
    ranges changes. */
module PolarDPFacts {
  import opened Numeric
  import opened Raster
  import opened RowGain
  import opened PolarDP

  /** Row 0: each in-range cell scores the accumulated gains of the columns
      from the start of the range up to it, less one step cost per column,
      and has no predecessor. */
  lemma FirstRowScores(ws: Grid, range: seq<Span>, p: Params, dist: (Point, Point) -> real, x: int)
    requires Valid(ws, range) && |p.th| == |ws| >= 1 && InSpan(x, range[0])
    ensures var g := Visited(ws, range, p, dist);
            var gains := UsedGains(RawGains(ws[0], range[0], p.key, p.th[0], p.nd), p.mono, FloatMax);
            var n := x - range[0].first + 1;
            && g[0][x].prev == -1
            && g[0][x].opt == Sum(Net(gains, p.scost)[..n])
  {
    var g := Visited(ws, range, p, dist);
    var raw := RawGains(ws[0], range[0], p.key, p.th[0], p.nd);
    var i := x - range[0].first;
    assert g[0] == NewRow(0, |ws|, ws[0], [], range, p, dist) by {
      SweepRow(ws, range, p, dist, |ws|, 0);
    }
    assert g[0][x] == ws[0][x].(opt := RowAccs(ws[0], range[0], p, p.th[0])[i], prev := -1) by {
      RowZeroCell(ws[0], range, p, dist, x);
    }
    assert RowAccs(ws[0], range[0], p, p.th[0])[i] == 0.0 + Sum(Net(UsedGains(raw, p.mono, FloatMax), p.scost)[..i + 1]) by {
      ScanIsPrefixSum(raw, p.mono, p.scost, FloatMax, 0.0, i);
    }
  }

  lemma RowZeroCell(row: seq<Entry>, range: seq<Span>, p: Params, dist: (Point, Point) -> real, x: int)
    requires 0 < |range| == |p.th| && Fits(range[0], |row|) && InSpan(x, range[0])
    ensures 0 <= x < |row|
    ensures NewRow(0, |range|, row, [], range, p, dist)[x]
         == row[x].(opt := RowAccs(row, range[0], p, p.th[0])[x - range[0].first], prev := -1)
  {
  }

  /** The gains a row uses never increase from left to right when `mono` is
      on, and are the raw signed gains when it is off. */
  lemma RowGainsMonotone(ws: Grid, range: seq<Span>, p: Params, y: nat)
    requires Valid(ws, range) && y < |ws| && |p.th| == |ws|
    ensures var raw := RawGains(ws[y], range[y], p.key, p.th[y], p.nd);
            var gains := UsedGains(raw, p.mono, FloatMax);
            && (p.mono ==> forall i, j | 0 <= i <= j < |gains| :: gains[j] <= gains[i])
            && (p.mono ==> forall i | 0 <= i < |gains| :: gains[i] <= raw[i])
            && (!p.mono ==> gains == raw)
  {
    UsedGainsShape(RawGains(ws[y], range[y], p.key, p.th[y], p.nd), p.mono, FloatMax);
  }

  /** Some candidate of the window [lb, ub) beats the -FLT_MAX sentinel. */
  predicate Beaten(prevRow: seq<Entry>, here: Point, acc: real, smooth: real, closing: bool,
                   dist: (Point, Point) -> real, lb: int, ub: int)
  {
    exists q | 0 <= lb <= q < ub <= |prevRow| :: Score(prevRow, q, here, acc, smooth, closing, dist) > -FloatMax
  }

  /** `c` is the first candidate of the window [lb, ub) with the greatest
      score, and that score beats -FLT_MAX. */
  predicate BestPredecessor(prevRow: seq<Entry>, here: Point, acc: real, smooth: real, closing: bool,
                            dist: (Point, Point) -> real, lb: int, ub: int, c: Choice)
    requires 0 <= lb && ub <= |prevRow|
  {
    && lb <= c.prev < ub
    && c.score == Score(prevRow, c.prev, here, acc, smooth, closing, dist)
    && (forall q | lb <= q < ub :: Score(prevRow, q, here, acc, smooth, closing, dist) <= c.score)
    && (forall q | lb <= q < c.prev :: Score(prevRow, q, here, acc, smooth, closing, dist) < c.score)
  }

  /** The predecessor loop picks the first candidate with the greatest score;
      when no candidate beats -FLT_MAX it leaves score -FLT_MAX and
      predecessor 0. */
  lemma ScanPrevChoice(prevRow: seq<Entry>, here: Point, acc: real, smooth: real, closing: bool,
                       dist: (Point, Point) -> real, lb: int, ub: int)
    requires 0 <= lb && ub <= |prevRow|
    ensures var c := ScanPrev(prevRow, here, acc, smooth, closing, dist, lb, ub, Choice(-FloatMax, 0));
      && (Beaten(prevRow, here, acc, smooth, closing, dist, lb, ub) ==>
            BestPredecessor(prevRow, here, acc, smooth, closing, dist, lb, ub, c))
      && (!Beaten(prevRow, here, acc, smooth, closing, dist, lb, ub) ==> c == Choice(-FloatMax, 0))
  {
    if lb < ub {
      ScanPrevInvariant(prevRow, here, acc, smooth, closing, dist, lb, ub, lb, Choice(-FloatMax, 0));
    }
  }

  /** Loop invariant of the predecessor loop after candidates [lb, q). */
  predicate PrevInv(prevRow: seq<Entry>, here: Point, acc: real, smooth: real, closing: bool,
                    dist: (Point, Point) -> real, lb: int, q: int, best: Choice)
    requires 0 <= lb <= q <= |prevRow|
  {
    if best.score > -FloatMax then
      && lb <= best.prev < q
      && best.score == Score(prevRow, best.prev, here, acc, smooth, closing, dist)
      && (forall z | lb <= z < q :: Score(prevRow, z, here, acc, smooth, closing, dist) <= best.score)
      && (forall z | lb <= z < best.prev :: Score(prevRow, z, here, acc, smooth, closing, dist) < best.score)
    else
      && best == Choice(-FloatMax, 0)
      && (forall z | lb <= z < q :: Score(prevRow, z, here, acc, smooth, closing, dist) <= -FloatMax)
  }

  /** What the predecessor loop leaves in `c` over the window [lb, ub). */
  predicate PrevResult(prevRow: seq<Entry>, here: Point, acc: real, smooth: real, closing: bool,
                       dist: (Point, Point) -> real, lb: int, ub: int, c: Choice)
    requires 0 <= lb && ub <= |prevRow|
  {
    && (Beaten(prevRow, here, acc, smooth, closing, dist, lb, ub) ==>
          BestPredecessor(prevRow, here, acc, smooth, closing, dist, lb, ub, c))
    && (!Beaten(prevRow, here, acc, smooth, closing, dist, lb, ub) ==> c == Choice(-FloatMax, 0))
  }

  lemma {:induction false} ScanPrevInvariant(prevRow: seq<Entry>, here: Point, acc: real, smooth: real, closing: bool,
                                             dist: (Point, Point) -> real, lb: int, ub: int, q: int, best: Choice)
    requires 0 <= lb <= q <= ub <= |prevRow|
    requires PrevInv(prevRow, here, acc, smooth, closing, dist, lb, q, best)
    ensures PrevResult(prevRow, here, acc, smooth, closing, dist, lb, ub,
                       ScanPrev(prevRow, here, acc, smooth, closing, dist, q, ub, best))
    decreases ub - q
  {
    if q < ub {
      var s := Score(prevRow, q, here, acc, smooth, closing, dist);
      var next := if s > best.score then Choice(s, q) else best;
      assert PrevInv(prevRow, here, acc, smooth, closing, dist, lb, q + 1, next) by {
        PrevStep(prevRow, here, acc, smooth, closing, dist, lb, q, best);
      }
      assert PrevResult(prevRow, here, acc, smooth, closing, dist, lb, ub,
                        ScanPrev(prevRow, here, acc, smooth, closing, dist, q + 1, ub, next)) by {
        ScanPrevInvariant(prevRow, here, acc, smooth, closing, dist, lb, ub, q + 1, next);
      }
    } else {
      PrevDone(prevRow, here, acc, smooth, closing, dist, lb, ub, best);
    }
  }

  /** One candidate of the predecessor loop keeps its invariant. */
  lemma PrevStep(prevRow: seq<Entry>, here: Point, acc: real, smooth: real, closing: bool,
                 dist: (Point, Point) -> real, lb: int, q: int, best: Choice)
    requires 0 <= lb <= q < |prevRow|
    requires PrevInv(prevRow, here, acc, smooth, closing, dist, lb, q, best)
    ensures var s := Score(prevRow, q, here, acc, smooth, closing, dist);
            PrevInv(prevRow, here, acc, smooth, closing, dist, lb, q + 1, if s > best.score then Choice(s, q) else best)
  {
  }

  /** With every candidate seen, the invariant is the loop's result. */
  lemma PrevDone(prevRow: seq<Entry>, here: Point, acc: real, smooth: real, closing: bool,
                 dist: (Point, Point) -> real, lb: int, ub: int, best: Choice)
    requires 0 <= lb <= ub <= |prevRow|
    requires PrevInv(prevRow, here, acc, smooth, closing, dist, lb, ub, best)
    ensures PrevResult(prevRow, here, acc, smooth, closing, dist, lb, ub, best)
  {
    if Beaten(prevRow, here, acc, smooth, closing, dist, lb, ub) {
      var z :| 0 <= lb <= z < ub <= |prevRow| && Score(prevRow, z, here, acc, smooth, closing, dist) > -FloatMax;
    }
  }

  /** The accumulated gain of column x of row y (x in the row's range). */
  function AccAt(ws: Grid, range: seq<Span>, p: Params, y: nat, x: int): real
    requires Valid(ws, range) && y < |ws| && |p.th| == |ws| && InSpan(x, range[y])
  {
    RowAccs(ws[y], range[y], p, p.th[y])[x - range[y].first]
  }

  /** A later row's in-range cell holds the first best predecessor of its
      window [max(x-gap, first), min(x+gap+1, second)) of the previous row,
      with the closure penalty paid only on the last row; with no candidate
      above -FLT_MAX it keeps -FLT_MAX and predecessor 0. Its row-0 point is
      the predecessor's point (row 1) or the predecessor's row-0 point. */
  lemma LinkChoice(ws: Grid, range: seq<Span>, p: Params, dist: (Point, Point) -> real, y: nat, x: int)
    requires Valid(ws, range) && |p.th| == |ws| && 0 < y < |ws| && InSpan(x, range[y])
    ensures var g := Visited(ws, range, p, dist);
      var lb := WindowLo(x, p.maxGap, range[y - 1]);
      var ub := WindowHi(x, p.maxGap, range[y - 1]);
      var acc := AccAt(ws, range, p, y, x);
      var closing := y + 1 == |ws|;
      var e := g[y][x];
      && e.pt == ws[y][x].pt && e.color == ws[y][x].color && e.prob == ws[y][x].prob
      && 0 <= e.prev < Cols(ws)
      && e.prev0 == (if y == 1 then g[0][e.prev].pt else g[y - 1][e.prev].prev0)
      && (Beaten(g[y - 1], e.pt, acc, p.smooth, closing, dist, lb, ub) ==>
            BestPredecessor(g[y - 1], e.pt, acc, p.smooth, closing, dist, lb, ub, Choice(e.opt, e.prev)))
      && (!Beaten(g[y - 1], e.pt, acc, p.smooth, closing, dist, lb, ub) ==> e.opt == -FloatMax && e.prev == 0)
  {
    var g: Grid := Visited(ws, range, p, dist);
    var lb := WindowLo(x, p.maxGap, range[y - 1]);
    var ub := WindowHi(x, p.maxGap, range[y - 1]);
    var acc := AccAt(ws, range, p, y, x);
    var closing := y + 1 == |ws|;
    var c := ScanPrev(g[y - 1], ws[y][x].pt, acc, p.smooth, closing, dist, lb, ub, Choice(-FloatMax, 0));
    assert g[y][x] == Link(g[y - 1], range[y - 1], ws[y][x], x, acc, y, |ws|, p, dist) by {
      SweepRow(ws, range, p, dist, |ws|, y);
    }
    assert g[y][x] == ws[y][x].(opt := c.score, prev := c.prev,
                                prev0 := if y == 1 then g[0][c.prev].pt else g[y - 1][c.prev].prev0);
    ScanPrevChoice(g[y - 1], ws[y][x].pt, acc, p.smooth, closing, dist, lb, ub);
  }

  /** Cells outside a row's range keep whatever they held, and no cell's
      pixels or point change. */
  lemma OutsideRangeUnchanged(ws: Grid, range: seq<Span>, p: Params, dist: (Point, Point) -> real)
    requires Valid(ws, range) && |p.th| == |ws|
    ensures var g := Visited(ws, range, p, dist);
      && (forall y, x | 0 <= y < |ws| && 0 <= x < Cols(ws) && !InSpan(x, range[y]) :: g[y][x] == ws[y][x])
      && (forall y, x | 0 <= y < |ws| && 0 <= x < Cols(ws) ::
            g[y][x].pt == ws[y][x].pt && g[y][x].color == ws[y][x].color && g[y][x].prob == ws[y][x].prob)
  {
    var g: Grid := Visited(ws, range, p, dist);
    forall y | 0 <= y < |ws|
      ensures forall x | 0 <= x < Cols(ws) && !InSpan(x, range[y]) :: g[y][x] == ws[y][x]
      ensures forall x | 0 <= x < Cols(ws) ::
        g[y][x].pt == ws[y][x].pt && g[y][x].color == ws[y][x].color && g[y][x].prob == ws[y][x].prob
    {
      SweepRow(ws, range, p, dist, |ws|, y);
      NewRowKeeps(y, |ws|, ws[y], if y == 0 then [] else g[y - 1], range, p, dist);
    }
  }

  /** Visiting a row rewrites only the score fields of its in-range cells. */
  lemma NewRowKeeps(y: nat, rows: nat, row: seq<Entry>, prevRow: seq<Entry>, range: seq<Span>, p: Params,
                    dist: (Point, Point) -> real)
    requires y < rows == |range| == |p.th|
    requires Fits(range[y], |row|)
    requires y > 0 ==> |prevRow| == |row| && Fits(range[y - 1], |row|)
    ensures var r := NewRow(y, rows, row, prevRow, range, p, dist);
      && (forall x | 0 <= x < |row| && !InSpan(x, range[y]) :: r[x] == row[x])
      && (forall x | 0 <= x < |row| :: r[x].pt == row[x].pt && r[x].color == row[x].color && r[x].prob == row[x].prob)
  {
  }

  /** The path from (y, x) down to row 0 follows predecessor links and stays
      inside every row's range. */
  predicate ChainInRange(g: Grid, range: seq<Span>, y: nat, x: int)
    requires y < |g| == |range|
    decreases y
  {
    && 0 <= x < |g[y]| && InSpan(x, range[y])
    && (y == 0 || ChainInRange(g, range, y - 1, g[y][x].prev))
  }

  /** The row-0 column that the predecessor links lead to from (y, x). */
  function Origin(g: Grid, range: seq<Span>, y: nat, x: int): (c: int)
    requires y < |g| == |range| && ChainInRange(g, range, y, x)
    ensures ChainInRange(g, range, 0, c)
    decreases y
  {
    if y == 0 then x else Origin(g, range, y - 1, g[y][x].prev)
  }

  /** The closure trick: every in-range cell of a later row remembers the
      point of the row-0 column its best path starts from, as long as that
      path stays inside the ranges. */
  lemma {:induction false} AnchorCarried(ws: Grid, range: seq<Span>, p: Params, dist: (Point, Point) -> real, y: nat, x: int)
    requires Valid(ws, range) && |p.th| == |ws| && 0 < y < |ws|
    requires ChainInRange(Visited(ws, range, p, dist), range, y, x)
    ensures var g := Visited(ws, range, p, dist);
            g[y][x].prev0 == ws[0][Origin(g, range, y, x)].pt
    decreases y
  {
    var g: Grid := Visited(ws, range, p, dist);
    LinkChoice(ws, range, p, dist, y, x);
    OutsideRangeUnchanged(ws, range, p, dist);
    if y > 1 {
      var q: int := g[y][x].prev;
      AnchorCarried(ws, range, p, dist, y - 1, q);
    }
  }

  /** Consecutive contour columns are at most `maxGap` apart, and the earlier
      one lies in its row's range, wherever the later one's window had a
      candidate above -FLT_MAX. */
  lemma GapRespected(ws: Grid, range: seq<Span>, p: Params, dist: (Point, Point) -> real, y: nat)
    requires Valid(ws, range) && 0 < y < |ws|
    requires Run(ws, range, p, dist).Ok?
    requires var g := Run(ws, range, p, dist).value.grid;
             var x := Run(ws, range, p, dist).value.seg[y];
             InSpan(x, range[y]) &&
             Beaten(g[y - 1], g[y][x].pt, AccAt(ws, range, p, y, x), p.smooth, y + 1 == |ws|, dist,
                    WindowLo(x, p.maxGap, range[y - 1]), WindowHi(x, p.maxGap, range[y - 1]))
    ensures var seg := Run(ws, range, p, dist).value.seg;
            && -p.maxGap <= seg[y] - seg[y - 1] <= p.maxGap
            && InSpan(seg[y - 1], range[y - 1])
  {
    var seg := Run(ws, range, p, dist).value.seg;
    LinkChoice(ws, range, p, dist, y, seg[y]);
  }
}

=== FILE: folds.dfy ===
/** Arithmetic facts about Euclidean division the fold proofs rest on. */
module DivMod {
  lemma {:induction false} MulAtLeast(d: int, n: int)
    requires d >= 1 && n > 0
    ensures d * n >= n
    decreases d
  {
    if d > 1 {
      MulAtLeast(d - 1, n);
      assert d * n == (d - 1) * n + n;
    }
  }

  /** Quotient and remainder are unique. */
  lemma DivModUnique(x: int, q: int, r: int, n: int)
    requires n > 0 && x == q * n + r && 0 <= r < n
    ensures x / n == q && x % n == r
  {
    var q' := x / n;
    var r' := x % n;
    assert (q - q') * n == r' - r;
    if q - q' >= 1 {
      MulAtLeast(q - q', n);
    } else if q' - q >= 1 {
      MulAtLeast(q' - q, n);
    }
  }
}

/** k-fold cross validation as both importers set it up
    (import.cpp:186-215, import_many.cpp:235-269): sample i goes to fold
    i % F, and run f validates on fold f and trains on the other folds in
    index order. */
module Folds {
  import opened Checks
  import opened DivMod

  /** The elements f, f + F, f + 2F, ... of s: the reference for a fold. */
  function Stride<T>(s: seq<T>, f: nat, F: nat): seq<T>
    requires F > 0
    decreases |s| - f
  {
    if f >= |s| then [] else [s[f]] + Stride(s, f + F, F)
  }

  /** Index n lies on the stride that starts at f. */
  predicate Hits(n: nat, f: nat, F: nat)
    requires F > 0
  {
    f <= n && (n - f) % F == 0
  }

  lemma HitsStep(n: nat, f: nat, F: nat)
    requires F > 0 && f < n
    ensures Hits(n, f, F) == Hits(n, f + F, F)
  {
    if n - f < F {
      DivModUnique(n - f, 0, n - f, F);
    } else {
      var q := (n - f - F) / F;
      var r := (n - f - F) % F;
      DivModUnique(n - f, q + 1, r, F);
    }
  }

  /** For a starting index below F, the stride is the residue class. */
  lemma HitsResidue(n: nat, f: nat, F: nat)
    requires 0 <= f < F
    ensures Hits(n, f, F) <==> n % F == f
  {
    if n % F == f {
      DivModUnique(n - f, n / F, 0, F);
    }
    if Hits(n, f, F) {
      DivModUnique(n, (n - f) / F, f, F);
    }
  }

  /** Appending x extends exactly the stride x's index lies on. */
  lemma {:induction false} StrideSnoc<T>(t: seq<T>, x: T, f: nat, F: nat)
    requires F > 0
    ensures Stride(t + [x], f, F) == Stride(t, f, F) + (if Hits(|t|, f, F) then [x] else [])
    decreases |t| - f
  {
    var s := t + [x];
    if f < |t| {
      StrideSnoc(t, x, f + F, F);
      HitsStep(|t|, f, F);
      assert s[f] == t[f];
    } else if f == |t| {
      assert s[f] == x;
    }
  }

  /** The k-th element of the stride from f is s[f + kF], and the stride
      reaches every such index. */
  lemma {:induction false} StrideAt<T>(s: seq<T>, f: nat, F: nat, k: nat)
    requires F > 0
    ensures k < |Stride(s, f, F)| <==> f + k * F < |s|
    ensures k < |Stride(s, f, F)| ==> Stride(s, f, F)[k] == s[f + k * F]
    decreases k
  {
    if k > 0 && f < |s| {
      StrideAt(s, f + F, F, k - 1);
      assert f + F + (k - 1) * F == f + k * F;
    } else if k > 0 {
      MulAtLeast(k, F);
    }
  }

  /** Strides that start less than F apart differ in length by at most
      one, the earlier one being the longer. */
  lemma {:induction false} StrideSizesClose<T>(s: seq<T>, f: nat, g: nat, F: nat)
    requires F > 0 && f <= g < f + F
    ensures |Stride(s, g, F)| <= |Stride(s, f, F)| <= |Stride(s, g, F)| + 1
    decreases |s| - f
  {
    if g < |s| {
      StrideSizesClose(s, f + F, g + F, F);
    }
  }

  /** The folds laid end to end. */
  function Flatten<T>(folds: seq<seq<T>>): seq<T> {
    if |folds| == 0 then [] else Flatten(folds[..|folds| - 1]) + folds[|folds| - 1]
  }

  lemma {:induction false} FlattenAppend<T>(a: seq<seq<T>>, b: seq<seq<T>>)
    ensures Flatten(a + b) == Flatten(a) + Flatten(b)
    decreases |b|
  {
    if |b| > 0 {
      assert (a + b)[..|a + b| - 1] == a + b[..|b| - 1];
      FlattenAppend(a, b[..|b| - 1]);
    } else {
      assert a + b == a;
    }
  }

  /** Appending x to one fold adds x to the folds' contents. */
  lemma FlattenUpdate<T>(folds: seq<seq<T>>, f: nat, x: T)
    requires f < |folds|
    ensures multiset(Flatten(folds[f := folds[f] + [x]])) == multiset(Flatten(folds)) + multiset{x}
  {
    var g := folds[f := folds[f] + [x]];
    assert folds == folds[..f] + [folds[f]] + folds[f + 1..];
    assert g == folds[..f] + [folds[f] + [x]] + folds[f + 1..];
    FlattenAppend(folds[..f] + [folds[f]], folds[f + 1..]);
    FlattenAppend(folds[..f], [folds[f]]);
    FlattenAppend(folds[..f] + [folds[f] + [x]], folds[f + 1..]);
    FlattenAppend(folds[..f], [folds[f] + [x]]);
    assert Flatten([folds[f]]) == folds[f] by { assert [folds[f]][..0] == []; }
    assert Flatten([folds[f] + [x]]) == folds[f] + [x] by { assert [folds[f] + [x]][..0] == []; }
  }

  /** The loop `folds[i % F].push_back(samples[i])`. Every fold is the
      stride from its index, and together the folds hold every sample
      exactly once. */
  method Partition<T>(s: seq<T>, F: nat) returns (folds: seq<seq<T>>)
    requires F >= 1
    ensures |folds| == F
    ensures forall f | 0 <= f < F :: folds[f] == Stride(s, f, F)
    ensures multiset(Flatten(folds)) == multiset(s)
  {
    folds := seq(F, f => []);
    var i := 0;
    assert forall f | 0 <= f < F :: Stride(s[..0], f, F) == [];
    assert multiset(Flatten(folds)) == multiset{} by {
      FlattenNone(folds);
    }
    while i < |s|
      invariant 0 <= i <= |s| && |folds| == F
      invariant forall f | 0 <= f < F :: folds[f] == Stride(s[..i], f, F)
      invariant multiset(Flatten(folds)) == multiset(s[..i])
    {
      PartitionStep(s, F, i, folds);
      folds := folds[i % F := folds[i % F] + [s[i]]];
      i := i + 1;
    }
    assert s[..i] == s;
  }

  /** Sample i goes to fold i % F, which is what the strides of one more
      sample say. */
  lemma PartitionStep<T>(s: seq<T>, F: nat, i: nat, folds: seq<seq<T>>)
    requires F >= 1 && i < |s| && |folds| == F
    requires forall f | 0 <= f < F :: folds[f] == Stride(s[..i], f, F)
    requires multiset(Flatten(folds)) == multiset(s[..i])
    ensures var next := folds[i % F := folds[i % F] + [s[i]]];
            && (forall f | 0 <= f < F :: next[f] == Stride(s[..i + 1], f, F))
            && multiset(Flatten(next)) == multiset(s[..i + 1])
  {
    var k := i % F;
    var next := folds[k := folds[k] + [s[i]]];
    var front := s[..i];
    assert s[..i + 1] == front + [s[i]];
    assert multiset(Flatten(next)) == multiset(Flatten(folds)) + multiset{s[i]} by {
      FlattenUpdate(folds, k, s[i]);
    }
    forall f | 0 <= f < F ensures next[f] == Stride(s[..i + 1], f, F) {
      StrideSnoc(front, s[i], f, F);
      HitsResidue(i, f, F);
    }
  }

  lemma {:induction false} FlattenNone<T>(folds: seq<seq<T>>)
    requires forall f | 0 <= f < |folds| :: folds[f] == []
    ensures Flatten(folds) == []
    decreases |folds|
  {
    if |folds| > 0 {
      FlattenNone(folds[..|folds| - 1]);
    }
  }

  /** Sample i sits in fold i % F at position i / F. */
  lemma FoldOfIndex<T>(s: seq<T>, F: nat, i: nat)
    requires F > 0 && i < |s|
    ensures i / F < |Stride(s, i % F, F)| && Stride(s, i % F, F)[i / F] == s[i]
  {
    assert i % F + (i / F) * F == i;
    StrideAt(s, i % F, F, i / F);
  }

  /** The training list of run f: every other fold, in index order. */
  method TrainOf<T>(folds: seq<seq<T>>, f: nat) returns (train: seq<T>)
    requires f < |folds|
    ensures train == Flatten(folds[..f]) + Flatten(folds[f + 1..])
  {
    train := [];
    var i := 0;
    while i < |folds|
      invariant 0 <= i <= |folds|
      invariant i <= f ==> train == Flatten(folds[..i])
      invariant i > f ==> train == Flatten(folds[..f]) + Flatten(folds[f + 1..i])
    {
      if i != f {
        if i < f {
          assert folds[..i + 1][..i] == folds[..i];
        } else {
          assert folds[f + 1..i + 1][..i - f - 1] == folds[f + 1..i];
        }
        train := train + folds[i];
      } else {
        assert folds[f + 1..i + 1] == [];
      }
      i := i + 1;
    }
    assert folds[f + 1..i] == folds[f + 1..];
  }

  /** Training and validation lists split the samples: together they hold
      every sample exactly once. */
  lemma TrainValPartition<T>(folds: seq<seq<T>>, f: nat)
    requires f < |folds|
    ensures multiset(Flatten(folds[..f]) + Flatten(folds[f + 1..])) + multiset(folds[f]) == multiset(Flatten(folds))
    ensures |Flatten(folds[..f]) + Flatten(folds[f + 1..])| + |folds[f]| == |Flatten(folds)|
  {
    var a := folds[..f];
    var m := [folds[f]];
    var b := folds[f + 1..];
    assert folds == a + m + b;
    FlattenAppend(a + m, b);
    FlattenAppend(a, m);
    assert Flatten(m) == folds[f] by { assert m[..0] == []; }
    assert Flatten(folds) == Flatten(a) + folds[f] + Flatten(b);
    assert multiset(Flatten(folds)) == multiset(Flatten(a)) + multiset(folds[f]) + multiset(Flatten(b));
  }

  /** One training run: the output sub-directory (the fold number under
      --full), and the two lists. */
  datatype Run<T> = Run(dir: Option<nat>, train: seq<T>, val: seq<T>)

  /** What main imports: everything unfolded when F == 1, otherwise one
      run per fold, or only fold 0 without --full. */
  datatype Plan<T> = Unfolded(all: seq<T>) | Folded(runs: seq<Run<T>>)

  /** Run f writes to sub-directory f exactly under --full, validates on
      the stride from f and trains on all the other samples. */
  ghost predicate FoldRun<T>(run: Run<T>, f: nat, samples: seq<T>, shuffled: seq<T>, F: nat, full: bool)
    requires F > 0
  {
    && run.dir == (if full then Some(f) else None)
    && run.val == Stride(shuffled, f, F)
    && multiset(run.train) + multiset(run.val) == multiset(samples)
  }

  /** main from CHECK(F >= 1) on. `shuffled` is the order random_shuffle
      leaves the samples in, which only the folded branch sees. */
  method PlanRuns<T>(samples: seq<T>, shuffled: seq<T>, F: int, full: bool) returns (r: Checked<Plan<T>>)
    requires multiset(shuffled) == multiset(samples)
    ensures r.Ok? <==> F >= 1
    ensures F == 1 ==> r == Ok(Unfolded(samples))
    ensures F > 1 ==> r.Ok? && r.value.Folded? && |r.value.runs| == (if full then F else 1)
    ensures F > 1 && r.Ok? && r.value.Folded? ==>
              forall f | 0 <= f < |r.value.runs| :: FoldRun(r.value.runs[f], f, samples, shuffled, F, full)
  {
    if F < 1 {
      return Abort("CHECK(F >= 1)");
    }
    if F == 1 {
      return Ok(Unfolded(samples));
    }
    var folds := Partition(shuffled, F);
    var runs := RunFolds(folds, full);
    forall f | 0 <= f < |runs| ensures FoldRun(runs[f], f, samples, shuffled, F, full) {
      TrainValPartition(folds, f);
    }
    return Ok(Folded(runs));
  }

  /** Run f validates on fold f and trains on every other fold in index
      order. */
  function RunOf<T>(folds: seq<seq<T>>, f: nat, full: bool): Run<T>
    requires f < |folds|
  {
    Run(if full then Some(f) else None, Flatten(folds[..f]) + Flatten(folds[f + 1..]), folds[f])
  }

  /** The loop over f: run f validates on fold f and trains on the rest;
      without --full the loop stops after the first run. */
  method RunFolds<T>(folds: seq<seq<T>>, full: bool) returns (runs: seq<Run<T>>)
    requires |folds| > 0
    ensures |runs| == (if full then |folds| else 1)
    ensures forall f | 0 <= f < |runs| :: runs[f] == RunOf(folds, f, full)
  {
    runs := [];
    var f := 0;
    while f < |folds|
      invariant 0 <= f <= |folds| && |runs| == f
      invariant !full ==> f == 0
      invariant forall g | 0 <= g < f :: runs[g] == RunOf(folds, g, full)
    {
      var train := TrainOf(folds, f);
      runs := runs + [Run(if full then Some(f) else None, train, folds[f])];
      f := f + 1;
      if !full {
        break;
      }
    }
  }
}

=== FILE: images.dfy ===
/** Two whole-image statistics (adsb2.cpp:1081-1101, 1286-1303): the
    row and column sums of an image, and the gray-level window a series is
    displayed with. */
module ImageStats {
  import opened Checks
  import opened Numeric
  import opened Raster
  import opened Sorting

  /** Every row has a column x. */
  predicate HasColumn(im: Image, x: nat) {
    forall y | 0 <= y < |im| :: x < |im[y]|
  }

  /** Column x of an image. */
  function Column(im: Image, x: nat): (c: seq<real>)
    requires HasColumn(im, x)
    ensures |c| == |im|
  {
    seq(|im|, y requires 0 <= y < |im| => im[y][x])
  }

  /** The sum of every row. */
  function RowSums(im: Image): (s: seq<real>)
    ensures |s| == |im|
  {
    seq(|im|, y requires 0 <= y < |im| => Sum(im[y]))
  }

  /** The sum of every column. */
  function ColSums(im: Image): (s: seq<real>)
    requires Rectangular(im)
    ensures |s| == Cols(im)
  {
    seq(Cols(im), x requires 0 <= x < Cols(im) => assert HasColumn(im, x); Sum(Column(im, x)))
  }

  /** accumulate: X[x] is the sum of column x, Y[y] the sum of row y and
      `total` the sum of the image, which the row sums add up to. */
  method Accumulate(im: Image) returns (total: real, xs: seq<real>, ys: seq<real>)
    requires Rectangular(im)
    ensures xs == ColSums(im) && ys == RowSums(im)
    ensures total == Sum(ys) && total == Sum(xs)
  {
    var cols := Cols(im);
    xs := seq(cols, x => 0.0);
    ys := seq(|im|, y => 0.0);
    total := 0.0;
    var y := 0;
    assert forall x, k | 0 <= x < cols && 0 <= k <= |im| :: HasColumn(im[..k], x) by {
      forall x, k | 0 <= x < cols && 0 <= k <= |im| ensures HasColumn(im[..k], x) {
        assert forall j | 0 <= j < k :: im[..k][j] == im[j];
      }
    }
    while y < |im|
      invariant 0 <= y <= |im| && |xs| == cols && |ys| == |im|
      invariant forall x | 0 <= x < cols :: xs[x] == Sum(Column(im[..y], x))
      invariant ys[..y] == RowSums(im[..y])
      invariant forall k | y <= k < |im| :: ys[k] == 0.0
      invariant total == Sum(ys[..y])
    {
      var x := 0;
      while x < cols
        invariant 0 <= x <= cols && |xs| == cols && |ys| == |im|
        invariant forall c | 0 <= c < x :: xs[c] == Sum(Column(im[..y + 1], c))
        invariant forall c | x <= c < cols :: xs[c] == Sum(Column(im[..y], c))
        invariant ys[..y] == RowSums(im[..y])
        invariant ys[y] == Sum(im[y][..x])
        invariant forall k | y < k < |im| :: ys[k] == 0.0
        invariant total == Sum(ys[..y]) + Sum(im[y][..x])
      {
        ColumnSnoc(im, y, x);
        SumPrefixStep(im[y], x);
        xs := xs[x := xs[x] + im[y][x]];
        ys := ys[y := ys[y] + im[y][x]];
        total := total + im[y][x];
        x := x + 1;
      }
      assert im[y][..x] == im[y];
      RowSumsSnoc(im, y);
      assert ys[..y + 1] == ys[..y] + [ys[y]];
      SumSnoc(ys[..y], ys[y]);
      y := y + 1;
    }
    assert im[..y] == im;
    assert ys[..y] == ys;
    forall x | 0 <= x < cols ensures xs[x] == ColSums(im)[x] {
    }
    RowsAndColumnsAgree(im);
  }

  lemma ColumnSnoc(im: Image, y: nat, x: nat)
    requires Rectangular(im) && y < |im| && x < Cols(im)
    ensures HasColumn(im[..y], x) && HasColumn(im[..y + 1], x)
    ensures Sum(Column(im[..y + 1], x)) == Sum(Column(im[..y], x)) + im[y][x]
  {
    assert forall j | 0 <= j < y + 1 :: im[..y + 1][j] == im[j];
    var c := Column(im[..y + 1], x);
    assert c == Column(im[..y], x) + [im[y][x]];
    SumSnoc(Column(im[..y], x), im[y][x]);
  }

  lemma RowSumsSnoc(im: Image, y: nat)
    requires y < |im|
    ensures RowSums(im[..y + 1]) == RowSums(im[..y]) + [Sum(im[y])]
  {
  }

  /** Summing the row sums or the column sums gives the same total. */
  lemma {:induction false} RowsAndColumnsAgree(im: Image)
    requires Rectangular(im)
    ensures Sum(RowSums(im)) == Sum(ColSums(im))
    decreases |im|
  {
    if |im| > 0 && Cols(im) > 0 {
      var front := im[..|im| - 1];
      var last := im[|im| - 1];
      assert Rectangular(front);
      RowsAndColumnsAgree(front);
      assert RowSums(im) == RowSums(front) + [Sum(last)];
      SumSnoc(RowSums(front), Sum(last));
      if |front| == 0 {
        assert ColSums(im) == last by {
          forall x | 0 <= x < Cols(im) ensures ColSums(im)[x] == last[x] {
            assert Column(im, x) == [last[x]];
            assert Sum([last[x]]) == last[x] + Sum([]);
          }
        }
      } else {
        var cs := ColSums(front);
        assert Cols(front) == Cols(im);
        assert ColSums(im) == AddEach(cs, last) by {
          forall x | 0 <= x < Cols(im) ensures ColSums(im)[x] == cs[x] + last[x] {
            assert Column(im, x) == Column(front, x) + [last[x]];
            SumSnoc(Column(front, x), last[x]);
          }
        }
        SumAddEach(cs, last);
      }
    } else if |im| > 0 {
      assert ColSums(im) == [];
      forall y | 0 <= y < |im| ensures RowSums(im)[y] == 0.0 {
        assert im[y] == [];
      }
      SumBounds(RowSums(im), 0.0, 0.0);
    }
  }

  function AddEach(a: seq<real>, b: seq<real>): (c: seq<real>)
    requires |a| == |b|
    ensures |c| == |a| && forall i | 0 <= i < |a| :: c[i] == a[i] + b[i]
  {
    seq(|a|, i requires 0 <= i < |a| => a[i] + b[i])
  }

  lemma {:induction false} SumAddEach(a: seq<real>, b: seq<real>)
    requires |a| == |b|
    ensures Sum(AddEach(a, b)) == Sum(a) + Sum(b)
    decreases |a|
  {
    if |a| > 0 {
      assert AddEach(a, b)[1..] == AddEach(a[1..], b[1..]);
      SumAddEach(a[1..], b[1..]);
    }
  }

  /** Adjacent duplicates removed (std::unique). */
  function Unique(s: seq<int>): (u: seq<int>)
    ensures |u| <= |s| && (|s| > 0 ==> |u| > 0)
    ensures forall k | 0 <= k < |u| :: u[k] in s
    ensures forall k | 0 <= k < |s| :: s[k] in u
    ensures |s| > 0 ==> u[|u| - 1] == s[|s| - 1]
    decreases |s|
  {
    if |s| <= 1 then s
    else
      var front := Unique(s[..|s| - 1]);
      assert forall k | 0 <= k < |s| - 1 :: s[k] == s[..|s| - 1][k];
      if s[|s| - 1] == s[|s| - 2] then front else front + [s[|s| - 1]]
  }

  predicate Increasing(u: seq<int>) {
    forall k | 0 < k < |u| :: u[k - 1] < u[k]
  }

  /** On sorted input the distinct values come out strictly increasing. */
  lemma {:induction false} UniqueIncreasing(s: seq<int>)
    requires forall i, j | 0 <= i < j < |s| :: s[i] <= s[j]
    ensures Increasing(Unique(s))
    decreases |s|
  {
    if |s| > 1 {
      var p := s[..|s| - 1];
      assert forall i, j | 0 <= i < j < |p| :: p[i] <= p[j] by {
        forall i, j | 0 <= i < j < |p| ensures p[i] <= p[j] { assert p[i] == s[i] && p[j] == s[j]; }
      }
      UniqueIncreasing(p);
      var f := Unique(p);
      var last := s[|s| - 1];
      if last != s[|s| - 2] {
        assert f[|f| - 1] < last by {
          assert f[|f| - 1] == s[|s| - 2];
          assert s[|s| - 2] <= last;
        }
        AppendIncreasing(f, last);
      }
    }
  }

  lemma AppendIncreasing(f: seq<int>, x: int)
    requires |f| > 0 && Increasing(f) && f[|f| - 1] < x
    ensures Increasing(f + [x])
  {
    var u := f + [x];
    forall k | 0 < k < |u| ensures u[k - 1] < u[k] {
      if k < |f| {
        assert u[k - 1] == f[k - 1] && u[k] == f[k];
      }
    }
  }

  /** The gray-level window of a series. */
  datatype Bounds = Bounds(lb: int, ub: int)

  function IntLe(a: int, b: int): bool {
    a <= b
  }

  /** getColorBounds over the raw pixel values of every image of the series
      (gathered in any order: only their sorted order matters). `grays` is
      the constant GRAYS. lb is the larger of the 20% quantile of the pixels
      and the 0.5% quantile of the distinct values; ub is the smaller of the
      95% quantile and the 80% quantile of the distinct values, raised to
      lb + GRAYS if it falls short. A series without pixels reads all[0]. */
  function ColorBounds(pixels: seq<int>, grays: int): (r: Checked<Bounds>)
    ensures r.Ok? <==> |pixels| > 0
    ensures r.Ok? ==> r.value.ub >= r.value.lb + grays
    ensures r.Ok? ==> r.value.lb in pixels
    ensures r.Ok? ==> r.value.ub in pixels || r.value.ub == r.value.lb + grays
    ensures r.Ok? ==>
              var all := Sort(pixels, IntLe);
              var u := Unique(all);
              var hi := HighPick(all, u);
              && r.value.lb == LowPick(all, u)
              && r.value.ub == (if r.value.lb + grays > hi then r.value.lb + grays else hi)
  {
    if |pixels| == 0 then Abort("all[0] of an empty series")
    else
      var all := Sort(pixels, IntLe);
      assert all[0] in multiset(pixels);
      var u := Unique(all);
      var lb := LowPick(all, u);
      var ub := HighPick(all, u);
      InSorted(pixels, all);
      Ok(Bounds(lb, if lb + grays > ub then lb + grays else ub))
  }

  /** The element at a fractional position, the position cast to an index by
      truncation toward zero as C++ does. */
  function Pick(s: seq<int>, pos: real): (v: int)
    requires |s| > 0 && -1.0 < pos < |s| as real
    ensures 0 <= Trunc(pos) < |s| && v == s[Trunc(pos)]
  {
    s[Trunc(pos)]
  }

  /** The low end before the GRAYS adjustment: the larger of the pixel at 20%
      of the sorted series and the distinct value at 0.5%. */
  function LowPick(all: seq<int>, u: seq<int>): int
    requires |all| > 0 && |u| > 0
  {
    Max(Pick(all, |all| as real * 0.2), Pick(u, |u| as real * 0.005))
  }

  /** The high end before the GRAYS adjustment: the smaller of the pixel at
      95% of the sorted series and the distinct value at 80% less one. */
  function HighPick(all: seq<int>, u: seq<int>): int
    requires |all| > 0 && |u| > 0
  {
    Min(Pick(all, |all| as real - |all| as real * 0.05), Pick(u, (|u| - 1) as real - |u| as real * 0.2))
  }

  lemma IntLeOrder()
    ensures Total(IntLe) && Transitive(IntLe)
  {
  }

  /** Sorting by IntLe puts the pixels in non-decreasing order. */
  lemma SortedInts(pixels: seq<int>)
    ensures NonDecreasing(Sort(pixels, IntLe))
  {
    var all := Sort(pixels, IntLe);
    IntLeOrder();
    SortSorted(pixels, IntLe);
    forall i, j | 0 <= i < j < |all| ensures all[i] <= all[j] {
      assert IntLe(all[i], all[j]);
    }
  }

  predicate NonDecreasing(s: seq<int>) {
    forall i, j | 0 <= i < j < |s| :: s[i] <= s[j]
  }

  /** On a sorted series the low pick is at or above every element up to the
      20% position. */
  lemma LowPickQuantile(all: seq<int>, u: seq<int>, j: int)
    requires |all| > 0 && |u| > 0 && NonDecreasing(all)
    requires 0 <= j <= Trunc(|all| as real * 0.2) && j < |all|
    ensures all[j] <= LowPick(all, u)
  {
    var k := Trunc(|all| as real * 0.2);
    assert Pick(all, |all| as real * 0.2) == all[k];
    if j < k { assert all[j] <= all[k]; }
  }

  /** On a sorted series the high pick is at or below every element from the
      95% position on. */
  lemma HighPickQuantile(all: seq<int>, u: seq<int>, j: int)
    requires |all| > 0 && |u| > 0 && NonDecreasing(all)
    requires Trunc(|all| as real - |all| as real * 0.05) <= j < |all|
    ensures HighPick(all, u) <= all[j]
  {
    var k := Trunc(|all| as real - |all| as real * 0.05);
    assert Pick(all, |all| as real - |all| as real * 0.05) == all[k];
    if k < j { assert all[k] <= all[j]; }
  }

  /** b.lb is at or above the 20% quantile of the sorted pixels `all`: every
      pixel up to that position is at most b.lb. Unless b.ub was raised to
      b.lb + GRAYS, it is at or below the 95% quantile: every pixel from that
      position on is at least b.ub. */
  predicate QuantileWindow(all: seq<int>, b: Bounds, grays: int) {
    var n := |all| as real;
    && (forall j | 0 <= j <= Trunc(n * 0.2) && j < |all| :: all[j] <= b.lb)
    && (b.ub == b.lb + grays || forall j | Trunc(n - n * 0.05) <= j < |all| :: b.ub <= all[j])
  }

  /** Any window built from the two picks of a sorted series, as
      ColorBounds builds it, lies within the series' quantiles. */
  lemma PicksQuantileWindow(all: seq<int>, u: seq<int>, grays: int, b: Bounds)
    requires |all| > 0 && |u| > 0 && NonDecreasing(all)
    requires b.lb == LowPick(all, u)
    requires b.ub == (if b.lb + grays > HighPick(all, u) then b.lb + grays else HighPick(all, u))
    ensures QuantileWindow(all, b, grays)
  {
    var n := |all| as real;
    forall j | 0 <= j <= Trunc(n * 0.2) && j < |all| ensures all[j] <= b.lb {
      LowPickQuantile(all, u, j);
    }
    if b.ub != b.lb + grays {
      forall j | Trunc(n - n * 0.05) <= j < |all| ensures b.ub <= all[j] {
        HighPickQuantile(all, u, j);
      }
    }
  }

  /** The window ColorBounds picks lies between the 20% and 95% quantiles of
      the pixels, unless GRAYS forces it wider. */
  lemma ColorBoundsQuantiles(pixels: seq<int>, grays: int)
    requires |pixels| > 0
    ensures QuantileWindow(Sort(pixels, IntLe), ColorBounds(pixels, grays).value, grays)
  {
    var all := Sort(pixels, IntLe);
    SortedInts(pixels);
    PicksQuantileWindow(all, Unique(all), grays, ColorBounds(pixels, grays).value);
  }

  lemma InSorted(pixels: seq<int>, all: seq<int>)
    requires multiset(all) == multiset(pixels)
    ensures forall k | 0 <= k < |all| :: all[k] in pixels
  {
    forall k | 0 <= k < |all| ensures all[k] in pixels {
      assert all[k] in multiset(all);
    }
  }
}

=== FILE: import.dfy ===
/** The single-image importer's own logic (import.cpp:30-42, 157-184): the
    sample list is read into numbered samples, and a sample's float box is
    rounded to the integer rectangle its label is painted into. */
module ImportList {
  import opened Checks

  /** A Rect_<float>: corner and size. */
  datatype BoxF = BoxF(x: real, y: real, width: real, height: real)

  /** A cv::Rect. */
  datatype Rect = Rect(x: int, y: int, width: int, height: int)

  /** std::round: to the nearest integer, halves away from zero. */
  function Round(v: real): (r: int)
    ensures v - 0.5 <= r as real <= v + 0.5
    ensures r as real == v + 0.5 ==> v > 0.0
    ensures r as real == v - 0.5 ==> v < 0.0
  {
    if v >= 0.0 then (v + 0.5).Floor else -((-v + 0.5).Floor)
  }

  /** Integers are left alone. */
  lemma RoundInt(n: int)
    ensures Round(n as real) == n
  {
  }

  /** Rounding is monotone and symmetric about zero. */
  lemma RoundMonotone(u: real, v: real)
    requires u <= v
    ensures Round(u) <= Round(v)
  {
  }

  lemma RoundOdd(v: real)
    ensures Round(-v) == -Round(v)
  {
  }

  /** round(from, &to): both corners are rounded on their own, so the far
      edge is the rounded far edge rather than a rounded width. */
  function RoundBox(from: BoxF): (to: Rect)
    ensures to.x == Round(from.x) && to.x + to.width == Round(from.x + from.width)
    ensures to.y == Round(from.y) && to.y + to.height == Round(from.y + from.height)
  {
    var x := Round(from.x);
    var y := Round(from.y);
    Rect(x, y, Round(from.x + from.width) - x, Round(from.y + from.height) - y)
  }

  /** A box of non-negative size rounds to one of non-negative size, each
      edge within half a pixel of the original. */
  lemma RoundBoxBounds(from: BoxF)
    requires from.width >= 0.0 && from.height >= 0.0
    ensures RoundBox(from).width >= 0 && RoundBox(from).height >= 0
    ensures var to := RoundBox(from);
            && from.x - 0.5 <= to.x as real <= from.x + 0.5
            && from.y - 0.5 <= to.y as real <= from.y + 0.5
            && from.x + from.width - 0.5 <= (to.x + to.width) as real <= from.x + from.width + 0.5
            && from.y + from.height - 0.5 <= (to.y + to.height) as real <= from.y + from.height + 0.5
  {
    RoundMonotone(from.x, from.x + from.width);
    RoundMonotone(from.y, from.y + from.height);
  }

  /** A box on the integer grid is unchanged. */
  lemma RoundBoxIntegral(r: Rect)
    ensures RoundBox(BoxF(r.x as real, r.y as real, r.width as real, r.height as real)) == r
  {
    RoundInt(r.x);
    RoundInt(r.y);
    RoundInt(r.x + r.width);
    RoundInt(r.y + r.height);
  }

  /** What `ss >> path >> x >> y >> w >> h` extracts from a line. */
  datatype Fields = Fields(path: string, box: BoxF)

  datatype Sample = Sample(id: nat, line: string, path: string, box: BoxF)

  /** A line is kept when it parses and names a regular file. `parse`
      stands for the stream extraction and `isFile` for
      fs::is_regular_file on root_dir + path. */
  predicate Kept(line: string, parse: string -> Option<Fields>, isFile: string -> bool) {
    parse(line).Some? && isFile(parse(line).value.path)
  }

  /** The kept lines, in file order. */
  function KeptLines(lines: seq<string>, parse: string -> Option<Fields>, isFile: string -> bool): (k: seq<string>)
    ensures |k| <= |lines|
    ensures forall j | 0 <= j < |k| :: k[j] in lines && Kept(k[j], parse, isFile)
    ensures forall j | 0 <= j < |lines| && Kept(lines[j], parse, isFile) :: lines[j] in k
  {
    if |lines| == 0 then []
    else
      var front := KeptLines(lines[..|lines| - 1], parse, isFile);
      var last := lines[|lines| - 1];
      assert forall j | 0 <= j < |lines| - 1 :: lines[j] == lines[..|lines| - 1][j];
      if Kept(last, parse, isFile) then front + [last] else front
  }

  /** The list-reading loop: every kept line becomes a sample carrying the
      next id; a skipped line consumes none. */
  method LoadList(lines: seq<string>, parse: string -> Option<Fields>, isFile: string -> bool)
    returns (samples: seq<Sample>)
    ensures |samples| == |KeptLines(lines, parse, isFile)|
    ensures forall k | 0 <= k < |samples| ::
              var line := KeptLines(lines, parse, isFile)[k];
              samples[k] == Sample(k, line, parse(line).value.path, parse(line).value.box)
  {
    samples := [];
    var id := 0;
    var i := 0;
    while i < |lines|
      invariant 0 <= i <= |lines| && id == |samples|
      invariant |samples| == |KeptLines(lines[..i], parse, isFile)|
      invariant forall k | 0 <= k < |samples| ::
                  var line := KeptLines(lines[..i], parse, isFile)[k];
                  samples[k] == Sample(k, line, parse(line).value.path, parse(line).value.box)
    {
      assert lines[..i + 1][..i] == lines[..i];
      var line := lines[i];
      var fields := parse(line);
      if fields.None? {
        i := i + 1;
        continue;
      }
      if !isFile(fields.value.path) {
        i := i + 1;
        continue;
      }
      samples := samples + [Sample(id, line, fields.value.path, fields.value.box)];
      id := id + 1;
      i := i + 1;
    }
    assert lines[..i] == lines;
  }
}

=== FILE: importmany.dfy ===
/** The multi-study importer's own logic (import_many.cpp:33-115,
    198-233): with a training list, the slices are split by the study id
    in their path; and every list is imported `replica` times, each pass
    after the first in a fresh random order and with perturbation. */
module ImportMany {
  import opened Checks
  import opened Reports
  import opened Batching
  import opened DivMod

  /** Whether a slice goes to the training list: its study id parses and
      is one of `pids`. */
  predicate Picked<T>(x: T, pathOf: T -> seq<string>, pids: set<int>) {
    var id := StudyIdOf(pathOf(x));
    id.Ok? && id.value in pids
  }

  function PickerOf<T>(pathOf: T -> seq<string>, pids: set<int>): T -> bool {
    x => Picked(x, pathOf, pids)
  }

  /** The elements whose `keep` is `want`, in order. */
  function Select<T>(xs: seq<T>, keep: T -> bool, want: bool): (r: seq<T>)
    ensures forall k | 0 <= k < |r| :: r[k] in xs && keep(r[k]) == want
  {
    if |xs| == 0 then []
    else
      var n := |xs| - 1;
      assert forall k | 0 <= k < n :: xs[..n][k] == xs[k];
      var front := Select(xs[..n], keep, want);
      if keep(xs[n]) == want then front + [xs[n]] else front
  }

  predicate IdsParse<T>(xs: seq<T>, pathOf: T -> seq<string>) {
    forall k | 0 <= k < |xs| :: StudyIdOf(pathOf(xs[k])).Ok?
  }

  /** The --train-list branch of main: a slice goes to train iff its study
      id is in `pids` (the ids read from the list file), otherwise to val.
      lexical_cast throws on the first path whose id does not parse. */
  method SplitByStudy<T>(xs: seq<T>, pathOf: T -> seq<string>, pids: set<int>)
    returns (r: Checked<(seq<T>, seq<T>)>)
    ensures r.Ok? <==> IdsParse(xs, pathOf)
    ensures r.Ok? ==> && r.value.0 == Select(xs, PickerOf(pathOf, pids), true)
                      && r.value.1 == Select(xs, PickerOf(pathOf, pids), false)
  {
    var keep := PickerOf(pathOf, pids);
    var train: seq<T> := [];
    var val: seq<T> := [];
    var i := 0;
    while i < |xs|
      invariant 0 <= i <= |xs| && IdsParse(xs[..i], pathOf)
      invariant train == Select(xs[..i], keep, true) && val == Select(xs[..i], keep, false)
    {
      var x := xs[i];
      var id := StudyIdOf(pathOf(x));
      if id.Abort? {
        assert !IdsParse(xs, pathOf) by {
          assert !StudyIdOf(pathOf(xs[i])).Ok?;
        }
        return Abort(id.reason);
      }
      SplitStep(xs, i, pathOf, pids);
      if id.value in pids {
        train := train + [x];
      } else {
        val := val + [x];
      }
      i := i + 1;
    }
    assert xs[..i] == xs;
    return Ok((train, val));
  }

  /** One more slice whose id parses: the prefix grows by it, and it joins
      train exactly when its id is in `pids`. */
  lemma SplitStep<T>(xs: seq<T>, i: nat, pathOf: T -> seq<string>, pids: set<int>)
    requires i < |xs| && IdsParse(xs[..i], pathOf) && StudyIdOf(pathOf(xs[i])).Ok?
    ensures IdsParse(xs[..i + 1], pathOf)
    ensures var keep := PickerOf(pathOf, pids);
            var picked := StudyIdOf(pathOf(xs[i])).value in pids;
            && Select(xs[..i + 1], keep, true) == Select(xs[..i], keep, true) + (if picked then [xs[i]] else [])
            && Select(xs[..i + 1], keep, false) == Select(xs[..i], keep, false) + (if picked then [] else [xs[i]])
  {
    var front := xs[..i];
    var x := xs[i];
    var next := xs[..i + 1];
    assert next == front + [x];
    forall k | 0 <= k < i + 1 ensures StudyIdOf(pathOf(next[k])).Ok? {
      if k < i {
        assert next[k] == front[k];
      }
    }
    SelectSnoc(front, x, PickerOf(pathOf, pids), true);
    SelectSnoc(front, x, PickerOf(pathOf, pids), false);
  }

  lemma SelectSnoc<T>(xs: seq<T>, x: T, keep: T -> bool, want: bool)
    ensures Select(xs + [x], keep, want) == Select(xs, keep, want) + (if keep(x) == want then [x] else [])
  {
    assert (xs + [x])[..|xs|] == xs;
  }

  /** The split loses and duplicates nothing: train and val together are
      the list. */
  lemma {:induction false} SelectPartition<T>(xs: seq<T>, keep: T -> bool)
    ensures multiset(Select(xs, keep, true)) + multiset(Select(xs, keep, false)) == multiset(xs)
    decreases |xs|
  {
    if |xs| > 0 {
      var n := |xs| - 1;
      var front := xs[..n];
      var x := xs[n];
      SelectPartition(front, keep);
      var t := Select(front, keep, true);
      var v := Select(front, keep, false);
      assert Select(xs, keep, true) == t + (if keep(x) then [x] else []) by {
        assert xs == front + [x];
        SelectSnoc(front, x, keep, true);
      }
      assert Select(xs, keep, false) == v + (if keep(x) then [] else [x]) by {
        assert xs == front + [x];
        SelectSnoc(front, x, keep, false);
      }
      assert multiset(xs) == multiset(front) + multiset{x} by {
        assert xs == front + [x];
      }
    }
  }

  /** Hence the two lists' lengths add up to the list's. */
  lemma SelectSizes<T>(xs: seq<T>, keep: T -> bool)
    ensures |Select(xs, keep, true)| + |Select(xs, keep, false)| == |xs|
  {
    SelectPartition(xs, keep);
    assert |multiset(Select(xs, keep, true)) + multiset(Select(xs, keep, false))| == |multiset(xs)|;
  }

  /** One put of the importer: its key, the slice and whether the sampler
      may perturb it. */
  datatype Tagged<T> = Tagged(key: nat, item: T, perturb: bool)

  /** The order of pass rr: the list itself for the first pass, and for a
      later pass the order random_shuffle left it in, given in `orders`. */
  function OrderOf<T>(samples: seq<T>, orders: seq<seq<T>>, rr: nat): seq<T>
    requires rr <= |orders|
  {
    if rr == 0 then samples else orders[rr - 1]
  }

  ghost predicate Reorders<T>(samples: seq<T>, orders: seq<seq<T>>) {
    forall p | 0 <= p < |orders| :: multiset(orders[p]) == multiset(samples)
  }

  /** The puts of passes 0..rr-1: keys count on from 0 across passes. */
  function Passes<T>(samples: seq<T>, orders: seq<seq<T>>, rr: nat): (r: seq<Tagged<T>>)
    requires rr <= |orders| + 1 && Reorders(samples, orders)
    ensures |r| == rr * |samples|
  {
    if rr == 0 then []
    else
      var front := Passes(samples, orders, rr - 1);
      var order := OrderOf(samples, orders, rr - 1);
      assert |order| == |samples| by {
        if rr > 1 { assert |multiset(order)| == |multiset(samples)|; }
      }
      front + seq(|order|, j requires 0 <= j < |order| => Tagged(|front| + j, order[j], rr - 1 > 0))
  }

  /** import's two loops, up to the database writes: `replica` passes over
      the list, `key = count` for every put and `do_not_perturb = (rr == 0)`.
      A negative replica is not modelled (the unsigned comparison would
      loop some four billion times). */
  method Replicate<T>(samples: seq<T>, orders: seq<seq<T>>, replica: nat) returns (puts: seq<Tagged<T>>)
    requires replica <= |orders| + 1 && Reorders(samples, orders)
    ensures puts == Passes(samples, orders, replica)
  {
    puts := [];
    var count := 0;
    var rr := 0;
    while rr < replica
      invariant 0 <= rr <= replica && puts == Passes(samples, orders, rr) && count == |puts|
    {
      var order := OrderOf(samples, orders, rr);
      assert |order| == |samples| by {
        if rr > 0 { assert |multiset(order)| == |multiset(samples)|; }
      }
      ghost var start := puts;
      var j := 0;
      while j < |order|
        invariant 0 <= j <= |order| && count == |puts|
        invariant puts == start + seq(j, k requires 0 <= k < j => Tagged(|start| + k, order[k], rr > 0))
      {
        puts := puts + [Tagged(count, order[j], rr > 0)];
        count := count + 1;
        j := j + 1;
      }
      rr := rr + 1;
    }
  }

  /** Keys are 0, 1, 2, ... and exactly the puts from index n on may be
      perturbed. */
  predicate Keyed<T>(p: seq<Tagged<T>>, n: nat) {
    forall k | 0 <= k < |p| :: p[k].key == k && (p[k].perturb <==> k >= n)
  }

  /** Keys count on across all passes, and exactly the puts of the first
      pass are unperturbed. */
  lemma {:induction false} PassesKeys<T>(samples: seq<T>, orders: seq<seq<T>>, rr: nat)
    requires rr <= |orders| + 1 && Reorders(samples, orders)
    ensures Keyed(Passes(samples, orders, rr), |samples|)
    decreases rr
  {
    if rr > 0 {
      PassesKeys(samples, orders, rr - 1);
      var front := Passes(samples, orders, rr - 1);
      var order := OrderOf(samples, orders, rr - 1);
      assert |order| == |samples| by {
        if rr > 1 { assert |multiset(order)| == |multiset(samples)|; }
      }
      var tail := seq(|order|, j requires 0 <= j < |order| => Tagged(|front| + j, order[j], rr - 1 > 0));
      var p := Passes(samples, orders, rr);
      assert p == front + tail;
      forall k | 0 <= k < |p| ensures p[k].key == k && (p[k].perturb <==> k >= |samples|) {
        if k < |front| {
          assert p[k] == front[k];
        } else {
          assert p[k] == tail[k - |front|];
          if rr - 1 > 0 && |samples| > 0 {
            MulAtLeast(rr - 1, |samples|);
          }
        }
      }
    }
  }

  /** The first pass carries the list in its own order. */
  lemma FirstPass<T>(samples: seq<T>, orders: seq<seq<T>>, rr: nat)
    requires 1 <= rr <= |orders| + 1 && Reorders(samples, orders)
    ensures var p := Passes(samples, orders, rr);
            |samples| <= |p| && forall k | 0 <= k < |samples| :: p[k].item == samples[k]
    decreases rr
  {
    if rr > 1 {
      FirstPass(samples, orders, rr - 1);
    }
  }

  /** import as a whole: the replicated puts go through the shared commit
      loop. Every put is written under the next key, and the puts are
      committed in ceil(count / 1000) transactions. */
  method ImportReplicas<T>(samples: seq<T>, orders: seq<seq<T>>, replica: nat) returns (trace: seq<Event<Tagged<T>>>)
    requires replica <= |orders| + 1 && Reorders(samples, orders)
    ensures |Puts(trace)| == replica * |samples| && Keyed(Puts(trace), |samples|)
    ensures Commits(trace) == (replica * |samples| + BatchSize - 1) / BatchSize
    ensures replica * |samples| > 0 ==> trace[|trace| - 1] == Commit
  {
    var puts := Replicate(samples, orders, replica);
    trace := Import(puts);
    ChunkedPuts(puts);
    PassesKeys(samples, orders, replica);
    if |puts| > 0 {
      ChunkedEndsCommitted(puts);
    }
  }
}

=== FILE: numeric.dfy ===
/** Shared vocabulary: the abort outcome of CHECK-guarded code, real-valued
    sums and extrema, the float constants the source uses as sentinels, and
    images as rectangular sequences of rows. */

module Checks {

  /** What a CHECK-guarded computation produces: a value, or the reason the
      process aborts (CHECK, BOOST_VERIFY, a throwing `at` or `lexical_cast`,
      or a read the source leaves undefined). Failure-compatible, so `:-`
      propagates the abort. */
  datatype Checked<+T> = Ok(value: T) | Abort(reason: string) {

    predicate IsFailure() {
      Abort?
    }

    function PropagateFailure<U>(): Checked<U>
      requires Abort?
    {
      Abort(reason)
    }

    function Extract(): T
      requires Ok?
    {
      value
    }
  }

  /** A value that may be absent: a file that could not be opened, a result
      a function declines to write. */
  datatype Option<+T> = None | Some(value: T)
}

module Numeric {

  /** std::numeric_limits<float>::max(), the sentinel the DP and the window
      scan start from. */
  const FloatMax: real := 340282346638528859811704183484516925440.0

  function Max(a: int, b: int): int {
    if a < b then b else a
  }

  function Min(a: int, b: int): int {
    if a < b then a else b
  }

  function RMax(a: real, b: real): real {
    if a < b then b else a
  }

  function RMin(a: real, b: real): real {
    if a < b then a else b
  }

  function Abs(a: real): real {
    if a < 0.0 then -a else a
  }

  /** `x` clamped into [0, n-1] the way the source does it: first raise a
      negative index to 0, then lower an index past the end to n-1. */
  function Clamp(x: int, n: int): (r: int)
    requires n >= 1
    ensures 0 <= r < n
    ensures 0 <= x < n ==> r == x
    ensures x < 0 ==> r == 0
    ensures x >= n ==> r == n - 1
  {
    var a := if x < 0 then 0 else x;
    if a >= n then n - 1 else a
  }

  /** Conversion of a float to int in C++: truncation toward zero. */
  function Trunc(r: real): (i: int)
    ensures r >= 0.0 ==> i as real <= r < i as real + 1.0
    ensures r < 0.0 ==> i as real - 1.0 < r <= i as real
  {
    if r >= 0.0 then r.Floor else -((-r).Floor)
  }

  lemma MulNonNegative(a: real, b: real)
    requires 0.0 <= a && 0.0 <= b
    ensures 0.0 <= a * b
  {
  }

  lemma SquareNonNegative(a: real)
    ensures 0.0 <= a * a
  {
    if a < 0.0 {
      MulNonNegative(-a, -a);
      assert (-a) * (-a) == a * a;
    } else {
      MulNonNegative(a, a);
    }
  }

  function Sum(s: seq<real>): real {
    if |s| == 0 then 0.0 else s[0] + Sum(s[1..])
  }

  lemma {:induction false} SumAppend(a: seq<real>, b: seq<real>)
    ensures Sum(a + b) == Sum(a) + Sum(b)
  {
    if |a| == 0 {
      assert a + b == b;
    } else {
      assert (a + b)[1..] == a[1..] + b;
      SumAppend(a[1..], b);
    }
  }

  lemma SumSnoc(s: seq<real>, x: real)
    ensures Sum(s + [x]) == Sum(s) + x
  {
    SumAppend(s, [x]);
  }

  /** The sum of a prefix one longer is the shorter sum plus the new element. */
  lemma SumPrefixStep(s: seq<real>, i: nat)
    requires i < |s|
    ensures Sum(s[..i + 1]) == Sum(s[..i]) + s[i]
  {
    assert s[..i + 1] == s[..i] + [s[i]];
    SumSnoc(s[..i], s[i]);
  }

  /** A difference of prefix sums is the sum of the slice between them. */
  lemma SumSliceDiff(s: seq<real>, i: nat, j: nat)
    requires i <= j <= |s|
    ensures Sum(s[..j]) - Sum(s[..i]) == Sum(s[i..j])
  {
    assert s[..j] == s[..i] + s[i..j];
    SumAppend(s[..i], s[i..j]);
  }

  /** Every element bounded by `b` bounds the sum by |s|*b. */
  lemma {:induction false} SumBounds(s: seq<real>, lo: real, hi: real)
    requires forall i | 0 <= i < |s| :: lo <= s[i] <= hi
    ensures |s| as real * lo <= Sum(s) <= |s| as real * hi
  {
    if |s| > 0 {
      SumBounds(s[1..], lo, hi);
    }
  }

  lemma {:induction false} SumNonNegative(s: seq<real>)
    requires forall i | 0 <= i < |s| :: 0.0 <= s[i]
    ensures 0.0 <= Sum(s)
  {
    if |s| > 0 {
      SumNonNegative(s[1..]);
    }
  }

  /** Mean as cv::mean computes it over a region: 0 for an empty region. */
  function Mean(s: seq<real>): real {
    if |s| == 0 then 0.0 else Sum(s) / |s| as real
  }

  lemma MeanBounds(s: seq<real>, lo: real, hi: real)
    requires |s| > 0
    requires forall i | 0 <= i < |s| :: lo <= s[i] <= hi
    ensures lo <= Mean(s) <= hi
  {
    SumBounds(s, lo, hi);
  }

  /** Running minimum: the least of `init` and every element of `s`. */
  function MinFrom(init: real, s: seq<real>): real
    decreases |s|
  {
    if |s| == 0 then init else MinFrom(RMin(init, s[0]), s[1..])
  }

  lemma {:induction false} MinFromBounds(init: real, s: seq<real>)
    ensures MinFrom(init, s) <= init
    ensures forall i | 0 <= i < |s| :: MinFrom(init, s) <= s[i]
    ensures MinFrom(init, s) == init || exists i | 0 <= i < |s| :: MinFrom(init, s) == s[i]
    decreases |s|
  {
    if |s| > 0 {
      MinFromBounds(RMin(init, s[0]), s[1..]);
      var m := MinFrom(init, s);
      forall i | 1 <= i < |s| ensures m <= s[i] {
        assert s[i] == s[1..][i - 1];
      }
      if m != init && m != RMin(init, s[0]) {
        var k :| 0 <= k < |s[1..]| && m == s[1..][k];
        assert m == s[k + 1];
      }
    }
  }

  /** Running maximum: the greatest of `init` and every element of `s`. */
  function MaxFrom(init: real, s: seq<real>): real
    decreases |s|
  {
    if |s| == 0 then init else MaxFrom(RMax(init, s[0]), s[1..])
  }

  lemma {:induction false} MaxFromBounds(init: real, s: seq<real>)
    ensures init <= MaxFrom(init, s)
    ensures forall i | 0 <= i < |s| :: s[i] <= MaxFrom(init, s)
    ensures MaxFrom(init, s) == init || exists i | 0 <= i < |s| :: MaxFrom(init, s) == s[i]
    decreases |s|
  {
    if |s| > 0 {
      MaxFromBounds(RMax(init, s[0]), s[1..]);
      var m := MaxFrom(init, s);
      forall i | 1 <= i < |s| ensures s[i] <= m {
        assert s[i] == s[1..][i - 1];
      }
      if m != init && m != RMax(init, s[0]) {
        var k :| 0 <= k < |s[1..]| && m == s[1..][k];
        assert m == s[k + 1];
      }
    }
  }

  lemma {:induction false} MinFromSnoc(init: real, s: seq<real>, x: real)
    ensures MinFrom(init, s + [x]) == RMin(MinFrom(init, s), x)
    decreases |s|
  {
    if |s| == 0 {
      assert (s + [x])[1..] == [];
    } else {
      assert (s + [x])[1..] == s[1..] + [x];
      MinFromSnoc(RMin(init, s[0]), s[1..], x);
    }
  }
}

module Raster {

  /** A single-channel float image: a sequence of rows. */
  type Image = seq<seq<real>>

  function Cols<T>(im: seq<seq<T>>): nat {
    if |im| == 0 then 0 else |im[0]|
  }

  /** Every row has the same number of columns, as in a cv::Mat. */
  predicate Rectangular<T>(im: seq<seq<T>>) {
    forall y | 0 <= y < |im| :: |im[y]| == Cols(im)
  }

  /** Same number of rows and columns. */
  predicate SameShape<T, U>(a: seq<seq<T>>, b: seq<seq<U>>) {
    Rectangular(a) && Rectangular(b) && |a| == |b| && Cols(a) == Cols(b)
  }

  /** The pixels of columns [lo, hi) of every row, row by row
      (image.colRange(lo, hi) flattened). */
  function Band(im: Image, lo: nat, hi: nat): (r: seq<real>)
    requires Rectangular(im) && lo <= hi <= Cols(im)
    ensures |r| == |im| * (hi - lo)
  {
    if |im| == 0 then []
    else
      assert Rectangular(im[1..]) && (|im| > 1 ==> Cols(im[1..]) == Cols(im)) by {
        forall y | 0 <= y < |im[1..]| ensures |im[1..][y]| == Cols(im) {
          assert im[1..][y] == im[y + 1];
        }
      }
      var rest := if |im| == 1 then [] else Band(im[1..], lo, hi);
      im[0][lo..hi] + rest
  }
}

=== FILE: reports.dfy ===
/** Reading a study's slice report back (adsb2.cpp:1516-1524, 1570-1592):
    the study id is parsed out of a slice path, and the reports of one file
    are bucketed by their short-axis series id. A report is reduced to the
    three ids the bucketing reads plus an opaque payload. */
module Reports {
  import opened Checks

  /** int's range on the targets the program is built for. */
  const IntMin: int := -0x8000_0000
  const IntMax: int := 0x7fff_ffff

  function DigitValue(c: char): int
    requires '0' <= c <= '9'
  {
    c as int - '0' as int
  }

  predicate AllDigits(s: string) {
    forall i | 0 <= i < |s| :: '0' <= s[i] <= '9'
  }

  /** The value of a string of decimal digits. */
  function DigitsValue(s: string): (v: nat)
    requires AllDigits(s)
    decreases |s|
  {
    if |s| == 0 then 0
    else DigitsValue(s[..|s| - 1]) * 10 + DigitValue(s[|s| - 1])
  }

  /** lexical_cast<int>: an optional sign and at least one digit, the whole
      string, with a value that fits an int; anything else throws
      bad_lexical_cast, modelled as an abort. */
  function ParseInt(s: string): (r: Checked<int>)
    ensures r.Ok? ==> IntMin <= r.value <= IntMax
  {
    var neg := |s| > 0 && s[0] == '-';
    var digits := if |s| > 0 && (s[0] == '-' || s[0] == '+') then s[1..] else s;
    if |digits| == 0 || !AllDigits(digits) then Abort("bad_lexical_cast")
    else
      var v: int := if neg then -(DigitsValue(digits) as int) else DigitsValue(digits);
      if v < IntMin || v > IntMax then Abort("bad_lexical_cast") else Ok(v)
  }

  /** Decimal digits of a natural number, without leading zeros. */
  function ShowNat(n: nat): (s: string)
    ensures |s| > 0 && AllDigits(s)
    ensures s[0] != '0' || n == 0
  {
    if n < 10 then [('0' as int + n) as char]
    else ShowNat(n / 10) + [('0' as int + n % 10) as char]
  }

  /** What an id looks like when it is written into a path. */
  function ShowInt(n: int): string {
    if n < 0 then "-" + ShowNat(-n) else ShowNat(n)
  }

  lemma {:induction false} DigitsOfShowNat(n: nat)
    ensures DigitsValue(ShowNat(n)) == n
    decreases n
  {
    if n >= 10 {
      DigitsOfShowNat(n / 10);
      var s := ShowNat(n);
      assert s[..|s| - 1] == ShowNat(n / 10);
    }
  }

  /** Every int is read back from its decimal text. */
  lemma ParseShowInt(n: int)
    requires IntMin <= n <= IntMax
    ensures ParseInt(ShowInt(n)) == Ok(n)
  {
    if n < 0 {
      var d := ShowNat(-n);
      var s := ShowInt(n);
      assert s == "-" + d;
      assert s[1..] == d;
      assert DigitsValue(d) == -n by {
        DigitsOfShowNat(-n);
      }
      ParseNegative(s);
    } else {
      var d := ShowNat(n);
      assert ShowInt(n) == d;
      assert DigitsValue(d) == n by {
        DigitsOfShowNat(n);
      }
      ParsePositive(d);
    }
  }

  /** Digits alone read as their value. */
  lemma ParsePositive(d: string)
    requires |d| > 0 && AllDigits(d) && DigitsValue(d) <= IntMax
    ensures ParseInt(d) == Ok(DigitsValue(d))
  {
    assert '0' <= d[0] <= '9';
  }

  /** A minus sign and digits read as the negated value. */
  lemma ParseNegative(s: string)
    requires |s| > 1 && s[0] == '-' && AllDigits(s[1..]) && IntMin <= -(DigitsValue(s[1..]) as int)
    ensures ParseInt(s) == Ok(-(DigitsValue(s[1..]) as int))
  {
  }

  /** Index of the first component equal to w, or |p| if none. */
  function IndexOf(p: seq<string>, w: string): (i: nat)
    ensures i <= |p|
    ensures i < |p| ==> p[i] == w
    ensures forall j | 0 <= j < i :: p[j] != w
  {
    if |p| == 0 then 0
    else if p[0] == w then 0
    else 1 + IndexOf(p[1..], w)
  }

  /** path_to_study_id over the components of a path: the component just
      before the first "study" component (the last component if there is
      none), parsed as an int. With "study" first, `last` stays the empty
      path and the cast throws. */
  function StudyIdOf(p: seq<string>): (r: Checked<int>)
    ensures IndexOf(p, "study") == 0 ==> r.Abort?
    ensures IndexOf(p, "study") > 0 ==> r == ParseInt(p[IndexOf(p, "study") - 1])
  {
    var i := IndexOf(p, "study");
    if i == 0 then ParseInt("") else ParseInt(p[i - 1])
  }

  /** A path .../<id>/study/... yields the id, whatever surrounds it, as long
      as no earlier component is "study". */
  lemma StudyIdOfPath(prefix: seq<string>, id: int, suffix: seq<string>)
    requires IntMin <= id <= IntMax && "study" !in prefix
    ensures StudyIdOf(prefix + [ShowInt(id), "study"] + suffix) == Ok(id)
  {
    var p := prefix + [ShowInt(id), "study"] + suffix;
    assert ShowInt(id) != "study" by {
      if id < 0 { assert ShowInt(id)[0] == '-'; } else { assert '0' <= ShowInt(id)[0] <= '9'; }
    }
    assert p[|prefix| + 1] == "study";
    assert forall j | 0 <= j < |prefix| + 1 :: p[j] != "study" by {
      forall j | 0 <= j < |prefix| + 1 ensures p[j] != "study" {
        if j < |prefix| { assert p[j] == prefix[j]; }
      }
    }
    IndexOfFirst(p, "study", |prefix| + 1);
    ParseShowInt(id);
  }

  lemma IndexOfFirst(p: seq<string>, w: string, k: nat)
    requires k < |p| && p[k] == w && forall j | 0 <= j < k :: p[j] != w
    ensures IndexOf(p, w) == k
  {
  }

  /** The fields of a SliceReport the bucketing reads. */
  datatype SliceReport = SliceReport(studyId: int, saxId: int, sliceId: int, line: string)

  /** The reports of one file with the given sax id, in file order. */
  function WithSax(all: seq<SliceReport>, b: int): (r: seq<SliceReport>)
    ensures |r| <= |all|
    ensures forall k | 0 <= k < |r| :: r[k].saxId == b && r[k] in all
    decreases |all|
  {
    if |all| == 0 then []
    else
      var front := WithSax(all[..|all| - 1], b);
      if all[|all| - 1].saxId == b then front + [all[|all| - 1]] else front
  }

  /** max_sax: the largest sax id, but at least 0. */
  function MaxSax(all: seq<SliceReport>): (m: int)
    ensures m >= 0 && forall k | 0 <= k < |all| :: all[k].saxId <= m
    ensures m == 0 || exists k | 0 <= k < |all| :: all[k].saxId == m
    decreases |all|
  {
    if |all| == 0 then 0
    else
      var m := MaxSax(all[..|all| - 1]);
      var s := all[|all| - 1].saxId;
      assert forall k | 0 <= k < |all| - 1 :: all[..|all| - 1][k] == all[k];
      if s > m then s else m
  }

  predicate OneStudy(all: seq<SliceReport>) {
    forall k | 0 < k < |all| :: all[k].studyId == all[k - 1].studyId
  }

  predicate SaxNonNegative(all: seq<SliceReport>) {
    forall k | 0 <= k < |all| :: all[k].saxId >= 0
  }

  /** StudyReport(path). `all` is None when the file cannot be opened, and
      otherwise the parsed lines in file order. A report of another study
      fails the CHECK; a negative sax id makes `at` throw. */
  method Bucket(all: Option<seq<SliceReport>>) returns (r: Checked<seq<seq<SliceReport>>>)
    ensures all.None? ==> r == Ok([])
    ensures all.Some? ==> (r.Ok? <==> OneStudy(all.value) && SaxNonNegative(all.value))
    ensures all.Some? && r.Ok? ==> |r.value| == MaxSax(all.value) + 1
    ensures all.Some? && r.Ok? ==> forall b | 0 <= b < |r.value| :: r.value[b] == WithSax(all.value, b)
  {
    if all.None? {
      return Ok([]);
    }
    var reports := all.value;
    if !OneStudy(reports) {
      return Abort("study id mismatch");
    }
    var n := MaxSax(reports) + 1;
    var buckets: seq<seq<SliceReport>> := seq(n, b => []);
    var i := 0;
    while i < |reports|
      invariant 0 <= i <= |reports| && |buckets| == n
      invariant SaxNonNegative(reports[..i])
      invariant forall b | 0 <= b < n :: buckets[b] == WithSax(reports[..i], b)
    {
      var s := reports[i].saxId;
      if s < 0 {
        assert !SaxNonNegative(reports);
        return Abort("vector::at out of range");
      }
      assert reports[..i + 1][..i] == reports[..i];
      buckets := buckets[s := buckets[s] + [reports[i]]];
      i := i + 1;
    }
    assert reports[..i] == reports;
    return Ok(buckets);
  }

  /** The buckets hold every report exactly once: their sizes add up to the
      number of reports. */
  lemma {:induction false} BucketsCoverAll(all: seq<SliceReport>, n: nat)
    requires forall k | 0 <= k < |all| :: 0 <= all[k].saxId < n
    ensures SizesFrom(all, 0, n) == |all|
    decreases |all|
  {
    if |all| > 0 {
      var front := all[..|all| - 1];
      var x := all[|all| - 1];
      assert all == front + [x];
      assert SizesFrom(front, 0, n) == |front| by {
        assert forall k | 0 <= k < |front| :: front[k] == all[k];
        BucketsCoverAll(front, n);
      }
      assert SizesFrom(front + [x], 0, n) == SizesFrom(front, 0, n) + 1 by {
        assert 0 <= x.saxId < n;
        SizesSnoc(front, x, 0, n);
      }
    } else {
      SizesOfNone(0, n);
    }
  }

  /** The total size of the buckets lo..hi-1. */
  function SizesFrom(all: seq<SliceReport>, lo: nat, hi: nat): nat
    decreases hi - lo
  {
    if lo >= hi then 0 else |WithSax(all, lo)| + SizesFrom(all, lo + 1, hi)
  }

  /** One more report adds one to the bucket it names, if that bucket is
      among lo..hi-1. */
  lemma {:induction false} SizesSnoc(all: seq<SliceReport>, x: SliceReport, lo: nat, hi: nat)
    ensures SizesFrom(all + [x], lo, hi) == SizesFrom(all, lo, hi) + (if lo <= x.saxId < hi then 1 else 0)
    decreases hi - lo
  {
    if lo < hi {
      assert (all + [x])[..|all|] == all;
      SizesSnoc(all, x, lo + 1, hi);
    }
  }

  lemma {:induction false} SizesOfNone(lo: nat, hi: nat)
    ensures SizesFrom([], lo, hi) == 0
    decreases hi - lo
  {
    if lo < hi {
      SizesOfNone(lo + 1, hi);
    }
  }
}

=== FILE: rowgain.dfy ===
/** The per-row gain scan of WorkSpace::run (adsb2-ca1.cpp:69-85 and 89-104):
    every candidate column's pixel is compared with the row threshold, a loss
    is discounted by `nd`, the `mono` option holds the gain at or below every
    earlier gain of the row, and the gains less the step cost are accumulated
    from the first column of the row's range. */
module RowGain {
  import opened Numeric

  /** Signed gain of one pixel: `v - th`, multiplied by `nd` only when negative. */
  function Delta(v: real, th: real, nd: real): real {
    if v - th < 0.0 then (v - th) * nd else v - th
  }

  /** The accumulated score after each column, as the source's loop computes
      it: `last` is `last_delta` and `acc` the running sum before the first
      column. With `mono`, a gain above `last_delta` is replaced by it, and a
      gain not above it becomes the new `last_delta`. */
  function Scan(raw: seq<real>, mono: bool, scost: real, last: real, acc: real): (r: seq<real>)
    ensures |r| == |raw|
    decreases |raw|
  {
    if |raw| == 0 then []
    else
      var d := if mono && raw[0] > last then last else raw[0];
      var last' := if mono && !(raw[0] > last) then raw[0] else last;
      var acc' := acc + (d - scost);
      [acc'] + Scan(raw[1..], mono, scost, last', acc')
  }

  /** Reference definition of the gain used at each column: the raw gain, or,
      with `mono`, the running minimum of `last` and the raw gains so far. */
  function UsedGains(raw: seq<real>, mono: bool, last: real): (r: seq<real>)
    ensures |r| == |raw|
  {
    seq(|raw|, i requires 0 <= i < |raw| => if mono then MinFrom(last, raw[..i + 1]) else raw[i])
  }

  /** Dropping the first column of the scan leaves the gains of the rest,
      started from the updated `last_delta`. */
  lemma UsedGainsTail(raw: seq<real>, mono: bool, last: real)
    requires |raw| > 0
    ensures UsedGains(raw, mono, last)[0] == (if mono && raw[0] > last then last else raw[0])
    ensures UsedGains(raw, mono, last)[1..]
         == UsedGains(raw[1..], mono, if mono && !(raw[0] > last) then raw[0] else last)
  {
    var last' := if mono && !(raw[0] > last) then raw[0] else last;
    var a := UsedGains(raw, mono, last)[1..];
    var b := UsedGains(raw[1..], mono, last');
    if mono {
      assert raw[..1] == [raw[0]];
      assert MinFrom(last, raw[..1]) == MinFrom(RMin(last, raw[0]), raw[..1][1..]);
      assert raw[..1][1..] == [];
    }
    forall i | 0 <= i < |a| ensures a[i] == b[i] {
      if mono {
        assert raw[..i + 2][1..] == raw[1..][..i + 1];
        assert RMin(last, raw[..i + 2][0]) == last';
      }
    }
  }

  /** Each column's gain less the step cost: what the scan adds per column. */
  function Net(g: seq<real>, scost: real): (r: seq<real>)
    ensures |r| == |g| && forall k | 0 <= k < |g| :: r[k] == g[k] - scost
  {
    seq(|g|, k requires 0 <= k < |g| => g[k] - scost)
  }

  /** The scan's accumulator after column i is the starting sum plus, for
      each of the columns 0..i, its used gain less the step cost. */
  lemma {:induction false} ScanIsPrefixSum(raw: seq<real>, mono: bool, scost: real, last: real, acc: real, i: nat)
    requires i < |raw|
    ensures Scan(raw, mono, scost, last, acc)[i] == acc + Sum(Net(UsedGains(raw, mono, last), scost)[..i + 1])
    decreases |raw|
  {
    var g := UsedGains(raw, mono, last);
    var d := if mono && raw[0] > last then last else raw[0];
    var last' := if mono && !(raw[0] > last) then raw[0] else last;
    var acc' := acc + (d - scost);
    var s := Scan(raw, mono, scost, last, acc);
    UsedGainsTail(raw, mono, last);
    ScanUnfold(raw, mono, scost, last, acc);
    var n := Net(g, scost);
    var n' := Net(UsedGains(raw[1..], mono, last'), scost);
    assert n[1..] == n';
    SumCons(n, i);
    if i > 0 {
      ScanIsPrefixSum(raw[1..], mono, scost, last', acc', i - 1);
      assert s[i] == Scan(raw[1..], mono, scost, last', acc')[i - 1];
    } else {
      assert n[1..][..0] == [];
    }
  }

  lemma ScanUnfold(raw: seq<real>, mono: bool, scost: real, last: real, acc: real)
    requires |raw| > 0
    ensures var d := if mono && raw[0] > last then last else raw[0];
            var last' := if mono && !(raw[0] > last) then raw[0] else last;
            var acc' := acc + (d - scost);
            Scan(raw, mono, scost, last, acc)[0] == acc'
            && Scan(raw, mono, scost, last, acc)[1..] == Scan(raw[1..], mono, scost, last', acc')
  {
  }

  lemma SumCons(g: seq<real>, i: nat)
    requires i < |g|
    ensures Sum(g[..i + 1]) == g[0] + Sum(g[1..][..i])
  {
    assert g[..i + 1] == [g[0]] + g[1..][..i];
    SumAppend([g[0]], g[1..][..i]);
  }

  /** With `mono` the used gains never increase from left to right, never
      exceed `last` and never exceed the raw gain of their column; without it
      they are the raw gains. */
  lemma UsedGainsShape(raw: seq<real>, mono: bool, last: real)
    ensures mono ==> forall i, j | 0 <= i <= j < |raw| ::
      UsedGains(raw, mono, last)[j] <= UsedGains(raw, mono, last)[i]
    ensures mono ==> forall i | 0 <= i < |raw| ::
      UsedGains(raw, mono, last)[i] <= last && UsedGains(raw, mono, last)[i] <= raw[i]
    ensures !mono ==> UsedGains(raw, mono, last) == raw
  {
    var g := UsedGains(raw, mono, last);
    if mono {
      forall i | 0 <= i < |raw| ensures g[i] <= last && g[i] <= raw[i] {
        MinFromBounds(last, raw[..i + 1]);
        assert raw[..i + 1][i] == raw[i];
      }
      forall i, j | 0 <= i <= j < |raw| ensures g[j] <= g[i] {
        MinFromMonotone(last, raw, i, j);
      }
    }
  }

  /** A longer prefix has a running minimum no larger. */
  lemma {:induction false} MinFromMonotone(init: real, s: seq<real>, i: nat, j: nat)
    requires i <= j < |s|
    ensures MinFrom(init, s[..j + 1]) <= MinFrom(init, s[..i + 1])
    decreases j - i
  {
    if i < j {
      MinFromMonotone(init, s, i, j - 1);
      assert s[..j + 1] == s[..j] + [s[j]];
      MinFromSnoc(init, s[..j], s[j]);
    }
  }
}

=== FILE: rows.dfy ===
/** Wrap-around row padding of a polar image, virtical_extend and
    virtical_unextend (adsb2.cpp:1405-1418): the angle axis of a polar image
    is circular, so padding copies the last r rows above and the first r rows
    below. An image is a sequence of rows of any pixel type. */
module RowPadding {
  import opened Checks

  /** virtical_extend(in, r): the last r rows, the image, the first r rows.
      r is unsigned, so r > rows makes `rows - r` wrap and rowRange assert. */
  function Extend<T>(rows: seq<T>, r: nat): (e: Checked<seq<T>>)
    ensures e.Ok? <==> r <= |rows|
    ensures e.Ok? ==> |e.value| == |rows| + 2 * r
  {
    if r == 0 then Ok(rows)
    else if r > |rows| then Abort("rowRange outside the image")
    else Ok(rows[|rows| - r..] + rows + rows[..r])
  }

  /** virtical_unextend(in, r): drop r rows from each end; rowRange asserts
      when that leaves a negative count or r is negative. */
  function Unextend<T>(rows: seq<T>, r: int): (u: Checked<seq<T>>)
    ensures u.Ok? <==> r == 0 || 0 <= r <= |rows| - r
    ensures u.Ok? ==> |u.value| == |rows| - 2 * r
  {
    if r == 0 then Ok(rows)
    else if !(0 <= r <= |rows| - r) then Abort("rowRange outside the image")
    else Ok(rows[r..|rows| - r])
  }

  /** Row k of the padded image is row k - r of the original, read
      circularly. */
  lemma ExtendIsCircular<T>(rows: seq<T>, r: nat, k: nat)
    requires r <= |rows| && k < |rows| + 2 * r
    ensures Extend(rows, r).value[k] == rows[(k - r) % |rows|]
  {
    var n := |rows|;
    if r > 0 {
      var e := rows[n - r..] + rows + rows[..r];
      if k < r {
        assert e[k] == rows[n - r + k];
        ModBelow(k - r, n);
      } else if k < r + n {
        assert e[k] == rows[k - r];
        ModWithin(k - r, n);
      } else {
        assert e[k] == rows[k - r - n];
        ModAbove(k - r, n);
      }
    }
  }

  /** Removing the padding restores the image. */
  lemma UnextendExtend<T>(rows: seq<T>, r: nat)
    requires r <= |rows|
    ensures Unextend(Extend(rows, r).value, r) == Ok(rows)
  {
    if r > 0 {
      var e := Extend(rows, r).value;
      assert e[r..|e| - r] == rows;
    }
  }

  lemma ModBelow(a: int, n: int)
    requires n > 0 && -n <= a < 0
    ensures a % n == a + n
  {
  }

  lemma ModWithin(a: int, n: int)
    requires n > 0 && 0 <= a < n
    ensures a % n == a
  {
  }

  lemma ModAbove(a: int, n: int)
    requires n > 0 && n <= a < 2 * n
    ensures a % n == a - n
  {
  }
}

=== FILE: shift.dfy ===
/** CA1::find_shift (adsb2-ca1.cpp:302-372): the band finder. For every offset
    i in [-L1, L2] from the pass-1 contour it averages the image along the
    shifted contour, picks the brightest-to-darkest transition (P1), then the
    darkest offset at or after it (P2), extends P2 over the following offsets
    whose spread stays within `extra_th` of the least, and reports the band
    width P2 + 1 - L1 + extra_delta. */
module BandShift {
  import opened Checks
  import opened Numeric
  import opened Raster
  import opened ContourWindow

  /** The configuration find_shift reads. */
  datatype ShiftConfig = ShiftConfig(l1: int, l2: int, w: int, extraTh: real, extraDelta: int,
                                     wpct: real, bpct: real)

  /** `bound` (the band width) and `xx` (the transition offset). */
  datatype Shift = Shift(bound: int, xx: int)

  /** grad[i] = wavg[i-W] - bavg[i+W] for the i the loop visits (W <= i and
      i+W < n), zero elsewhere. With a negative W the loop condition
      `i + W < grad.size()` compares a negative int against a size_t and
      the loop does not run. */
  function Grad(wavg: seq<real>, bavg: seq<real>, w: int): (g: seq<real>)
    requires |wavg| == |bavg|
    ensures |g| == |wavg|
  {
    seq(|wavg|, i requires 0 <= i < |wavg| =>
      if 0 <= w <= i && i + w < |wavg| then wavg[i - w] - bavg[i + w] else 0.0)
  }

  /** The P1 loop from index i: an entry replaces the choice only if strictly
      greater than the chosen entry. */
  function PeakFrom(g: seq<real>, i: int, hi: int, best: nat): (r: nat)
    requires best < |g| && hi <= |g|
    ensures r < |g| && (r == best || (i <= r < hi && 0 <= r))
    decreases hi - i
  {
    if i >= hi || i < 0 then best
    else PeakFrom(g, i + 1, hi, if g[i] > g[best] then i else best)
  }

  /** P1: the loop runs over [W, n-W) from P1 = 0. */
  function Peak(g: seq<real>, w: int): (r: nat)
    requires |g| > 0
    ensures r < |g|
  {
    if w < 0 then 0 else PeakFrom(g, w, |g| - w, 0)
  }

  /** The first index of a greatest entry of g. */
  predicate IsFirstMax(g: seq<real>, p: nat) {
    && p < |g|
    && (forall j | 0 <= j < |g| :: g[j] <= g[p])
    && (forall j | 0 <= j < p :: g[j] < g[p])
  }

  /** The first index of a least entry of s among [lo, |s|). */
  predicate IsFirstMinFrom(s: seq<real>, lo: nat, p: nat) {
    && lo <= p < |s|
    && (forall j | lo <= j < |s| :: s[p] <= s[j])
    && (forall j | lo <= j < p :: s[p] < s[j])
  }

  /** The P2 search loop from index i: strictly smaller entries replace the
      choice. */
  function DeepestFrom(s: seq<real>, i: nat, best: nat): (r: nat)
    requires best < |s|
    ensures r < |s| && (r == best || i <= r)
    decreases |s| - i
  {
    if i >= |s| then best
    else DeepestFrom(s, i + 1, if s[i] < s[best] then i else best)
  }

  /** The extension loop: advance while the next entry stays within `limit`. */
  function Extend(s: seq<real>, p: nat, limit: real): (r: nat)
    requires p < |s|
    ensures p <= r < |s|
    ensures forall j | p < j <= r :: s[j] <= limit
    ensures r + 1 == |s| || s[r + 1] > limit
    decreases |s| - p
  {
    if p + 1 < |s| && !(s[p + 1] > limit) then Extend(s, p + 1, limit) else p
  }

  /** The band offsets after P1 has been chosen: P2 and its extension. */
  function Band2(sigma: seq<real>, p1: nat, l1: int, extraTh: real): (r: nat)
    requires p1 < |sigma| && l1 < |sigma|
    ensures Max(p1, l1) <= r < |sigma|
  {
    var start := Max(p1, l1);
    var p2 := DeepestFrom(sigma, start, start);
    Extend(sigma, p2, sigma[p2] + extraTh)
  }

  /** Whether the margins give find_shift a band it can index. L1 and L2
      are ints read from the configuration: with L1 + L2 + 1 negative the
      vectors cannot be allocated, with it zero `sigma[P2]` reads an empty
      vector, and with L2 negative P2 starts at L1, past the end of sigma. A
      negative L1 alone is harmless. */
  predicate MarginsFit(c: ShiftConfig) {
    c.l2 >= 0 && c.l1 + c.l2 >= 0
  }

  /** find_shift. `root` is std::sqrt. The averages abort exactly when
      contour_avg does, which does not depend on the offset. */
  function FindShift(image: Image, ctr: seq<int>, c: ShiftConfig, root: real -> real): (r: Checked<Shift>)
    requires Rectangular(image)
    ensures r.Ok? <==> MarginsFit(c) && AvgDefined(image, ctr, c.wpct) && AvgDefined(image, ctr, c.bpct)
    ensures r.Ok? ==> 1 + c.extraDelta <= r.value.bound <= c.l2 + 1 + c.extraDelta
  {
    if !MarginsFit(c) then Abort("sigma[P2] outside the band")
    else if !AvgDefined(image, ctr, c.wpct) then Abort("contour_avg aborts")
    else if !AvgDefined(image, ctr, c.bpct) then Abort("contour_avg aborts")
    else
      var n := c.l1 + c.l2 + 1;
      var wavg := seq(n, k requires 0 <= k < n => ContourAvg(image, ctr, k - c.l1, c.wpct, -1, root).value.mean);
      var bavg := seq(n, k requires 0 <= k < n => ContourAvg(image, ctr, k - c.l1, c.bpct, 1, root).value.mean);
      var sigma := seq(n, k requires 0 <= k < n => ContourAvg(image, ctr, k - c.l1, c.bpct, 1, root).value.sigma);
      var p1 := Peak(Grad(wavg, bavg, c.w), c.w);
      var p2 := Band2(sigma, p1, c.l1, c.extraTh);
      Ok(Shift(p2 + 1 - c.l1 + c.extraDelta, p1 + c.w - c.l1))
  }

  /** Loop invariant of the P1 loop over [lo, i): the choice is the first
      greatest of index 0 and of [lo, i). */
  predicate PeakInv(g: seq<real>, lo: nat, i: nat, best: nat)
    requires lo <= i <= |g| && |g| > 0
  {
    && (best == 0 || lo <= best < i)
    && g[0] <= g[best]
    && (forall j | lo <= j < i :: g[j] <= g[best])
    && (best > 0 ==> g[0] < g[best])
    && (forall j | lo <= j < best :: g[j] < g[best])
  }

  lemma {:induction false} PeakFromInvariant(g: seq<real>, lo: nat, i: nat, hi: nat, best: nat)
    requires lo <= i <= hi <= |g| && |g| > 0 && PeakInv(g, lo, i, best)
    ensures PeakInv(g, lo, hi, PeakFrom(g, i, hi, best))
    decreases hi - i
  {
    if i < hi {
      var next := if g[i] > g[best] then i else best;
      assert PeakInv(g, lo, i + 1, next);
      PeakFromInvariant(g, lo, i + 1, hi, next);
    }
  }

  /** P1 is the first index of the greatest gradient over the whole array:
      the entries the loop skips are zero, and so is grad[0] unless the loop
      visits it. */
  lemma PeakIsFirstMax(wavg: seq<real>, bavg: seq<real>, w: int)
    requires |wavg| == |bavg| > 0
    ensures IsFirstMax(Grad(wavg, bavg, w), Peak(Grad(wavg, bavg, w), w))
  {
    var g := Grad(wavg, bavg, w);
    var n := |g|;
    if w >= 0 {
      if w < n - w {
        PeakFromInvariant(g, w, w, n - w, 0);
      } else {
        assert PeakFrom(g, w, n - w, 0) == 0;
      }
      var p := Peak(g, w);
      if w == 0 {
        assert IsFirstMax(g, p);
      } else {
        assert g[0] == 0.0;
        forall j | 0 <= j < n ensures g[j] <= g[p] {
          if !(w <= j < n - w) { assert g[j] == 0.0; }
        }
        forall j | 0 <= j < p ensures g[j] < g[p] {
          if !(w <= j < n - w) { assert g[j] == 0.0; }
        }
      }
    } else {
      assert forall j | 0 <= j < n :: g[j] == 0.0;
    }
  }

  lemma {:induction false} DeepestInvariant(s: seq<real>, lo: nat, i: nat, best: nat)
    requires lo <= i <= |s| && lo <= best < |s| && best < i
    requires forall j | lo <= j < i :: s[best] <= s[j]
    requires forall j | lo <= j < best :: s[best] < s[j]
    ensures IsFirstMinFrom(s, lo, DeepestFrom(s, i, best))
    decreases |s| - i
  {
    if i < |s| {
      DeepestInvariant(s, lo, i + 1, if s[i] < s[best] then i else best);
    }
  }

  /** P2 before extension is the first least spread at or after max(P1, L1);
      the extension stops at the end or before the first spread above
      sigma[P2] + extra_th. */
  lemma Band2Shape(sigma: seq<real>, p1: nat, l1: int, extraTh: real)
    requires p1 < |sigma| && l1 < |sigma|
    ensures var start := Max(p1, l1);
            var p2 := DeepestFrom(sigma, start, start);
            var r := Band2(sigma, p1, l1, extraTh);
            && IsFirstMinFrom(sigma, start, p2)
            && p2 <= r
            && (forall j | p2 < j <= r :: sigma[j] <= sigma[p2] + extraTh)
            && (r + 1 == |sigma| || sigma[r + 1] > sigma[p2] + extraTh)
  {
    var start := Max(p1, l1);
    DeepestFrom1(sigma, start);
  }

  lemma DeepestFrom1(s: seq<real>, lo: nat)
    requires lo < |s|
    ensures IsFirstMinFrom(s, lo, DeepestFrom(s, lo, lo))
  {
    assert DeepestFrom(s, lo, lo) == DeepestFrom(s, lo + 1, lo);
    DeepestInvariant(s, lo, lo + 1, lo);
  }
}

=== FILE: sorting.dfy ===
/** Sorting as the programs use std::sort: only the result matters, a
    permutation of the input in order. It is modelled by insertion sort
    under a total preorder `le`, so equal elements may come out in any
    order the proofs do not depend on. */
module Sorting {
  /** `le` is total: any two elements are comparable. */
  ghost predicate Total<T(!new)>(le: (T, T) -> bool) {
    forall a, b :: le(a, b) || le(b, a)
  }

  ghost predicate Transitive<T(!new)>(le: (T, T) -> bool) {
    forall a, b, c :: le(a, b) && le(b, c) ==> le(a, c)
  }

  /** Every element is `le` every later one. */
  ghost predicate SortedBy<T>(s: seq<T>, le: (T, T) -> bool) {
    forall i, j | 0 <= i < j < |s| :: le(s[i], s[j])
  }

  /** Put x before the first element it is `le`. */
  function Insert<T>(x: T, s: seq<T>, le: (T, T) -> bool): (r: seq<T>)
    ensures multiset(r) == multiset(s) + multiset{x}
    ensures |r| == |s| + 1
  {
    if |s| == 0 then [x]
    else if le(x, s[0]) then [x] + s
    else
      assert s == [s[0]] + s[1..];
      [s[0]] + Insert(x, s[1..], le)
  }

  function Sort<T>(s: seq<T>, le: (T, T) -> bool): (r: seq<T>)
    ensures multiset(r) == multiset(s)
    ensures |r| == |s|
  {
    if |s| == 0 then []
    else
      assert s == [s[0]] + s[1..];
      Insert(s[0], Sort(s[1..], le), le)
  }

  /** b is `le` every element of s. */
  ghost predicate LowerBound<T>(b: T, s: seq<T>, le: (T, T) -> bool) {
    forall k | 0 <= k < |s| :: le(b, s[k])
  }

  lemma SortedCons<T>(h: T, t: seq<T>, le: (T, T) -> bool)
    ensures SortedBy([h] + t, le) <==> LowerBound(h, t, le) && SortedBy(t, le)
  {
    var s := [h] + t;
    if LowerBound(h, t, le) && SortedBy(t, le) {
      forall i, j | 0 <= i < j < |s| ensures le(s[i], s[j]) {
        if i > 0 { assert le(t[i - 1], t[j - 1]); } else { assert le(h, t[j - 1]); }
      }
    }
    if SortedBy(s, le) {
      forall k | 0 <= k < |t| ensures le(h, t[k]) { assert s[0] == h && s[k + 1] == t[k]; assert le(s[0], s[k + 1]); }
      forall i, j | 0 <= i < j < |t| ensures le(t[i], t[j]) { assert s[i + 1] == t[i] && s[j + 1] == t[j]; }
    }
  }

  lemma {:induction false} InsertLowerBound<T>(b: T, x: T, s: seq<T>, le: (T, T) -> bool)
    requires le(b, x) && LowerBound(b, s, le)
    ensures LowerBound(b, Insert(x, s, le), le)
    decreases |s|
  {
    if |s| > 0 && !le(x, s[0]) {
      InsertLowerBound(b, x, s[1..], le);
      var rt := Insert(x, s[1..], le);
      assert Insert(x, s, le) == [s[0]] + rt;
      forall k | 0 <= k < |rt| + 1 ensures le(b, ([s[0]] + rt)[k]) {
        if k > 0 { assert ([s[0]] + rt)[k] == rt[k - 1]; }
      }
    } else if |s| > 0 {
      forall k | 0 <= k < |s| + 1 ensures le(b, ([x] + s)[k]) {
        if k > 0 { assert ([x] + s)[k] == s[k - 1]; }
      }
    }
  }

  lemma {:induction false} InsertSorted<T(!new)>(x: T, s: seq<T>, le: (T, T) -> bool)
    requires Total(le) && Transitive(le) && SortedBy(s, le)
    ensures SortedBy(Insert(x, s, le), le)
    decreases |s|
  {
    if |s| == 0 {
    } else if le(x, s[0]) {
      assert s == [s[0]] + s[1..];
      SortedCons(s[0], s[1..], le);
      assert LowerBound(x, s, le) by {
        forall k | 0 <= k < |s| ensures le(x, s[k]) {
          if k > 0 { assert le(s[0], s[k]); }
        }
      }
      SortedCons(x, s, le);
    } else {
      assert s == [s[0]] + s[1..];
      SortedCons(s[0], s[1..], le);
      InsertSorted(x, s[1..], le);
      assert le(s[0], x);
      InsertLowerBound(s[0], x, s[1..], le);
      SortedCons(s[0], Insert(x, s[1..], le), le);
    }
  }

  /** The result is in order under any total preorder. */
  lemma {:induction false} SortSorted<T(!new)>(s: seq<T>, le: (T, T) -> bool)
    requires Total(le) && Transitive(le)
    ensures SortedBy(Sort(s, le), le)
    decreases |s|
  {
    if |s| > 0 {
      SortSorted(s[1..], le);
      InsertSorted(s[0], Sort(s[1..], le), le);
    }
  }

  /** Sorting commutes with a map f that preserves every comparison among
      the elements. */
  lemma {:induction false} InsertMap<T>(x: T, s: seq<T>, le: (T, T) -> bool, f: T -> T)
    requires forall y | y in s :: le(f(x), f(y)) == le(x, y)
    ensures Insert(f(x), Map(s, f), le) == Map(Insert(x, s, le), f)
    decreases |s|
  {
    if |s| > 0 {
      assert Map(s, f)[0] == f(s[0]);
      assert Map(s, f)[1..] == Map(s[1..], f);
      if !le(x, s[0]) {
        InsertMap(x, s[1..], le, f);
      }
    }
  }

  lemma {:induction false} SortMap<T>(s: seq<T>, le: (T, T) -> bool, f: T -> T)
    requires forall i, j | 0 <= i < |s| && 0 <= j < |s| :: le(f(s[i]), f(s[j])) == le(s[i], s[j])
    ensures Sort(Map(s, f), le) == Map(Sort(s, le), f)
    decreases |s|
  {
    if |s| > 0 {
      var tail := s[1..];
      assert Map(s, f)[0] == f(s[0]);
      assert Map(s, f)[1..] == Map(tail, f);
      SortMap(tail, le, f);
      var sorted := Sort(tail, le);
      forall y | y in sorted ensures le(f(s[0]), f(y)) == le(s[0], y) {
        assert y in multiset(tail);
        var m :| 0 <= m < |tail| && tail[m] == y;
        assert tail[m] == s[m + 1];
      }
      InsertMap(s[0], sorted, le, f);
    }
  }

  /** f applied to every element. */
  function Map<T>(s: seq<T>, f: T -> T): (r: seq<T>)
    ensures |r| == |s|
    ensures forall i | 0 <= i < |s| :: r[i] == f(s[i])
  {
    if |s| == 0 then [] else [f(s[0])] + Map(s[1..], f)
  }
}

=== FILE: study.dfy ===
/** Two repairs Study applies to its series (adsb2.cpp:864-889, 913-989):
    detecting a study whose slice locations have the wrong sign, and
    dropping series that repeat a slice location. A study is a sequence of
    series, a series a non-empty sequence of slices, and a slice is reduced
    to the two metadata fields these repairs read. */
module StudyRepair {
  import opened Checks
  import opened Numeric
  import opened Sorting

  /** Meta::SERIES_NUMBER and Meta::slice_location, both floats. */
  datatype Meta = Meta(seriesNumber: real, location: real)

  /** A series holds at least one slice. */
  type Series = s: seq<Meta> | |s| > 0 witness [Meta(0.0, 0.0)]
  type Study = seq<Series>

  /** The std::pair<int, float> ranked per series: the series number
      truncated to int, and the location. */
  datatype Rank = Rank(series: int, location: real)

  /** std::pair's operator<, as the "not greater" order std::sort uses. */
  function RankLe(a: Rank, b: Rank): bool {
    a.series < b.series || (a.series == b.series && a.location <= b.location)
  }

  lemma RankLeIsPreorder()
    ensures Total(RankLe) && Transitive(RankLe)
  {
  }

  function Ranks(study: Study): (r: seq<Rank>)
    ensures |r| == |study|
    ensures forall i | 0 <= i < |study| :: r[i] == Rank(Trunc(study[i][0].seriesNumber), study[i][0].location)
  {
    seq(|study|, i requires 0 <= i < |study| => Rank(Trunc(study[i][0].seriesNumber), study[i][0].location))
  }

  /** Adjacent pairs whose location rises (`good`) and falls (`bad`). */
  function Rises(r: seq<Rank>): nat
    decreases |r|
  {
    if |r| < 2 then 0
    else Rises(r[..|r| - 1]) + (if r[|r| - 1].location > r[|r| - 2].location then 1 else 0)
  }

  function Falls(r: seq<Rank>): nat
    decreases |r|
  {
    if |r| < 2 then 0
    else Falls(r[..|r| - 1]) + (if r[|r| - 1].location < r[|r| - 2].location then 1 else 0)
  }

  /** Each adjacent pair counts at most once. */
  lemma {:induction false} CountsBounded(r: seq<Rank>)
    requires |r| > 0
    ensures Rises(r) + Falls(r) <= |r| - 1
    decreases |r|
  {
    if |r| >= 2 {
      CountsBounded(r[..|r| - 1]);
    }
  }

  function Flip(s: Series): (f: Series)
    ensures |f| == |s|
    ensures forall j | 0 <= j < |s| :: f[j] == Meta(s[j].seriesNumber, -s[j].location)
  {
    seq(|s|, j requires 0 <= j < |s| => Meta(s[j].seriesNumber, -s[j].location))
  }

  datatype Topdown = Topdown(topdown: bool, study: Study)

  /** Study::detect_topdown: rank the series by (series number, location);
      the study is top-down when more adjacent ranks fall than rise, and with
      `fix` every slice location of a top-down study is negated. */
  function DetectTopdown(study: Study, fix: bool): (r: Topdown)
    ensures var sorted := Sort(Ranks(study), RankLe);
            r.topdown <==> Falls(sorted) > Rises(sorted)
    ensures |r.study| == |study|
    ensures forall i, j | 0 <= i < |study| && 0 <= j < |study[i]| ::
              && |r.study[i]| == |study[i]|
              && r.study[i][j].seriesNumber == study[i][j].seriesNumber
              && r.study[i][j].location == (if r.topdown && fix then -study[i][j].location else study[i][j].location)
  {
    var sorted := Sort(Ranks(study), RankLe);
    var topdown := Falls(sorted) > Rises(sorted);
    if topdown && fix then Topdown(true, seq(|study|, i requires 0 <= i < |study| => Flip(study[i])))
    else Topdown(topdown, study)
  }

  function Negate(a: Rank): Rank {
    Rank(a.series, -a.location)
  }

  /** Distinct series numbers decide every comparison, so negating the
      locations keeps the ranking in the same order. */
  predicate DistinctSeries(r: seq<Rank>) {
    forall i, j | 0 <= i < j < |r| :: r[i].series != r[j].series
  }

  lemma {:induction false} NegateSwapsCounts(r: seq<Rank>)
    ensures Rises(Map(r, Negate)) == Falls(r) && Falls(Map(r, Negate)) == Rises(r)
    decreases |r|
  {
    if |r| >= 2 {
      var m := Map(r, Negate);
      assert m[..|m| - 1] == Map(r[..|r| - 1], Negate);
      NegateSwapsCounts(r[..|r| - 1]);
    }
  }

  /** A study whose series numbers are distinct is never top-down once it
      has been fixed: negation turns every fall into a rise. */
  lemma FixedIsNotTopdown(study: Study)
    requires DistinctSeries(Ranks(study))
    requires DetectTopdown(study, true).topdown
    ensures !DetectTopdown(DetectTopdown(study, true).study, false).topdown
  {
    var ranks := Ranks(study);
    var fixed := DetectTopdown(study, true).study;
    assert Ranks(fixed) == Map(ranks, Negate);
    forall i, j | 0 <= i < |ranks| && 0 <= j < |ranks|
      ensures RankLe(Negate(ranks[i]), Negate(ranks[j])) == RankLe(ranks[i], ranks[j])
    {
      if i < j {
        assert ranks[i].series != ranks[j].series;
      } else if j < i {
        assert ranks[j].series != ranks[i].series;
      }
    }
    SortMap(ranks, RankLe, Negate);
    NegateSwapsCounts(Sort(ranks, RankLe));
  }

  /** LOCATION_GAP_EPSILON. */
  const Eps: real := 0.01

  function Loc(s: Series): real
    requires |s| > 0
  {
    s[0].location
  }

  /** Whether two series share a slice location. */
  predicate Near(a: Series, b: Series)
    requires |a| > 0 && |b| > 0
  {
    Abs(Loc(a) - Loc(b)) <= Eps
  }

  /** The series the compaction loop keeps of a prefix: a series sharing
      the location of the last kept one replaces it, any other is appended. */
  function Kept(a: Study): (k: Study)
    requires |a| > 0
    ensures 1 <= |k| <= |a|
    ensures k[|k| - 1] == a[|a| - 1]
    decreases |a|
  {
    if |a| == 1 then a
    else
      var k := Kept(a[..|a| - 1]);
      var c := a[|a| - 1];
      if Near(k[|k| - 1], c) then k[..|k| - 1] + [c] else k + [c]
  }

  /** One more series of the input: Kept of a prefix one longer. */
  lemma KeptStep(a: Study, i: nat)
    requires 0 < i < |a|
    ensures var k := Kept(a[..i]);
            Kept(a[..i + 1]) == if Near(k[|k| - 1], a[i]) then k[..|k| - 1] + [a[i]] else k + [a[i]]
  {
    assert a[..i + 1][..i] == a[..i];
  }

  /** The state of the compaction loop before index i: the first off
      entries are what has been kept of the first i series, and the series
      from i on are untouched. */
  predicate CompactInv(a: Study, s: Study, off: nat, i: nat) {
    && 1 <= off <= i <= |a| && |s| == |a|
    && s[..off] == Kept(a[..i])
    && s[i..] == a[i..]
  }

  /** The in-place replacement: the series at i takes the place of the last
      kept one. */
  lemma StepReplace(a: Study, s: Study, off: nat, i: nat)
    requires CompactInv(a, s, off, i) && i < |a| && Near(s[off - 1], s[i])
    ensures CompactInv(a, s[off - 1 := s[i]][i := s[off - 1]], off, i + 1)
  {
    var t := s[off - 1 := s[i]][i := s[off - 1]];
    var k := Kept(a[..i]);
    assert s[i] == a[i] by { assert s[i..][0] == a[i..][0]; }
    assert s[off - 1] == k[|k| - 1] by { assert s[off - 1] == s[..off][off - 1]; }
    assert Kept(a[..i + 1]) == k[..|k| - 1] + [a[i]] by { KeptStep(a, i); }
    assert t[..off] == k[..|k| - 1] + [a[i]] by {
      assert t[..off] == s[..off - 1] + [s[i]];
      assert s[..off - 1] == s[..off][..off - 1];
    }
    assert t[i + 1..] == a[i + 1..] by {
      assert t[i + 1..] == s[i + 1..] == s[i..][1..];
    }
  }

  /** The in-place append: the series at i moves to position off. */
  lemma StepAppend(a: Study, s: Study, off: nat, i: nat)
    requires CompactInv(a, s, off, i) && i < |a| && !Near(s[off - 1], s[i])
    ensures CompactInv(a, if off != i then s[off := s[i]][i := s[off]] else s, off + 1, i + 1)
  {
    var t := if off != i then s[off := s[i]][i := s[off]] else s;
    var k := Kept(a[..i]);
    assert s[i] == a[i] by { assert s[i..][0] == a[i..][0]; }
    assert s[off - 1] == k[|k| - 1] by { assert s[off - 1] == s[..off][off - 1]; }
    assert Kept(a[..i + 1]) == k + [a[i]] by { KeptStep(a, i); }
    assert t[..off + 1] == k + [a[i]] by {
      assert t[..off + 1] == s[..off] + [s[i]];
    }
    assert t[i + 1..] == a[i + 1..] by {
      assert t[i + 1..] == s[i + 1..] == s[i..][1..];
    }
  }

  /** The compaction loop of Study::sanity_check, swapping in place. The
      study must not be empty: sanity_check has already read its first
      series. */
  method Compact(a: Study) returns (r: Checked<Study>)
    ensures r.Ok? <==> |a| > 0
    ensures r.Ok? ==> r.value == Kept(a)
  {
    if |a| == 0 {
      return Abort("front() of an empty study");
    }
    var s := a;
    var off := 1;
    var i := 1;
    assert CompactInv(a, s, off, i);
    while i < |s|
      invariant CompactInv(a, s, off, i)
      decreases |a| - i
    {
      if Near(s[off - 1], s[i]) {
        StepReplace(a, s, off, i);
        s := s[off - 1 := s[i]][i := s[off - 1]];
      } else {
        StepAppend(a, s, off, i);
        if off != i {
          s := s[off := s[i]][i := s[off]];
        }
        off := off + 1;
      }
      i := i + 1;
    }
    assert a[..i] == a;
    return Ok(s[..off]);
  }

  /** Locations in order, as the sort before the loop leaves them. */
  predicate Ascending(a: Study)
  {
    forall i, j | 0 <= i < j < |a| :: Loc(a[i]) <= Loc(a[j])
  }

  /** The input positions of the kept series: position j survives when the
      next series lies elsewhere, and the last series always survives. */
  function KeptIndices(a: Study): (idx: seq<nat>)
    requires |a| > 0
    ensures |idx| > 0 && idx[|idx| - 1] == |a| - 1
    ensures forall m | 0 <= m < |idx| :: idx[m] < |a|
    ensures forall m | 0 < m < |idx| :: idx[m - 1] < idx[m]
    decreases |a|
  {
    if |a| == 1 then [0]
    else
      var n := |a| - 1;
      var ip := KeptIndices(a[..n]);
      if Near(a[n - 1], a[n]) then ip[..|ip| - 1] + [n] else ip + [n]
  }

  /** Consecutive series lie more than LOCATION_GAP_EPSILON apart. */
  predicate Spread(k: Study)
  {
    forall m | 0 < m < |k| :: Loc(k[m - 1]) + Eps < Loc(k[m])
  }

  /** In a sorted study, consecutive kept series lie more than
      LOCATION_GAP_EPSILON apart. */
  lemma {:induction false} KeptSpread(a: Study)
    requires |a| > 0 && Ascending(a)
    ensures Spread(Kept(a))
    decreases |a|
  {
    if |a| > 1 {
      var p := a[..|a| - 1];
      assert Ascending(p) by {
        forall i, j | 0 <= i < j < |p| ensures Loc(p[i]) <= Loc(p[j]) {
          assert p[i] == a[i] && p[j] == a[j];
        }
      }
      KeptSpread(p);
      var k := Kept(p);
      var c := a[|a| - 1];
      assert k[|k| - 1] == a[|a| - 2];
      assert Loc(a[|a| - 2]) <= Loc(c);
      if Near(k[|k| - 1], c) {
        if |k| > 1 {
          assert Loc(k[|k| - 2]) + Eps < Loc(k[|k| - 1]);
        }
      } else {
        assert Loc(k[|k| - 1]) + Eps < Loc(c);
      }
      var r := Kept(a);
      forall m | 0 < m < |r| ensures Loc(r[m - 1]) + Eps < Loc(r[m]) {
        if m < |r| - 1 {
          assert r[m - 1] == k[m - 1] && r[m] == k[m];
        }
      }
    }
  }

  /** Kept series m is input series KeptIndices(a)[m]: the compaction keeps
      a subsequence of the input, in input order, ending with its last
      series. */
  lemma {:induction false} KeptIsSubsequence(a: Study)
    requires |a| > 0
    ensures var idx := KeptIndices(a);
            |Kept(a)| == |idx| && forall m | 0 <= m < |idx| :: Kept(a)[m] == a[idx[m]]
    decreases |a|
  {
    if |a| > 1 {
      var n := |a| - 1;
      var p := a[..n];
      KeptIsSubsequence(p);
      var k := Kept(p);
      var ip := KeptIndices(p);
      var idx := KeptIndices(a);
      var r := Kept(a);
      assert k[|k| - 1] == a[n - 1];
      assert |r| == |idx|;
      forall m | 0 <= m < |idx| ensures r[m] == a[idx[m]] {
        if m < |idx| - 1 {
          assert r[m] == k[m] && idx[m] == ip[m];
          assert p[ip[m]] == a[ip[m]];
        }
      }
    }
  }
}

=== FILE: thresholds.dfy ===
/** The per-row thresholds of the two DP passes: CA1::get_dp1_th
    (adsb2-ca1.cpp:193-210) and CA1::get_dp2_th (adsb2-ca1.cpp:261-299).
    Both interpolate between a "small" (dark) level and the mean of the left
    margin columns ("big"). */
module Thresholds {
  import opened Checks
  import opened Numeric
  import opened Raster
  import opened ContourWindow

  /** cv::mean(image.colRange(lo, hi))[0]. colRange asserts that the columns
      exist; an empty range has mean 0. */
  function ColMean(im: Image, lo: int, hi: int): (r: Checked<real>)
    requires Rectangular(im)
    ensures r.Ok? <==> 0 <= lo <= hi <= Cols(im)
  {
    if 0 <= lo <= hi <= Cols(im) then Ok(Mean(Band(im, lo, hi)))
    else Abort("colRange outside the image")
  }

  /** The mean of a non-empty column band lies within any bounds on its pixels. */
  lemma ColMeanBounds(im: Image, lo: int, hi: int, a: real, b: real)
    requires Rectangular(im) && 0 <= lo < hi <= Cols(im) && |im| > 0
    requires forall y, x | 0 <= y < |im| && 0 <= x < Cols(im) :: a <= im[y][x] <= b
    ensures a <= ColMean(im, lo, hi).value <= b
  {
    BandBounds(im, lo, hi, a, b);
    MeanBounds(Band(im, lo, hi), a, b);
  }

  lemma {:induction false} BandBounds(im: Image, lo: nat, hi: nat, a: real, b: real)
    requires Rectangular(im) && lo <= hi <= Cols(im)
    requires forall y, x | 0 <= y < |im| && 0 <= x < Cols(im) :: a <= im[y][x] <= b
    ensures forall k | 0 <= k < |Band(im, lo, hi)| :: a <= Band(im, lo, hi)[k] <= b
  {
    if |im| > 1 {
      assert Rectangular(im[1..]) && Cols(im[1..]) == Cols(im) by {
        forall y | 0 <= y < |im[1..]| ensures |im[1..][y]| == Cols(im) {
          assert im[1..][y] == im[y + 1];
        }
      }
      forall y, x | 0 <= y < |im[1..]| && 0 <= x < Cols(im[1..]) ensures a <= im[1..][y][x] <= b {
        assert im[1..][y] == im[y + 1];
      }
      BandBounds(im[1..], lo, hi, a, b);
    }
  }

  /** Interpolation between the dark level `small` and the bright level `big`. */
  function Blend(small: real, big: real, t: real): real {
    small + (big - small) * t
  }

  /** A blend with weight in [0, 1] lies between its two levels. */
  lemma BlendBetween(small: real, big: real, t: real)
    requires small <= big && 0.0 <= t <= 1.0
    ensures small <= Blend(small, big, t) <= big
  {
    var d := big - small;
    MulNonNegative(d, t);
    MulNonNegative(d, 1.0 - t);
    assert d * (1.0 - t) == d - d * t;
  }

  /** get_dp1_th: one threshold for every row, from the mean of the first
      `margin` columns (big) and of the last `margin` columns (small). When
      the right margin is not darker the threshold is the larger mean. */
  function Dp1Thresholds(prob: Image, margin: int, thr: real): (r: Checked<seq<real>>)
    requires Rectangular(prob)
    ensures r.Ok? <==> 0 <= margin <= Cols(prob)
    ensures r.Ok? ==> |r.value| == |prob|
    ensures r.Ok? ==> forall y | 0 <= y < |r.value| :: r.value[y] == r.value[0]
  {
    if !(0 <= margin <= Cols(prob)) then Abort("colRange outside the image")
    else
      var big := ColMean(prob, 0, margin).value;
      var small := ColMean(prob, Cols(prob) - margin, Cols(prob)).value;
      var th := if !(small < big) then RMax(small, big) else Blend(small, big, thr);
      Ok(seq(|prob|, _ => th))
  }

  /** The pass-1 threshold never leaves the range of the two margin means
      when the weight is in [0, 1]: it is the brighter mean if the right
      margin is not darker, and between the two otherwise; and it is bounded
      by any bounds on the probabilities. */
  lemma Dp1Between(prob: Image, margin: int, thr: real, y: nat)
    requires Rectangular(prob) && 0 <= margin <= Cols(prob) && y < |prob| && 0.0 <= thr <= 1.0
    ensures var big := ColMean(prob, 0, margin).value;
            var small := ColMean(prob, Cols(prob) - margin, Cols(prob)).value;
            var th := Dp1Thresholds(prob, margin, thr).value[y];
            && (!(small < big) ==> th == small)
            && (small < big ==> th == Blend(small, big, thr) && small <= th <= big)
  {
    var big := ColMean(prob, 0, margin).value;
    var small := ColMean(prob, Cols(prob) - margin, Cols(prob)).value;
    if small < big {
      BlendBetween(small, big, thr);
    }
  }

  /** The pass-1 threshold of every row, for any weight: the brighter margin
      mean when the right margin is not darker, and otherwise
      small + (big - small) * thr1. */
  lemma Dp1Value(prob: Image, margin: int, thr: real, y: nat)
    requires Rectangular(prob) && 0 <= margin <= Cols(prob) && y < |prob|
    ensures var big := ColMean(prob, 0, margin).value;
            var small := ColMean(prob, Cols(prob) - margin, Cols(prob)).value;
            var th := Dp1Thresholds(prob, margin, thr).value[y];
            && (!(small < big) ==> th == small && th >= big)
            && (small < big ==> th == small + (big - small) * thr)
  {
  }

  /** With margins of at least one column and probabilities within [a, b],
      the pass-1 threshold is within [a, b] as well. */
  lemma Dp1WithinPixelRange(prob: Image, margin: int, thr: real, a: real, b: real, y: nat)
    requires Rectangular(prob) && 0 < margin <= Cols(prob) && y < |prob| && 0.0 <= thr <= 1.0
    requires forall i, x | 0 <= i < |prob| && 0 <= x < Cols(prob) :: a <= prob[i][x] <= b
    ensures a <= Dp1Thresholds(prob, margin, thr).value[y] <= b
  {
    ColMeanBounds(prob, 0, margin, a, b);
    ColMeanBounds(prob, Cols(prob) - margin, Cols(prob), a, b);
    Dp1Between(prob, margin, thr, y);
  }

  /** The contour_avg means of offsets [-lbb, bound) with `pct` and sign +1,
      in loop order. */
  function OffsetMeans(image: Image, ctr: seq<int>, lbb: int, bound: int, pct: real,
                       root: real -> real): (r: seq<real>)
    requires Rectangular(image) && AvgDefined(image, ctr, pct)
    ensures |r| == Width0(-lbb, bound)
  {
    seq(Width0(-lbb, bound), k requires 0 <= k < Width0(-lbb, bound) =>
      ContourAvg(image, ctr, k - lbb, pct, 1, root).value.mean)
  }

  /** Number of iterations of `for (i = lo; i < hi; ++i)`. */
  function Width0(lo: int, hi: int): nat {
    if lo < hi then hi - lo else 0
  }

  /** The eroded pixels of row y at the clamped columns ctr[y]+i for i in
      [-lbb, bound), in loop order. */
  function RowSamples(eroded: Image, ctr: seq<int>, y: nat, lbb: int, bound: int): (r: seq<real>)
    requires Rectangular(eroded) && y < |eroded| && y < |ctr| && Cols(eroded) >= 1
    ensures |r| == Width0(-lbb, bound)
    ensures forall k | 0 <= k < |r| :: r[k] in eroded[y]
  {
    var s := seq(Width0(-lbb, bound), k requires 0 <= k < Width0(-lbb, bound) =>
      eroded[y][Clamp(ctr[y] + k - lbb, Cols(eroded))]);
    assert forall k | 0 <= k < |s| :: s[k] == eroded[y][Clamp(ctr[y] + k - lbb, Cols(eroded))];
    s
  }

  /** The parameters of get_dp2_th. */
  datatype Dp2Config = Dp2Config(margin: int, thr: real, pct: real, global: bool)

  /** get_dp2_th. With `global` (gth2) one threshold for all rows, whose dark
      level is the least of `big` and the contour means at every offset;
      otherwise each row's dark level is the least of `big` and that row's
      eroded pixels around the contour. `eroded` is cv::erode(image) with a
      mink x mink kernel, taken as given. */
  function Dp2Thresholds(image: Image, eroded: Image, ctr: seq<int>, lbb: int, bound: int,
                         c: Dp2Config, root: real -> real): (r: Checked<seq<real>>)
    requires Rectangular(image) && SameShape(image, eroded)
    ensures r.Ok? ==> |r.value| == |image|
  {
    var big :- ColMean(image, 0, c.margin);
    var loopRuns := -lbb < bound;
    if c.global then
      if loopRuns && !AvgDefined(image, ctr, c.pct) then Abort("contour_avg aborts")
      else
        var means := if loopRuns then OffsetMeans(image, ctr, lbb, bound, c.pct, root) else [];
        var th := Blend(MinFrom(big, means), big, c.thr);
        Ok(seq(|image|, _ => th))
    else if loopRuns && (|ctr| < |image| || Cols(image) == 0) && |image| > 0 then
      Abort("read outside the contour or the row")
    else
      Ok(seq(|image|, y requires 0 <= y < |image| =>
        var samples := if loopRuns then RowSamples(eroded, ctr, y, lbb, bound) else [];
        Blend(MinFrom(big, samples), big, c.thr)))
  }

  /** The dark level is the least of `big` and the samples: at most `big`,
      at most every sample, and equal to `big` or to one of them. */
  predicate DarkLevel(small: real, big: real, samples: seq<real>) {
    && small <= big
    && (forall k | 0 <= k < |samples| :: small <= samples[k])
    && (small == big || small in samples)
  }

  lemma MinFromIsDarkLevel(big: real, samples: seq<real>)
    ensures DarkLevel(MinFrom(big, samples), big, samples)
  {
    MinFromBounds(big, samples);
  }

  /** Per row (no gth2): the threshold interpolates with weight thr between a
      dark level drawn from that row's eroded pixels and the left-margin mean. */
  lemma Dp2RowThreshold(image: Image, eroded: Image, ctr: seq<int>, lbb: int, bound: int,
                        c: Dp2Config, root: real -> real, y: nat)
    requires Rectangular(image) && SameShape(image, eroded) && !c.global
    requires Dp2Thresholds(image, eroded, ctr, lbb, bound, c, root).Ok? && y < |image|
    ensures var big := ColMean(image, 0, c.margin).value;
            var samples := if -lbb < bound then RowSamples(eroded, ctr, y, lbb, bound) else [];
            exists small :: DarkLevel(small, big, samples)
              && Dp2Thresholds(image, eroded, ctr, lbb, bound, c, root).value[y] == Blend(small, big, c.thr)
  {
    var big := ColMean(image, 0, c.margin).value;
    var samples := if -lbb < bound then RowSamples(eroded, ctr, y, lbb, bound) else [];
    MinFromIsDarkLevel(big, samples);
    assert Dp2Thresholds(image, eroded, ctr, lbb, bound, c, root).value[y] == Blend(MinFrom(big, samples), big, c.thr);
  }

  /** With gth2: every row gets the same threshold, interpolating between a
      dark level drawn from the contour means at offsets [-lbb, bound) and
      the left-margin mean. */
  lemma Dp2GlobalThreshold(image: Image, eroded: Image, ctr: seq<int>, lbb: int, bound: int,
                           c: Dp2Config, root: real -> real, y: nat)
    requires Rectangular(image) && SameShape(image, eroded) && c.global
    requires Dp2Thresholds(image, eroded, ctr, lbb, bound, c, root).Ok? && y < |image|
    ensures var big := ColMean(image, 0, c.margin).value;
            var means := if -lbb < bound then OffsetMeans(image, ctr, lbb, bound, c.pct, root) else [];
            exists small :: DarkLevel(small, big, means)
              && Dp2Thresholds(image, eroded, ctr, lbb, bound, c, root).value[y] == Blend(small, big, c.thr)
  {
    var big := ColMean(image, 0, c.margin).value;
    var means := if -lbb < bound then OffsetMeans(image, ctr, lbb, bound, c.pct, root) else [];
    MinFromIsDarkLevel(big, means);
    assert Dp2Thresholds(image, eroded, ctr, lbb, bound, c, root).value[y] == Blend(MinFrom(big, means), big, c.thr);
  }

  /** A threshold drawn from a dark level lies between that level and the
      left-margin mean for a weight in [0, 1]. */
  lemma DarkBlendBetween(small: real, big: real, samples: seq<real>, t: real)
    requires DarkLevel(small, big, samples) && 0.0 <= t <= 1.0
    ensures small <= Blend(small, big, t) <= big
  {
    BlendBetween(small, big, t);
  }

  /** The conditions under which get_dp2_th completes: the margin columns
      exist, and when the offset loop runs, contour_avg is defined (gth2) or
      every row has a contour column and the rows have columns. */
  lemma Dp2Defined(image: Image, eroded: Image, ctr: seq<int>, lbb: int, bound: int,
                   c: Dp2Config, root: real -> real)
    requires Rectangular(image) && SameShape(image, eroded)
    ensures Dp2Thresholds(image, eroded, ctr, lbb, bound, c, root).Ok? <==>
      && 0 <= c.margin <= Cols(image)
      && (-lbb < bound && c.global ==> AvgDefined(image, ctr, c.pct))
      && (-lbb < bound && !c.global && |image| > 0 ==> |ctr| >= |image| && Cols(image) > 0)
  {
  }
}

=== FILE: volume.dfy ===
/** Ventricle volumes from a study's slice report (predict.cpp:12-87). A
    report holds, per short-axis series, per time slice, the segmented area
    in pixels, the pixel spacing and the slice location. Neighbouring series
    bound a frustum whose volume (a + b + sqrt(ab)) * gap / 3 is summed over
    the stack. `root` stands for sqrtf. */
module Volume {
  import opened Checks
  import opened Numeric

  datatype Slice = Slice(area: real, spacing: real, location: real)

  /** rep[sax][slice], as a StudyReport. */
  type Report = seq<seq<Slice>>

  /** Systole and diastole volumes, in millilitres. */
  datatype Volumes = Volumes(sys: real, dia: real)

  /** The area in square millimetres: pixels times sqr(spacing). */
  function Area(s: Slice): real {
    s.area * (s.spacing * s.spacing)
  }

  /** The distance between two slice planes; a gap above 25 mm is taken
      to be a missing series and counted as 10. */
  function Gap(l1: real, l2: real): (g: real)
    ensures 0.0 <= g <= 25.0
  {
    var d := Abs(l2 - l1);
    if d > 25.0 then 10.0 else d
  }

  /** The frustum between two parallel sections of areas a and b. */
  function Frustum(a: real, b: real, gap: real, root: real -> real): real {
    (a + b + root(a * b)) * gap / 3.0
  }

  /** Every series has a slice sl. */
  predicate HasSlice(rep: Report, sl: nat) {
    forall sax | 0 <= sax < |rep| :: sl < |rep[sax]|
  }

  /** The inner loop of compute1 over the first k series pairs at time
      slice sl. */
  function StackVolume(rep: Report, sl: nat, k: nat, root: real -> real): real
    requires HasSlice(rep, sl) && k < |rep|
  {
    if k == 0 then 0.0
    else
      StackVolume(rep, sl, k - 1, root)
        + Frustum(Area(rep[k - 1][sl]), Area(rep[k][sl]),
                  Gap(rep[k - 1][sl].location, rep[k][sl].location), root)
  }

  /** The volume of time slice sl, in millilitres. */
  function SliceVolume(rep: Report, sl: nat, root: real -> real): real
    requires HasSlice(rep, sl) && |rep| > 0
  {
    StackVolume(rep, sl, |rep| - 1, root) / 1000.0
  }

  /** Whether every series has as many slices as the first. */
  predicate SameCounts(rep: Report)
    requires |rep| > 0
  {
    forall i | 0 <= i < |rep| :: |rep[i]| == |rep[0]|
  }

  /** compute1: None (returns false, writes nothing) when the series
      disagree on the number of slices. rep[0] and all[0] are read
      unconditionally, so an empty report or empty series aborts. sys is
      the least slice volume; dia the greatest, unless every slice volume
      is less than 1.2 times the first slice's, in which case the first. */
  function Compute1(rep: Report, root: real -> real): (r: Checked<Option<Volumes>>)
    ensures r.Ok? <==> |rep| > 0 && (!SameCounts(rep) || |rep[0]| > 0)
    ensures r.Ok? ==> (r.value.None? <==> !SameCounts(rep))
    ensures r.Ok? && r.value.Some? ==>
              var v := r.value.value;
              var all := seq(|rep[0]|, sl requires 0 <= sl < |rep[0]| => SliceVolume(rep, sl, root));
              && (forall sl | 0 <= sl < |all| :: v.sys <= all[sl])
              && v.sys in all && v.dia in all
              && v.sys <= all[0] <= v.dia
              && (v.dia == all[0] || forall sl | 0 <= sl < |all| :: all[sl] <= v.dia)
              && ((forall sl | 0 <= sl < |all| :: all[sl] < all[0] * 1.2) ==> v.dia == all[0])
              && ((exists sl | 0 <= sl < |all| :: all[sl] >= all[0] * 1.2) ==>
                    forall sl | 0 <= sl < |all| :: all[sl] <= v.dia)
  {
    if |rep| == 0 then Abort("rep[0] of an empty report")
    else if !SameCounts(rep) then Ok(None)
    else if |rep[0]| == 0 then Abort("all[0] of no slices")
    else
      var n := |rep[0]|;
      assert forall sl | 0 <= sl < n :: HasSlice(rep, sl);
      var all := seq(n, sl requires 0 <= sl < n => SliceVolume(rep, sl, root));
      var m := MinFrom(all[0], all[1..]);
      var big := MaxFrom(all[0], all[1..]);
      MinFromBounds(all[0], all[1..]);
      MaxFromBounds(all[0], all[1..]);
      assert forall sl | 1 <= sl < n :: all[sl] == all[1..][sl - 1];
      var dia := if big < all[0] * 1.2 then all[0] else big;
      Ok(Some(Volumes(m, dia)))
  }

  /** With non-negative areas and a non-negative square root, no volume is
      negative. */
  lemma {:induction false} StackVolumeNonNegative(rep: Report, sl: nat, k: nat, root: real -> real)
    requires HasSlice(rep, sl) && k < |rep|
    requires forall sax | 0 <= sax < |rep| :: rep[sax][sl].area >= 0.0
    requires forall x :: root(x) >= 0.0
    ensures StackVolume(rep, sl, k, root) >= 0.0
  {
    if k > 0 {
      StackVolumeNonNegative(rep, sl, k - 1, root);
      var a := Area(rep[k - 1][sl]);
      var b := Area(rep[k][sl]);
      AreaNonNegative(rep[k - 1][sl]);
      AreaNonNegative(rep[k][sl]);
      var g := Gap(rep[k - 1][sl].location, rep[k][sl].location);
      FrustumNonNegative(a, b, g, root);
    }
  }

  lemma FrustumNonNegative(a: real, b: real, g: real, root: real -> real)
    requires 0.0 <= a && 0.0 <= b && 0.0 <= g && root(a * b) >= 0.0
    ensures Frustum(a, b, g, root) >= 0.0
  {
    var x := a + b + root(a * b);
    MulNonNegative(x, g);
    assert Frustum(a, b, g, root) == x * g / 3.0;
  }

  lemma AreaNonNegative(s: Slice)
    requires s.area >= 0.0
    ensures Area(s) >= 0.0
  {
    var d := s.spacing;
    if d < 0.0 {
      MulNonNegative(-d, -d);
      assert (-d) * (-d) == d * d;
    } else {
      MulNonNegative(d, d);
    }
    MulNonNegative(s.area, d * d);
  }

  /** The state of compute2's loop: the extreme areas and the location of
      the previous series, and the two running sums. */
  datatype Acc = Acc(oma: real, oMa: real, ol: real, m: real, big: real)

  /** The least and greatest area of one series, starting from its first
      slice. */
  function SeriesMin(ss: seq<Slice>): real
    requires |ss| > 0
  {
    MinFrom(Area(ss[0]), AreasOf(ss))
  }

  function SeriesMax(ss: seq<Slice>): real
    requires |ss| > 0
  {
    MaxFrom(Area(ss[0]), AreasOf(ss))
  }

  function AreasOf(ss: seq<Slice>): (a: seq<real>)
    ensures |a| == |ss| && forall k | 0 <= k < |ss| :: a[k] == Area(ss[k])
  {
    seq(|ss|, k requires 0 <= k < |ss| => Area(ss[k]))
  }

  /** A series' least area is at most its greatest. */
  lemma SeriesRange(ss: seq<Slice>)
    requires |ss| > 0
    ensures SeriesMin(ss) <= Area(ss[0]) <= SeriesMax(ss)
    ensures forall k | 0 <= k < |ss| :: SeriesMin(ss) <= Area(ss[k]) <= SeriesMax(ss)
  {
    MinFromBounds(Area(ss[0]), AreasOf(ss));
    MaxFromBounds(Area(ss[0]), AreasOf(ss));
  }

  /** compute2's loop from series i on. */
  function Compute2From(rep: Report, i: nat, acc: Acc, root: real -> real): Acc
    requires forall k | 0 <= k < |rep| :: |rep[k]| > 0
    decreases |rep| - i
  {
    if i >= |rep| then acc
    else
      var ma := SeriesMin(rep[i]);
      var big := SeriesMax(rep[i]);
      var l := rep[i][0].location;
      var next :=
        if i > 0 then
          var gap := Gap(acc.ol, l);
          acc.(m := acc.m + Frustum(acc.oma, ma, gap, root), big := acc.big + Frustum(acc.oMa, big, gap, root))
        else acc;
      Compute2From(rep, i + 1, next.(oma := ma, oMa := big, ol := l), root)
  }

  /** compute2: per series, the least and the greatest area stand for
      systole and diastole, and the frustums between neighbouring series
      are summed for each. ss[0] is read unconditionally, so an empty series
      aborts. */
  function Compute2(rep: Report, root: real -> real): (r: Checked<Volumes>)
    ensures r.Ok? <==> forall k | 0 <= k < |rep| :: |rep[k]| > 0
    ensures r.Ok? && |rep| <= 1 ==> r.value == Volumes(0.0, 0.0)
  {
    if exists k | 0 <= k < |rep| :: |rep[k]| == 0 then Abort("ss[0] of an empty series")
    else
      var acc := Compute2From(rep, 0, Acc(0.0, 0.0, 0.0, 0.0, 0.0), root);
      assert |rep| == 1 ==> acc == Compute2From(rep, 1, Acc(SeriesMin(rep[0]), SeriesMax(rep[0]), rep[0][0].location, 0.0, 0.0), root);
      Ok(Volumes(acc.m / 1000.0, acc.big / 1000.0))
  }

  ghost predicate Monotone(root: real -> real) {
    forall x, y | 0.0 <= x <= y :: root(x) <= root(y)
  }

  predicate AreasNonNegative(rep: Report) {
    forall k, j | 0 <= k < |rep| && 0 <= j < |rep[k]| :: rep[k][j].area >= 0.0
  }

  /** The systole sum never exceeds the diastole sum: with non-negative
      areas and a monotone square root, every frustum built on the least
      areas is at most the one built on the greatest. */
  lemma {:induction false} Compute2FromOrdered(rep: Report, i: nat, acc: Acc, root: real -> real)
    requires forall k | 0 <= k < |rep| :: |rep[k]| > 0
    requires AreasNonNegative(rep) && Monotone(root)
    requires 0.0 <= acc.oma <= acc.oMa && acc.m <= acc.big
    ensures var r := Compute2From(rep, i, acc, root);
            r.m <= r.big
    decreases |rep| - i
  {
    if i < |rep| {
      var ss := rep[i];
      SeriesRange(ss);
      var ma := SeriesMin(ss);
      var big := SeriesMax(ss);
      assert ma >= 0.0 by {
        MinFromBounds(Area(ss[0]), AreasOf(ss));
        forall k | 0 <= k < |ss| ensures Area(ss[k]) >= 0.0 { AreaNonNegative(ss[k]); }
        AreaNonNegative(ss[0]);
      }
      var l := ss[0].location;
      var next :=
        if i > 0 then
          var gap := Gap(acc.ol, l);
          acc.(m := acc.m + Frustum(acc.oma, ma, gap, root), big := acc.big + Frustum(acc.oMa, big, gap, root))
        else acc;
      if i > 0 {
        FrustumMonotone(acc.oma, ma, acc.oMa, big, Gap(acc.ol, l), root);
      }
      Compute2FromOrdered(rep, i + 1, next.(oma := ma, oMa := big, ol := l), root);
    }
  }

  lemma FrustumMonotone(a: real, b: real, A: real, B: real, gap: real, root: real -> real)
    requires 0.0 <= a <= A && 0.0 <= b <= B && gap >= 0.0 && Monotone(root)
    ensures Frustum(a, b, gap, root) <= Frustum(A, B, gap, root)
  {
    MulMonotone(a, b, A, B);
    MulNonNegative(a, b);
    assert root(a * b) <= root(A * B);
    var lo := a + b + root(a * b);
    var hi := A + B + root(A * B);
    MulNonNegative(hi - lo, gap);
    assert (hi - lo) * gap == hi * gap - lo * gap;
  }

  lemma MulMonotone(a: real, b: real, A: real, B: real)
    requires 0.0 <= a <= A && 0.0 <= b <= B
    ensures a * b <= A * B
  {
    MulNonNegative(A, B - b);
    MulNonNegative(b, A - a);
    assert A * B - a * b == A * (B - b) + b * (A - a);
  }

  lemma Compute2Ordered(rep: Report, root: real -> real)
    requires AreasNonNegative(rep) && Monotone(root)
    requires Compute2(rep, root).Ok?
    ensures Compute2(rep, root).value.sys <= Compute2(rep, root).value.dia
  {
    Compute2FromOrdered(rep, 0, Acc(0.0, 0.0, 0.0, 0.0, 0.0), root);
  }
}

=== FILE: window.dfy ===
/** The circular-window average of CA1::contour_avg (adsb2-ca1.cpp:212-259):
    sample the image at a fixed offset from the contour, then average the
    best run of N consecutive samples around the circle, where the run is
    chosen by a prefix-sum scan over the samples written out twice. */
module ContourWindow {
  import opened Checks
  import opened Numeric
  import opened Raster
  import opened DivMod

  /** Mean and standard deviation of the averaged samples. */
  datatype Avg = Avg(mean: real, sigma: real)

  /** The pixel of row i at column ctr[i]+delta, the column clamped into the
      row (adsb2-ca1.cpp:214-221). */
  function Samples(image: Image, ctr: seq<int>, delta: int): (v: seq<real>)
    requires Rectangular(image) && |ctr| == |image| && (|image| > 0 ==> Cols(image) >= 1)
    ensures |v| == |ctr|
    ensures forall i | 0 <= i < |v| :: v[i] in image[i]
  {
    var s := seq(|ctr|, i requires 0 <= i < |ctr| => image[i][Clamp(ctr[i] + delta, Cols(image))]);
    assert forall i | 0 <= i < |s| :: s[i] == image[i][Clamp(ctr[i] + delta, Cols(image))];
    s
  }

  /** `int N = n * pct`, then `if (N > n) N = n`: the float is truncated toward
      zero, and the comparison is between an int and a size_t, so a negative N
      also compares above n and becomes n (adsb2-ca1.cpp:224-225). */
  function WindowLength(n: nat, pct: real): (r: nat)
    ensures r <= n
    ensures pct >= 0.0 ==> r == n || r as real <= n as real * pct < r as real + 1.0
    ensures n as real * pct <= -1.0 ==> r == n
  {
    var t := Trunc(n as real * pct);
    if t < 0 || t > n then n else t
  }

  /** The samples, written out twice, followed by the first sample again
      (adsb2-ca1.cpp:230-235). */
  function Doubled(v: seq<real>): (d: seq<real>)
    requires |v| > 0
    ensures |d| == 2 * |v| + 1
    ensures forall k | 0 <= k < |d| :: d[k] == v[k % |v|]
  {
    var d := v + v + [v[0]];
    assert forall k | 0 <= k < |d| :: d[k] == v[k % |v|] by {
      forall k | 0 <= k < |d| ensures d[k] == v[k % |v|] {
        if k < |v| {
          DivModUnique(k, 0, k, |v|);
        } else if k < 2 * |v| {
          DivModUnique(k, 1, k - |v|, |v|);
        } else {
          DivModUnique(k, 2, 0, |v|);
        }
      }
    }
    d
  }

  /** std::partial_sum: entry k is the sum of d[0..k]. */
  function PartialSums(d: seq<real>): (r: seq<real>)
    ensures |r| == |d|
  {
    seq(|d|, k requires 0 <= k < |d| => Sum(d[..k + 1]))
  }

  /** The sum the scan scores window i by: the N samples after position i. */
  function WindowSum(d: seq<real>, i: nat, n: nat): real
    requires i + n < |d|
  {
    Sum(d[i + 1..i + n + 1])
  }

  /** A difference of partial sums is the sum of the N samples after i, not
      of the N samples starting at i. */
  lemma PartialSumsDiff(d: seq<real>, i: nat, n: nat)
    requires i + n < |d|
    ensures PartialSums(d)[i + n] - PartialSums(d)[i] == WindowSum(d, i, n)
  {
    SumSliceDiff(d, i + 1, i + n + 1);
  }

  /** The window loop (adsb2-ca1.cpp:239-246) from position i: window i
      replaces the best one only if its signed score is strictly smaller. */
  function ScanWindows(intv: seq<real>, n: nat, sign: int, i: nat, best: nat, bestDiff: real): (r: nat)
    ensures r == best || i <= r < |intv| - n
    decreases |intv| - i
  {
    if i + n >= |intv| then best
    else
      var diff := (intv[i + n] - intv[i]) * sign as real;
      if diff < bestDiff then ScanWindows(intv, n, sign, i + 1, i, diff)
      else ScanWindows(intv, n, sign, i + 1, best, bestDiff)
  }

  /** `best_begin`: 0 when the window covers every sample, otherwise the
      scan's choice over the doubled samples, starting from the sentinel
      FLT_MAX * sign. */
  function WindowStart(v: seq<real>, n: nat, sign: int): (b: nat)
    requires 0 < n <= |v|
    ensures b + n <= 2 * |v|
  {
    if n == |v| then 0
    else
      var d := Doubled(v);
      ScanWindows(PartialSums(d), n, sign, 0, 0, FloatMax * sign as real)
  }

  /** The samples averaged: n consecutive samples from best_begin. */
  function Window(v: seq<real>, n: nat, sign: int): (w: seq<real>)
    requires 0 < n <= |v|
    ensures |w| == n
    ensures forall k | 0 <= k < n :: w[k] == v[(WindowStart(v, n, sign) + k) % |v|]
  {
    var b := WindowStart(v, n, sign);
    if n == |v| then
      assert forall k | 0 <= k < n :: k % |v| == k by {
        forall k | 0 <= k < n ensures k % |v| == k {
          DivModUnique(k, 0, k, |v|);
        }
      }
      v
    else
      var d := Doubled(v);
      var w := d[b..b + n];
      assert forall k | 0 <= k < n :: w[k] == d[b + k];
      w
  }

  /** Population variance, as boost's variance accumulator computes it. */
  function Variance(w: seq<real>): real {
    if |w| == 0 then 0.0
    else
      var m := Mean(w);
      Sum(seq(|w|, k requires 0 <= k < |w| => (w[k] - m) * (w[k] - m))) / |w| as real
  }

  lemma VarianceNonNegative(w: seq<real>)
    ensures Variance(w) >= 0.0
  {
    if |w| > 0 {
      var m := Mean(w);
      var sq := seq(|w|, k requires 0 <= k < |w| => (w[k] - m) * (w[k] - m));
      forall k | 0 <= k < |sq| ensures 0.0 <= sq[k] {
        SquareNonNegative(w[k] - m);
      }
      SumNonNegative(sq);
    }
  }

  /** What contour_avg requires of its inputs: one contour column per row,
      at least one column to read, and a window longer than half the
      samples. */
  predicate AvgDefined(image: Image, ctr: seq<int>, pct: real) {
    && |ctr| == |image| && |image| > 0 && Cols(image) >= 1
    && WindowLength(|image|, pct) > |image| / 2
  }

  /** contour_avg (adsb2-ca1.cpp:212-259). `root` is std::sqrt. Aborts when the
      contour and the image disagree in length, when there is no column to
      read, or when the window is not longer than half the samples. */
  function ContourAvg(image: Image, ctr: seq<int>, delta: int, pct: real, sign: int,
                      root: real -> real): (r: Checked<Avg>)
    requires Rectangular(image)
    ensures r.Ok? <==> AvgDefined(image, ctr, pct)
  {
    if |ctr| != |image| then Abort("ctr.size() != image.rows")
    else if |image| > 0 && Cols(image) == 0 then Abort("read outside the row")
    else
      var v := Samples(image, ctr, delta);
      var n := WindowLength(|v|, pct);
      if !(n > |v| / 2) then Abort("N <= ctr.size() / 2")
      else
        var w := Window(v, n, sign);
        Ok(Avg(Mean(w), root(Variance(w))))
  }

  /** Every averaged sample is a pixel of the image, so the mean lies within
      any bounds on the pixels. */
  lemma ContourAvgBounds(image: Image, ctr: seq<int>, delta: int, pct: real, sign: int,
                         root: real -> real, lo: real, hi: real)
    requires Rectangular(image) && AvgDefined(image, ctr, pct)
    requires forall y, x | 0 <= y < |image| && 0 <= x < Cols(image) :: lo <= image[y][x] <= hi
    ensures lo <= ContourAvg(image, ctr, delta, pct, sign, root).value.mean <= hi
  {
    var v := Samples(image, ctr, delta);
    var n := WindowLength(|v|, pct);
    var w := Window(v, n, sign);
    forall k | 0 <= k < |w| ensures lo <= w[k] <= hi {
      var i := (WindowStart(v, n, sign) + k) % |v|;
      assert v[i] in image[i];
      var x :| 0 <= x < |image[i]| && v[i] == image[i][x];
    }
    MeanBounds(w, lo, hi);
  }

  /** The averaged run is n samples in circular order, so its mean is the mean
      of those samples; with the whole contour (n == |v|) it is the plain mean
      of all samples. */
  lemma WholeContourMean(image: Image, ctr: seq<int>, delta: int, pct: real, sign: int, root: real -> real)
    requires Rectangular(image) && AvgDefined(image, ctr, pct) && WindowLength(|image|, pct) == |image|
    ensures ContourAvg(image, ctr, delta, pct, sign, root).value.mean == Mean(Samples(image, ctr, delta))
  {
  }

  /** Window i is the first with the least sum among windows [0, hi). */
  predicate FirstMinWindow(d: seq<real>, n: nat, hi: nat, b: nat)
    requires hi + n <= |d|
  {
    && b < hi
    && (forall j | 0 <= j < hi :: WindowSum(d, b, n) <= WindowSum(d, j, n))
    && (forall j | 0 <= j < b :: WindowSum(d, b, n) < WindowSum(d, j, n))
  }

  /** Some window among [0, hi) sums to less than FLT_MAX. */
  predicate SomeBelowMax(d: seq<real>, n: nat, hi: nat)
    requires hi + n <= |d|
  {
    exists j | 0 <= j < hi :: WindowSum(d, j, n) < FloatMax
  }

  /** Loop invariant of the window scan with sign +1, after windows [0, i). */
  predicate MinInv(d: seq<real>, n: nat, i: nat, best: nat, bestDiff: real)
    requires i + n <= |d|
  {
    if SomeBelowMax(d, n, i) then FirstMinWindow(d, n, i, best) && bestDiff == WindowSum(d, best, n)
    else best == 0 && bestDiff == FloatMax
  }

  /** A window strictly below the best so far becomes the new best. */
  lemma MinStepTake(d: seq<real>, n: nat, i: nat, best: nat, bestDiff: real)
    requires i + n < |d|
    requires MinInv(d, n, i, best, bestDiff) && WindowSum(d, i, n) < bestDiff
    ensures MinInv(d, n, i + 1, i, WindowSum(d, i, n))
  {
    var s := WindowSum(d, i, n);
    if SomeBelowMax(d, n, i) {
      var w :| 0 <= w < i && WindowSum(d, w, n) < FloatMax;
      assert bestDiff <= WindowSum(d, w, n);
    } else {
      assert forall j | 0 <= j < i :: FloatMax <= WindowSum(d, j, n);
    }
    assert SomeBelowMax(d, n, i + 1) by {
      assert 0 <= i < i + 1 && WindowSum(d, i, n) < FloatMax;
    }
  }

  /** A window not below the best so far leaves the best in place. */
  lemma MinStepKeep(d: seq<real>, n: nat, i: nat, best: nat, bestDiff: real)
    requires i + n < |d|
    requires MinInv(d, n, i, best, bestDiff) && !(WindowSum(d, i, n) < bestDiff)
    ensures MinInv(d, n, i + 1, best, bestDiff)
  {
    if !SomeBelowMax(d, n, i) {
      assert forall j | 0 <= j < i + 1 :: FloatMax <= WindowSum(d, j, n);
    }
  }

  /** `intv` scores every window as its sum: what the partial sums provide
      to the scan. */
  predicate ScoresWindows(intv: seq<real>, d: seq<real>, n: nat) {
    && |intv| == |d|
    && forall j | 0 <= j && j + n < |d| :: intv[j + n] - intv[j] == WindowSum(d, j, n)
  }

  lemma PartialSumsScore(d: seq<real>, n: nat)
    ensures ScoresWindows(PartialSums(d), d, n)
  {
    forall j | 0 <= j && j + n < |d| ensures PartialSums(d)[j + n] - PartialSums(d)[j] == WindowSum(d, j, n) {
      PartialSumsDiff(d, j, n);
    }
  }

  /** One step of the window loop, in terms of window sums: `s` is window
      i's signed score. */
  lemma ScanWindowsStep(intv: seq<real>, d: seq<real>, n: nat, sign: int, i: nat, best: nat, bestDiff: real, s: real)
    requires ScoresWindows(intv, d, n) && i + n < |d| && s == WindowSum(d, i, n) * sign as real
    ensures ScanWindows(intv, n, sign, i, best, bestDiff)
         == if s < bestDiff then ScanWindows(intv, n, sign, i + 1, i, s)
            else ScanWindows(intv, n, sign, i + 1, best, bestDiff)
  {
    assert (intv[i + n] - intv[i]) * sign as real == s;
  }

  /** The scan from window i, whose result is r, ends on the first least
      window. */
  lemma {:induction false} ScanMinInvariant(intv: seq<real>, d: seq<real>, n: nat, i: nat, best: nat, bestDiff: real, r: nat)
    requires ScoresWindows(intv, d, n) && i + n <= |d|
    requires MinInv(d, n, i, best, bestDiff) && r == ScanWindows(intv, n, 1, i, best, bestDiff)
    ensures ScanMinResult(d, n, r)
    decreases |d| - i
  {
    if i + n < |d| {
      MinNext(d, n, i, best, bestDiff);
      ScanNext(intv, d, n, i, best, bestDiff);
      ScanMinInvariant(intv, d, n, i + 1, NextBest(d, n, i, best, bestDiff), NextDiff(d, n, i, bestDiff), r);
    }
  }

  /** The best window and its sum after the scan has looked at window i. */
  function NextBest(d: seq<real>, n: nat, i: nat, best: nat, bestDiff: real): nat
    requires i + n < |d|
  {
    if WindowSum(d, i, n) < bestDiff then i else best
  }

  function NextDiff(d: seq<real>, n: nat, i: nat, bestDiff: real): real
    requires i + n < |d|
  {
    if WindowSum(d, i, n) < bestDiff then WindowSum(d, i, n) else bestDiff
  }

  lemma MinNext(d: seq<real>, n: nat, i: nat, best: nat, bestDiff: real)
    requires i + n < |d| && MinInv(d, n, i, best, bestDiff)
    ensures MinInv(d, n, i + 1, NextBest(d, n, i, best, bestDiff), NextDiff(d, n, i, bestDiff))
  {
    if WindowSum(d, i, n) < bestDiff {
      MinStepTake(d, n, i, best, bestDiff);
    } else {
      MinStepKeep(d, n, i, best, bestDiff);
    }
  }

  lemma ScanNext(intv: seq<real>, d: seq<real>, n: nat, i: nat, best: nat, bestDiff: real)
    requires ScoresWindows(intv, d, n) && i + n < |d|
    ensures ScanWindows(intv, n, 1, i, best, bestDiff)
         == ScanWindows(intv, n, 1, i + 1, NextBest(d, n, i, best, bestDiff), NextDiff(d, n, i, bestDiff))
  {
    var s := WindowSum(d, i, n);
    assert s * 1 as real == s;
    ScanWindowsStep(intv, d, n, 1, i, best, bestDiff, s);
  }


  /** What the scan with sign +1 returns: the first least window among all
      |d| - n positions when some window sums to less than FLT_MAX, and 0
      otherwise. */
  predicate ScanMinResult(d: seq<real>, n: nat, r: nat)
    requires n <= |d|
  {
    && (SomeBelowMax(d, n, |d| - n) ==> FirstMinWindow(d, n, |d| - n, r))
    && (!SomeBelowMax(d, n, |d| - n) ==> r == 0)
  }

  /** With sign +1 and a window shorter than the contour, best_begin is the
      first position whose window sum is least among all 2n+1-N positions of
      the doubled samples, provided some window sums to less than FLT_MAX;
      otherwise it stays 0. */
  lemma WindowStartDarkest(v: seq<real>, n: nat)
    requires 0 < n < |v|
    ensures var d := Doubled(v);
            && (SomeBelowMax(d, n, |d| - n) ==> FirstMinWindow(d, n, |d| - n, WindowStart(v, n, 1)))
            && (!SomeBelowMax(d, n, |d| - n) ==> WindowStart(v, n, 1) == 0)
  {
    var d := Doubled(v);
    assert FloatMax * 1 as real == FloatMax;
    assert MinInv(d, n, 0, 0, FloatMax);
    PartialSumsScore(d, n);
    ScanMinInvariant(PartialSums(d), d, n, 0, 0, FloatMax, WindowStart(v, n, 1));
  }

  /** With sign -1 the sentinel is -FLT_MAX and a window replaces it only if
      its sum exceeds FLT_MAX, so best_begin stays 0 for every contour whose
      window sums are at most FLT_MAX. */
  lemma WindowStartNegativeSign(v: seq<real>, n: nat)
    requires 0 < n <= |v|
    requires n < |v| ==> forall j | 0 <= j < |Doubled(v)| - n :: WindowSum(Doubled(v), j, n) <= FloatMax
    ensures WindowStart(v, n, -1) == 0
  {
    if n < |v| {
      PartialSumsScore(Doubled(v), n);
      ScanNegativeKeeps(PartialSums(Doubled(v)), Doubled(v), n, 0);
    }
  }

  lemma {:induction false} ScanNegativeKeeps(intv: seq<real>, d: seq<real>, n: nat, i: nat)
    requires ScoresWindows(intv, d, n) && i + n <= |d|
    requires forall j | i <= j < |d| - n :: WindowSum(d, j, n) <= FloatMax
    ensures ScanWindows(intv, n, -1, i, 0, FloatMax * -1 as real) == 0
    decreases |d| - i
  {
    if i + n < |d| {
      var s := WindowSum(d, i, n) * -1 as real;
      assert !(s < FloatMax * -1 as real) by {
        assert WindowSum(d, i, n) <= FloatMax;
      }
      ScanWindowsStep(intv, d, n, -1, i, 0, FloatMax * -1 as real, s);
      ScanNegativeKeeps(intv, d, n, i + 1);
    }
  }

  /** The run that is averaged starts one position before the run that was
      scored: the scored sum drops the first averaged sample and adds the
      sample after the last. */
  lemma ScoredRunIsShifted(v: seq<real>, n: nat, sign: int)
    requires 0 < n < |v|
    ensures var d := Doubled(v);
            var b := WindowStart(v, n, sign);
            b + n < |d| && WindowSum(d, b, n) == Sum(Window(v, n, sign)) - d[b] + d[b + n]
  {
    WindowIsRun(v, n, sign);
    RunShift(Doubled(v), WindowStart(v, n, sign), n);
  }

  /** The scored sum of position b is the run from b shifted by one. */
  lemma RunShift(d: seq<real>, b: nat, n: nat)
    requires b + n < |d|
    ensures WindowSum(d, b, n) == Sum(d[b..b + n]) - d[b] + d[b + n]
  {
    var run := d[b..b + n + 1];
    assert Sum(run) == d[b] + WindowSum(d, b, n) by {
      assert run == [d[b]] + d[b + 1..b + n + 1];
      SumAppend([d[b]], d[b + 1..b + n + 1]);
    }
    assert Sum(run) == Sum(d[b..b + n]) + d[b + n] by {
      assert run == d[b..b + n] + [d[b + n]];
      SumSnoc(d[b..b + n], d[b + n]);
    }
  }

  /** A window shorter than the contour is a run of the doubled samples. */
  lemma WindowIsRun(v: seq<real>, n: nat, sign: int)
    requires 0 < n < |v|
    ensures var b := WindowStart(v, n, sign);
            b + n < |Doubled(v)| && Window(v, n, sign) == Doubled(v)[b..b + n]
  {
  }
}
